=== FILE: README.md ===
# MRI web platform: a Dafny model of its client state and upload rules

The system is a brain-MRI web application. A React client uploads DICOM or NIfTI
scans, starts MATLAB/CAT12 processing and polls the task until it completes or fails.
It also manages patients and shows the segmentation overlays. A Flask back end
checks the uploads, queues processing tasks and keeps a per-user patient registry.

This project models that core as pure Dafny functions and methods, and proves what
the code promises:

- **Client stores.** The Redux slices for uploads, patients and authentication, and
  the inline reducers of the two `App.js` clients. Proved: status fields stay within
  their documented values, each action writes only its own keys, RESET and LOGOUT
  forget history, and add-then-delete restores the list.
- **Pollers.** Every status poller is one step: it takes a reply and returns the new
  state and a decision, poll again in 2000 ms or stop. The `ImageCompare` retry loop
  is a method with loop invariants: at most three requests, with waits of 1000 ms,
  then 2000 ms.
- **Validators.** All the upload validators, client and server, including the DICOM
  `DICM` prefix check. The patient-form and patient-data checks, with JavaScript's
  `Number(text)` and `parseInt(text, 10)` spelled out.
- **Back end.** The processing-queue task lifecycle, with progress 10, 30, 80, 100.
  The patient endpoints over a map-based store, with `patient_id` uniqueness,
  per-user ownership and cascading delete as preserved invariants.

Network replies, MATLAB steps and clocks are parameters: a reply datatype, or a
function from the request to its outcome.

Layout: one module per source component, plus shared vocabulary:

- `Common`: optional values, JavaScript `||` and truthiness, ASCII case folding,
  substrings, trimming and rounding.
- `Seqs`: `filter`, `indexOf` and `splice`.
- `JsNumber`: `parseInt` and `Number` on strings.
- `Http`: the axios error shape.

## Model

| member | source | states |
|---|---|---|
| UploadStore.Reduce | frontend/src/store/reducers/uploadReducer.js:35-122 | each action sets the documented fields and keeps every key outside its write set; the two statuses stay within their four values; RESET yields the initial state and unknown actions change nothing |
| UploadStore.WellFormedForever | frontend/src/store/reducers/uploadReducer.js:20-23 | from a state whose statuses are among the documented values, no sequence of actions leaves them |
| UploadStore.ResetForgetsHistory | frontend/src/store/reducers/uploadReducer.js:118-119 | whatever was dispatched before a RESET, what follows acts on the initial state |
| UploadStore.Idempotent | frontend/src/store/reducers/uploadReducer.js:35-122 | dispatching any action twice gives the same state as dispatching it once |
| UploadStore.ReduceAllShort | frontend/src/store/reducers/uploadReducer.js:33-34 | dispatching zero, one or two actions in order is applying the reducer that many times |
| PatientStore.WithoutId | frontend/src/store/reducers/patientReducer.js:55-57 | the list without patients of that id: an order-preserving subsequence holding every copy of every other patient and nothing else |
| PatientStore.Reduce | frontend/src/store/reducers/patientReducer.js:21-84 | SET/ADD replace or append and clear loading and error; UPDATE replaces every entry with the id and the selected patient if it matches; DELETE drops them, keeping every copy of the others in order, and clears a matching selection; SET_SELECTED and SET_LOADING change only their field, SET_ERROR also ends loading; other actions change nothing |
| PatientStore.AddThenDelete | frontend/src/store/reducers/patientReducer.js:31-61 | adding a patient with a new id and deleting that id restores the list |
| PatientStore.DeleteRemovesAll | frontend/src/store/reducers/patientReducer.js:52-61 | after DELETE no patient with the id remains, the list is no longer, and a list without the id is untouched |
| PatientStore.UpdateIdempotent | frontend/src/store/reducers/patientReducer.js:39-50 | a second UPDATE with the same record changes nothing |
| PatientStore.DeleteIdempotent | frontend/src/store/reducers/patientReducer.js:52-61 | a second DELETE of the same id changes nothing |
| AuthStore.Initial | frontend/src/store/reducers/authReducer.js:9-15 | at page load the user is authenticated exactly when a token is stored, with no user, error or loading |
| AuthStore.Reduce | frontend/src/store/reducers/authReducer.js:17-55 | LOGIN authenticates with the user; LOGOUT clears the state and the stored token; SET_USER and AUTH_ERROR change only their field; loading is always cleared except by unknown actions; no action stores a token |
| AuthStore.LoggedOutStaysOut | frontend/src/store/reducers/authReducer.js:29-37 | once logged out with no token, no run of actions without LOGIN authenticates or restores the token |
| AuthStore.LogoutForgets | frontend/src/store/reducers/authReducer.js:29-37 | LOGOUT produces the same session from any session |
| MainApp.AuthReduce | frontend/src/App.js:74-83 | LOGIN sets the user and authenticates, LOGOUT clears both, other actions change nothing |
| MainApp.AuthReduceAgreesWithStore | frontend/src/App.js:74-83 | from any session, the inline reducer and the store's auth reducer agree on authentication and user for LOGIN, LOGOUT and other actions |
| MainApp.UploadReduce | frontend/src/App.js:86-111 | each upload action sets its fields as written; status stays among the five values; success keeps an earlier error and failure an earlier result; RESET restores the initial state |
| MainApp.OutcomesDoNotErase | frontend/src/App.js:101-106 | a failure after a success keeps the result, and a success after a failure keeps the error text |
| MainApp.CheckCreate | frontend/src/App.js:178-201 | no token asks for login; otherwise any empty field stops the create; a post happens iff all fields are filled and `parseInt(age, 10)` is a positive number, which is what is posted |
| MainApp.TypedAgeIsPosted | frontend/src/App.js:186-201 | a positive whole number typed as the age, followed by any non-digit text, is posted as exactly that number |
| MainApp.CreatePatient | frontend/src/App.js:176-241 | nothing changes unless the post is sent; a created patient is appended and the form cleared; otherwise list and form stay and an alert is shown, with the network text when no reply came |
| MainApp.CreateOnlyFromCheckedForm | frontend/src/App.js:176-241 | the list changes only after every check passed, and then by exactly the patient the server returned; the form is kept or cleared |
| MainApp.PollTick | frontend/src/App.js:323-345 | the log is set from every reply; 'completed' stops and loads the images, 'failed' stops, other statuses poll again in 2000 ms; a failed request keeps polling |
| MainApp.PollTickFixed | frontend/src/App.js:341-344 | a failed request stops the interval and sets 'error'; replies are handled as in the written tick |
| MainApp.RunPoll | frontend/src/App.js:325-340 | a run of ticks stops only on a reply some tick stops on, and does stop when some reply stops the tick whatever the view; no replies leave the view as it was |
| MainApp.RunPollStopsIff | frontend/src/App.js:325-340 | for a tick whose stop depends only on the reply, a run stops iff some reply is a stopping one |
| MainApp.RunPollFirstStop | frontend/src/App.js:325-340 | for such a tick, the replies before the first stopping one do not stop the run, and the final view is that reply's tick applied after them |
| MainApp.RunPollStopsAtFirstFinal | frontend/src/App.js:325-344 | with the written tick a run stops iff some task completed or failed, with the corrected one also on a failed request; either way it stops at the first such reply and at no earlier one |
| MainApp.UnreachableServerPolledForever | frontend/src/App.js:325-340 | with the written tick, any number of failed requests neither stops the poll nor changes the state |
| MainApp.FixedPollStopsOnError | frontend/src/App.js:341-344 | with the corrected tick, the first failed request stops the poll with status 'error' |
| MainApp.StopRule | frontend/src/App.js:331-339 | the written tick stops iff the status is completed or failed; the corrected one also on a failed request |
| MainApp.LoadProcessedImages | frontend/src/App.js:348-364 | nothing is loaded iff some channel request throws; otherwise exactly the channels answering 'success' are loaded, each with its image |
| LegacyApp.Reduce | mri-web-app/frontend/src/App.js:26-41 | the five actions set their fields and anything else changes nothing |
| LegacyApp.AgreesWithMainApp | mri-web-app/frontend/src/App.js:26-41 | this reducer and the newer client's agree on every action this one handles |
| LegacyApp.NoReset | mri-web-app/frontend/src/App.js:38-39 | a RESET is unknown here and changes nothing, while the newer reducer returns the initial state |
| LegacyApp.UploadPercent | mri-web-app/frontend/src/App.js:70-73 | the rounded percentage satisfies the nearest-integer bounds, lies in 0..100 while loaded does not exceed total, and is absent for a zero total |
| LegacyApp.PercentAtMost100 | mri-web-app/frontend/src/App.js:71 | the rounded percentage never exceeds 100 while loaded does not exceed total |
| LegacyApp.UploadPercentMonotone | mri-web-app/frontend/src/App.js:71 | the shown percentage never decreases as more bytes are sent |
| LegacyApp.UploadPercentEnds | mri-web-app/frontend/src/App.js:71 | nothing sent shows 0 and everything sent shows 100 |
| LegacyApp.PollResult | mri-web-app/frontend/src/App.js:79-97 | completed dispatches SUCCESS with the results, failed an ERROR with the server text or the default, an exception an ERROR with its message; each stops; other statuses dispatch nothing and poll again in 2000 ms |
| LegacyApp.PollOutcome | mri-web-app/frontend/src/App.js:79-97 | when a poll stops, the state ends 'completed' for a completed task and 'failed' otherwise |
| LegacyApp.UploadErrorText | mri-web-app/frontend/src/App.js:100-115 | the server's error or the upload default, the no-answer text, or the exception message, by case |
| LegacyApp.RejectedUploadShowsError | mri-web-app/frontend/src/App.js:100-115 | with the declared source, a rejected upload does not poll and ends 'failed' at the last reported percentage, showing the rejection's text, which is non-empty when the error has a message |
| LegacyApp.HandleUpload | mri-web-app/frontend/src/App.js:56-118 | without a file nothing happens; with one, START_UPLOAD is followed by an ERROR and no poll starts, because `source` is read but never declared |
| LegacyApp.HandleUploadFixed | mri-web-app/frontend/src/App.js:64-115 | with a declared cancel source, START_UPLOAD is followed by one UPDATE_PROGRESS per progress event; then an accepted upload polls the returned task and a rejected one dispatches the reply's error |
| LegacyApp.ProgressActions | mri-web-app/frontend/src/App.js:70-73 | one UPDATE_PROGRESS per progress event, carrying that event's rounded percentage |
| LegacyApp.ReduceProgress | mri-web-app/frontend/src/App.js:70-73 | dispatching the progress actions changes only the progress, which ends at the last event's percentage |
| LegacyApp.UploadNeverPolls | mri-web-app/frontend/src/App.js:68-69 | even an upload the server accepts ends in 'failed' with no poll |
| LegacyApp.FixedUploadPolls | mri-web-app/frontend/src/App.js:78-97 | with the corrected handler an accepted upload stays 'uploading', showing the last progress event's percentage (0 when none came, 100 once all bytes were sent), and polls the returned task |
| Helpers.ValidateFileTypeIgnoresCase | frontend/src/utils/helpers.js:4-9 | the file-type check gives the same verdict for a name and its lower-cased form |
| Helpers.ValidateFileTypeByExtension | frontend/src/utils/helpers.js:4-9 | accepted iff the text after the last dot is dcm or nii, or the name ends in .nii.gz, in any letter case |
| Helpers.FormatError | frontend/src/utils/helpers.js:12-37 | empty exactly for no error; otherwise the text for each HTTP status, the network text without a reply, or the message |
| Helpers.FormatProcessingStatus | frontend/src/utils/helpers.js:46-63 | each known status maps to its label and every other value to the idle label |
| Helpers.StatusLabelsDistinct | frontend/src/utils/helpers.js:46-63 | two statuses share a label only if equal or both unknown |
| Helpers.ValidatePatientData | frontend/src/utils/helpers.js:118-143 | valid iff no errors; name, patient id and gender are errors iff absent or empty; age iff absent, empty, NaN or not above 0 |
| Helpers.WholeAgeIsValid | frontend/src/utils/helpers.js:118-143 | filled fields with a positive whole-number age pass |
| Helpers.NonPositiveAgeRefused | frontend/src/utils/helpers.js:131-135 | an age of zero or below is an error |
| ErrorHandler.HandleUploadError | frontend/src/utils/errorHandler.js:1-22 | 413, 415, 401, 403 and 500 get their fixed texts and other statuses the server message or the default; a request that got no reply gets the network text; otherwise the failure prefix followed by the message |
| ErrorHandler.HandleProcessingError | frontend/src/utils/errorHandler.js:24-38 | never empty; 404, 400 and 500 get their fixed texts and other statuses the server message or the default; without a reply, always the failure prefix followed by the message |
| ErrorHandler.NoAnswerTexts | frontend/src/utils/errorHandler.js:18-37 | for a request that got no reply, the upload handler gives the network text but the processing handler does not, since it has no such branch |
| ErrorHandler.AgreesWithFormatError | frontend/src/utils/errorHandler.js:18-21 | without a reply, the upload text extends the general network text, and for a request never sent both report its message |
| ErrorHandler.Extension | frontend/src/utils/errorHandler.js:50 | with a dot, the lower-cased name from its last dot on; without one, the lower-cased last character, or nothing for an empty name |
| ErrorHandler.NiiGzUnreachable | frontend/src/utils/errorHandler.js:49-51 | no name ever has the extension .nii.gz |
| ErrorHandler.ExtensionRule | frontend/src/utils/errorHandler.js:49-53 | the type passes iff the name has a dot and the lower-cased text after the last one is dcm or nii |
| ErrorHandler.ValidateFile | frontend/src/utils/errorHandler.js:40-56 | only the size and type messages, the size error first, each present exactly when its check fails; empty exactly for a file that passes both |
| ErrorHandler.ValidateFileTypeRule | frontend/src/utils/errorHandler.js:49-53 | as written, the type passes iff the suffix check accepts the name and it does not end in .nii.gz |
| ErrorHandler.NiiGzRefused | frontend/src/utils/errorHandler.js:49-53 | a small .nii.gz file gets exactly the type error |
| ErrorHandler.ValidateFileFixed | frontend/src/utils/errorHandler.js:40-56 | the same two messages in the same order, with the type decided by suffix; empty exactly for a file within the limit that the suffix check accepts |
| ErrorHandler.FixedAcceptsNiiGz | frontend/src/utils/errorHandler.js:49-53 | the corrected check raises no type error for a .nii.gz name, and agrees with the written one on every other name |
| UploadPanel.CompressedSize | frontend/src/components/ImageUpload/ImageUpload.js:22-33 | the longer side is capped at 1200 with the other scaled and rounded; pictures within the cap keep their size |
| UploadPanel.CompressKeepsOrientation | frontend/src/components/ImageUpload/ImageUpload.js:22-33 | compression never turns a landscape picture into a portrait one or the reverse |
| UploadPanel.CompressIdempotent | frontend/src/components/ImageUpload/ImageUpload.js:22-33 | compressing an already compressed size changes nothing |
| UploadPanel.Extension | frontend/src/components/ImageUpload/ImageUpload.js:233 | a dot followed by dot-free text |
| UploadPanel.ValidateFile | frontend/src/components/ImageUpload/ImageUpload.js:232-243 | accepted iff the extension is listed and the size is within 100 MB; the type message comes before the size message |
| UploadPanel.ExtensionRule | frontend/src/components/ImageUpload/ImageUpload.js:233-234 | the type passes iff the lower-cased text after the last dot, or the whole name when there is none, is dcm or nii; .nii.gz never matches |
| UploadPanel.DotlessNameIsItsOwnExtension | frontend/src/components/ImageUpload/ImageUpload.js:233 | a small file named `nii`, with no dot, is accepted |
| UploadPanel.NiiGzRefused | frontend/src/components/ImageUpload/ImageUpload.js:233-236 | every .nii.gz file gets the type message |
| UploadPanel.ValidateFileFixed | frontend/src/components/ImageUpload/ImageUpload.js:232-243 | accepted iff the suffix check passes and the size is within the limit |
| UploadPanel.FixedAcceptsNiiGz | frontend/src/components/ImageUpload/ImageUpload.js:53 | the corrected check accepts a small .nii.gz file |
| UploadPanel.BeforeUpload | frontend/src/components/ImageUpload/ImageUpload.js:252-258 | the file is checked by the written validator; an accepted file replaces the list, a refused one leaves it; the automatic upload is always cancelled |
| UploadPanel.BeforeUploadFixed | frontend/src/components/ImageUpload/ImageUpload.js:252-258 | the same hook with the suffix check deciding the file |
| UploadPanel.NiiGzNeverListed | frontend/src/components/ImageUpload/ImageUpload.js:252-258 | as written a .nii.gz file never enters the list; with the corrected check it does |
| UploadPanel.OnRemove | frontend/src/components/ImageUpload/ImageUpload.js:246-251 | removes the first occurrence of the file; a file not in the list removes the last entry |
| UploadPanel.RemoveListed | frontend/src/components/ImageUpload/ImageUpload.js:246-251 | removing a listed file drops exactly one copy and keeps the rest in order |
| UploadPanel.AddThenRemove | frontend/src/components/ImageUpload/ImageUpload.js:246-258 | accepting a file the validator passes and removing it leaves the list empty |
| UploadPanel.PollTick | frontend/src/components/ImageUpload/ImageUpload.js:198-230 | stops iff the request throws or the status is completed or failed, clearing the processing flag; a failed task shows the failure toast and a failed request the status-error toast, while a completed task shows the success toast and then, because the undeclared `fetchResults` throws into the `catch`, the status-error toast, and loads nothing; otherwise it polls again in 2000 ms without a toast; progress and logs are taken from the reply |
| UploadPanel.PollTickFixed | frontend/src/components/ImageUpload/ImageUpload.js:211-216 | with the results fetched on completion, a completed task shows only the success toast and loads the results; every other reply is handled as written |
| UploadPanel.CompletedEndsInFailureToast | frontend/src/components/ImageUpload/ImageUpload.js:211-226 | as written a completed task stops without loading results and ends on the same toast as a failed request; corrected, it shows only the success toast, loads the results, and leaves the same card state |
| UploadPanel.RunPolls | frontend/src/components/ImageUpload/ImageUpload.js:198-230 | a run of ticks makes at most one poll per answer |
| UploadPanel.RunStopsAtFirstFinal | frontend/src/components/ImageUpload/ImageUpload.js:198-230 | a run started while processing stays processing until it stops, stops at the first completed or failed task or failed request, and otherwise uses every answer |
| Segmentation.Waits | frontend/src/components/Image/ImageCompare.js:203-207 | the k-th wait is 1000·(k+1) ms |
| Segmentation.FirstGood | frontend/src/components/Image/ImageCompare.js:175-213 | the first of the three attempts answered well, or none when all three fail |
| Segmentation.FetchSegmentationImage | frontend/src/components/Image/ImageCompare.js:165-214 | no task id means no request; otherwise 1 to 3 requests until the first good answer, with the growing waits between them, returning the first good answer's image as a data URL, or nothing after three failures |
| Segmentation.ChannelOutcome | frontend/src/components/Image/ImageCompare.js:175-213 | a channel costs one to three requests and yields a data URL exactly when one of its three answers is good, else all three requests |
| Segmentation.FetchCosts | frontend/src/components/Image/ImageCompare.js:176-213 | a first good answer costs one request and no wait; three failures cost three requests and 3000 ms |
| Segmentation.Resolve | frontend/src/components/Image/ImageCompare.js:226-247 | a full record is used as given; an id uses the record looked up for it |
| Segmentation.HandleImageSelect | frontend/src/components/Image/ImageCompare.js:226-286 | no overlays and no request without a record or task id; otherwise each overlay is the data URL of its channel's first good answer among three attempts, and the requests are the sum of each channel's count up to that answer |
| Processing.StartProcessingRun | frontend/src/components/Image/ImageProcessing.js:19-47 | no selected image dispatches an error and sends nothing; otherwise 'processing' is dispatched, then the task id, or the missing-task error, or the failure text |
| Processing.StartProcessingOutcome | frontend/src/components/Image/ImageProcessing.js:19-47 | afterwards the slice is 'processing' with the returned task id, or 'error' |
| Processing.PollTaskStatus | frontend/src/components/Image/ImageProcessing.js:53-90 | without a selected image nothing happens; otherwise the log is updated, and polling stops iff the status is completed or failed or the request throws, with the matching actions |
| Processing.StopIffLeavesProcessing | frontend/src/components/Image/ImageProcessing.js:53-101 | while polling is active, a poll stops exactly when its actions move the slice out of 'processing' |
| Processing.RunPolls | frontend/src/components/Image/ImageProcessing.js:92-101 | a run of polls makes at most one poll per answer |
| Processing.RunPollsStopsAtFirstFinal | frontend/src/components/Image/ImageProcessing.js:92-101 | a run stops at the first final answer and the slice stays 'processing' until then |
| LegacyUpload.HandleUpload | frontend/src/components/Image/backup/ImageUpload_old.js:49-91 | a missing file, then a missing patient, set their errors; otherwise loading ends and the uploaded image or the error is shown |
| LegacyUpload.UploadSettles | frontend/src/components/Image/backup/ImageUpload_old.js:49-91 | the form never stays loading, and the image changes only by a successful upload that clears the error |
| LegacyUpload.HandleProcess | frontend/src/components/Image/backup/ImageUpload_old.js:93-126 | no image id is an error; a poll starts iff the server returns a task id, after resetting the results; every other path ends in 'error' with a message |
| LegacyUpload.PollTick | frontend/src/components/Image/backup/ImageUpload_old.js:128-160 | polls again in 2000 ms iff the status is neither completed nor failed; completed shows the results, failed the failure text, a failed request the reply's error |
| LegacyUpload.PollEndsInFinalStatus | frontend/src/components/Image/backup/ImageUpload_old.js:128-160 | while processing, a poll stops exactly when it moves the status out of 'processing' |
| LegacyUpload.ProcessingOnlyWhilePolled | frontend/src/components/Image/backup/ImageUpload_old.js:93-160 | the form is 'processing' exactly when a poll is started, and that poll stops exactly when it leaves 'processing' |
| LegacyUpload.UploadThenProcess | frontend/src/components/Image/backup/ImageUpload_old.js:49-126 | a successful upload followed by processing its image polls the task the server returns |
| PatientForm.ValidateForm | frontend/src/components/Patient/PatientEdit.js:67-85 | name and patient id are errors iff blank after trimming; age iff missing, NaN, below 0 or above 150; gender iff empty; valid iff no errors |
| PatientForm.TypedAgeRule | frontend/src/components/Patient/PatientEdit.js:75-79 | a typed whole age is refused iff outside 0..150; an age of 0 loaded from the server counts as missing |
| PatientForm.HandleChange | frontend/src/components/Patient/PatientEdit.js:134-147 | the named field takes the value; its error entry is blanked if present, and the other fields' errors are kept |
| PatientForm.FilledNameValidates | frontend/src/components/Patient/PatientEdit.js:67-147 | after typing a name with a non-space character, validation records no name error |
| PatientForm.HandleChangeIdempotent | frontend/src/components/Patient/PatientEdit.js:134-147 | repeating the same change changes nothing more |
| PatientForm.HandleSubmit | frontend/src/components/Patient/PatientEdit.js:87-123 | an invalid form sends nothing; without a token the user goes to login; otherwise POST when the id is missing or 'new' and PUT to that id otherwise, with the form as body |
| PatientForm.SentBodyIsValid | frontend/src/components/Patient/PatientEdit.js:87-123 | every body sent passes validation: name and id not blank, age given and within range, gender chosen |
| PatientSearch.FilterPatientList | frontend/src/components/Patient/PatientList.js:29-32 | an order-preserving subsequence holding every copy of each patient whose name or patient id contains the term, case-insensitively, and nothing else |
| PatientSearch.EmptyTermKeepsAllOnList | frontend/src/components/Patient/PatientList.js:29-32 | an empty search shows every patient |
| PatientSearch.ListSearchIgnoresCase | frontend/src/components/Patient/PatientList.js:29-32 | a term and its lower-cased form find the same patients |
| PatientSearch.ListFindsByName | frontend/src/components/Patient/PatientList.js:29-32 | searching a patient's full name finds that patient |
| PatientSearch.FilterManager | frontend/src/components/DataManagement/DataManager.js:57-60 | an order-preserving subsequence holding every copy of each record whose name or id text contains the term, case-insensitively, and nothing else |
| PatientSearch.EmptyTermKeepsAllInManager | frontend/src/components/DataManagement/DataManager.js:57-60 | an empty search shows every record |
| PatientSearch.ManagerSearchNarrows | frontend/src/components/DataManagement/DataManager.js:57-60 | extending the term never adds records, and keeps the remaining ones in the same order |
| UploadRules.AllowedFile | backend/app/utils/file_utils.py:8-22 | false without a dot; true iff the lower-cased name ends with a dot and some dot-free allowed entry |
| UploadRules.AllowedFileIgnoresCase | backend/app/utils/file_utils.py:17 | a name and its lower-cased form get the same verdict |
| UploadRules.DottedEntriesUnreachable | backend/app/utils/file_utils.py:17-20 | dropping every allowed entry that contains a dot changes no verdict |
| UploadRules.ConfigNiiGzRefused | backend/config/config.py:18 | with the configured set, a .nii.gz name is refused |
| UploadRules.AllowedFileFixed | backend/app/utils/file_utils.py:8-22 | an accepted name has a dot |
| UploadRules.FixedAgreesWithoutDottedEntries | backend/app/utils/file_utils.py:17-20 | for sets with no dotted entry, the suffix check agrees with the written one |
| UploadRules.FixedAcceptsNiiGz | backend/config/config.py:18 | the suffix check accepts .nii.gz names under both configured sets |
| UploadRules.AppAllowedFile | backend/app.py:90-109 | `test.dcm` is accepted, and the shortcut agrees with the plain extension check for every name |
| UploadRules.AppNiiGzRefused | backend/app.py:51 | the main server refuses every .nii.gz name although its set lists nii.gz |
| UploadRules.ProcessImageCheck | backend/app.py:119-134 | 400 for a missing file, then an empty name, then a refused type; accepted iff a file is present and its name is allowed |
| UploadRules.ProcessImageExtensions | backend/app.py:119-134 | every .nii.gz upload gets 400 for its type, and every .dcm upload in any letter case passes the checks |
| UploadRules.ConvertPath | mri-web-app/backend/app.py:60-62 | a path with a space is wrapped in double quotes; any other path is returned unchanged |
| UploadRules.UnquoteConvertPath | mri-web-app/backend/app.py:60-62 | stripping the quotes again gives back the original path |
| UploadRules.ConvertPathInjective | mri-web-app/backend/app.py:60-62 | different paths stay different after conversion |
| UploadRules.ReadHeader | mri-web-app/backend/app.py:77 | the first min(132, length) bytes of the stream |
| UploadRules.MriAllowedFile | mri-web-app/backend/app.py:64-93 | false without a dot or for an unlisted extension; true for listed extensions other than dcm; for dcm, true iff the file part is present and its header ends with DICM |
| UploadRules.Part10Accepted | mri-web-app/backend/app.py:73-82 | a 128-byte preamble followed by DICM, as in section 7.1 of DICOM PS3.10, is accepted |
| UploadRules.LongDicomRule | mri-web-app/backend/app.py:77-88 | for streams of 132 bytes or more, accepted iff bytes 128..131 are DICM |
| UploadRules.ShortDicomRule | mri-web-app/backend/app.py:77-88 | shorter streams are judged on their last four bytes, so a bare DICM passes |
| TaskQueue.AddTask | backend/app/services/queue_manager.py:50-57 | registers a fresh pending task under its id with progress 0 and nothing else set, appends it to the queue, and leaves every other task alone |
| TaskQueue.GetTaskStatus | backend/app/services/queue_manager.py:59-71 | none for an unknown id; otherwise the task's status text, progress, times, error and results |
| TaskQueue.AddedTaskIsPending | backend/app/services/queue_manager.py:50-71 | a task just added reports pending at 0 with nothing else set |
| TaskQueue.RunTask | backend/app/services/queue_manager.py:87-116 | the progress written is a prefix of 10, 30, 80, 100 and ends at the final progress; start and end times are set; completed iff all three steps succeed, with 100 and the results; otherwise failed with the results untouched, the progress of the step that raised (10, 30 or 80) and that step's message as the error |
| TaskQueue.ProgressNeverDecreases | backend/app/services/queue_manager.py:95-107 | from a fresh task, progress strictly increases through the run |
| TaskQueue.ProcessTask | backend/app/services/queue_manager.py:87-120 | the running count is back where it was, the task is updated by its run, and no other task changes |
| TaskQueue.WorkerStep | backend/app/services/queue_manager.py:73-85 | below the limit with a queued task, the head is dequeued and run; otherwise nothing changes; the running count is unchanged |
| TaskQueue.AddedTaskFinishes | backend/app/services/queue_manager.py:50-120 | a task added to an idle, empty queue and picked up ends completed or failed with both times, and the count is restored |
| PatientRegistry.FirstMissingOf | backend/app/routes/patient_routes.py:28-32 | none iff every required field is present; otherwise the first missing one in check order |
| PatientRegistry.RowOf | backend/app/routes/patient_routes.py:41-47 | the row carries the four fields of the body and the current user as owner |
| PatientRegistry.CreatePatient | backend/app/routes/patient_routes.py:11-61 | 401 without a user, 500 without a body, 400 for the first missing field or a `patient_id` used by anyone; otherwise exactly one new patient owned by the caller; uniqueness and image ownership are preserved |
| PatientRegistry.ListPatients | backend/app/routes/patient_routes.py:63-72 | 401 without a user; otherwise exactly the ids of the caller's patients |
| PatientRegistry.CreatedPatientIsListed | backend/app/routes/patient_routes.py:41-72 | a created patient appears in the creator's list, and every other user's list is unchanged |
| PatientRegistry.Cascade | backend/app/routes/patient_routes.py:151-164 | removes the patient and exactly its images, keeping every other row |
| PatientRegistry.PatientDetail | backend/app/routes/patient_routes.py:81-180 | 401 without a user; 404 unless the caller owns the patient; GET returns it; PUT checks empty body, missing fields and ids used by other patients, then sets exactly the four fields; DELETE cascades; the store invariants are preserved |
| PatientRegistry.UpdateTouchesOnlyItsPatient | backend/app/routes/patient_routes.py:130-133 | an update keeps the owner, every other patient and all images |
| PatientRegistry.KeepingOwnPatientIdAllowed | backend/app/routes/patient_routes.py:122-127 | resubmitting a patient's own `patient_id` is never a conflict |
| PatientRegistry.DeletedPatientIsGone | backend/app/routes/patient_routes.py:148-164 | after a delete the owner gets 404 for the patient, and none of its images remain |
| PatientRegistry.OtherUsersUntouched | backend/app/routes/patient_routes.py:92-95 | no request by one user changes another user's patients or their images |

## Left out

- Rendering, routing, Ant Design widgets, zoom and pan: none of this decides state.
- HTTP, `localStorage`, `FileReader` and canvas, and timers. Replies are parameters.
  A timer is a `Continue(2000)` or `Stop` result. The stored token is a boolean.
- Letter case is folded for ASCII only. JavaScript's `toLowerCase` and Python's
  `lower` also fold other scripts; every extension and search term the code
  compares against is ASCII.
- JavaScript numbers are exact rationals here. `Math.round(loaded * 100 / total)`
  is rounded once, without the floating-point step before it.
- LegacyApp.UploadPercent: assumes whole byte counts and ignores floating-point
  division error.
- The back end's database errors and rollbacks (the 500 replies of the patient
  routes), the deletion of image files from disk, and SQLite's id reuse. New
  patients take a fresh id from a counter.
- JSON field values in the patient routes are text. Type coercion of `age` into
  an integer column is not modelled.
- The `QueueManager` singleton, its lock, the worker thread's `sleep` and
  `task_done`, and `get_queue_status` are left out; their purpose is concurrency
  or reporting. The worker loop is a sequence of `WorkerStep` calls.
- TaskQueue.AddTask: two tasks added in the same microsecond share an id. The
  queue then holds two entries for one table row, so the model processes that
  row twice. The source would process both objects.
- The MATLAB, CAT12 and DICOM conversion services are oracles with a success or
  failure outcome.
- Processing.StartProcessingRun: the selected image's id is an input. The upload slice
  has no `selectedImage` field, so in the running program it is always undefined and
  `startProcessing` always takes its no-image branch; the model states the component's
  logic as if the slice held a selected image.
- Processing.PollTaskStatus: same input. With no selected image the effect does not skip
  polling but throws a TypeError reading `selectedImage.id` whenever the status is
  'processing'; that crash is not modelled. The poll asks for the image id rather than the
  task id; replies are inputs here, so the request path is not modelled.
- PatientSearch.FilterManager: the record id is read as text. The patient API sends `id`
  as an integer, on which `toLowerCase` throws a TypeError whenever the term is non-empty
  and the name does not match; the model filters as if the id were its decimal text.
- LegacyApp.HandleUploadFixed: progress events are taken with a positive total, as a browser
  reports for a form upload; with a zero total the division would dispatch NaN or Infinity,
  which the integer progress of the model cannot hold.
- UploadPanel.OnRemove: file identity is datatype equality, not object identity.
- Segmentation.FetchSegmentationImage: the waits are returned, not slept.
- The file uploads, processing starts, the image-load handlers of
  `ImageUpload.js` and `App.js` besides the pollers and checks above, and
  `PatientList.js`/`DataManager.js` beyond their filters: these only call HTTP
  or set React state.
- The stub task endpoints, authentication, caching, migrations, live-server tests,
  and the `sanitize_path` helper. The last depends on the filesystem and
  fails at import.

## Findings

| source | as written | input that shows it | evidently intended | confidence | as-written member | corrected member |
|---|---|---|---|---|---|---|
| frontend/src/utils/errorHandler.js:49-51 | the extension is the text from the last dot, so it is never `.nii.gz` | a 1 MB file `scan.nii.gz` gets the type error | accept `.nii.gz`, as the list and the message say | high, not executed | ErrorHandler.NiiGzRefused | ErrorHandler.FixedAcceptsNiiGz |
| frontend/src/components/ImageUpload/ImageUpload.js:233-234 | the extension is '.' plus the text after the last dot, so it is never `.nii.gz` | `scan.nii.gz` is refused and never enters the file list | accept `.nii.gz` | high, not executed | UploadPanel.NiiGzNeverListed | UploadPanel.FixedAcceptsNiiGz |
| backend/app/utils/file_utils.py:17-20 | `rsplit('.', 1)[1]` yields `gz`, so the configured `nii.gz` entry never matches | `scan.nii.gz` with the set {dcm, nii, nii.gz} is refused | accept names ending in any listed extension | high, not executed | UploadRules.ConfigNiiGzRefused | UploadRules.FixedAcceptsNiiGz |
| backend/app.py:51,103-107 | same last-extension lookup against a set listing `nii.gz` | `scan.nii.gz` is refused with 400 | accept `.nii.gz` | high, not executed | UploadRules.AppNiiGzRefused | UploadRules.FixedAcceptsNiiGz |
| frontend/src/App.js:325-344 | a failed request rejects the interval's async callback, which the outer `try` cannot catch | a server that never answers: the interval polls forever and the status never becomes 'error' | stop polling and show 'error' | high, not executed | MainApp.UnreachableServerPolledForever | MainApp.FixedPollStopsOnError |
| mri-web-app/frontend/src/App.js:68-69 | the request options read `source.token`, but `source` is never declared | any upload, even one the server would accept, dispatches ERROR and never polls | create a cancel token source before the request | high, not executed | LegacyApp.UploadNeverPolls | LegacyApp.FixedUploadPolls |
| frontend/src/components/ImageUpload/ImageUpload.js:215 | `fetchResults` is never declared, so the completed branch throws into the `catch` | any task that reaches 'completed': the success toast is followed by '获取处理状态失败' and no results are fetched | fetch the processed results | high, not executed | UploadPanel.CompletedEndsInFailureToast | UploadPanel.PollTickFixed |

=== FILE: auth_reducer.dfy ===
/** The Redux slice holding the signed-in user
    (frontend/src/store/reducers/authReducer.js), together with the one piece
    of browser storage the slice touches: the saved login token.
 */
module AuthStore {
  import opened Common

  /** The user object the login reply carries. */
  datatype User = User(id: int, username: string)

  datatype State = State(isAuthenticated: bool, user: Option<User>, error: Option<string>, loading: bool)

  /** The slice's state and whether `localStorage` still holds a `token`. */
  datatype Session = Session(auth: State, tokenStored: bool)

  /** The four `AUTH_ACTIONS` with their payloads, and any other action. */
  datatype Action =
    | Login(loggedIn: Option<User>)
    | Logout
    | SetUser(user: Option<User>)
    | AuthError(message: Option<string>)
    | Other

  /** The state at page load: authenticated exactly when a token was saved earlier. */
  function Initial(tokenStored: bool): (r: Session)
    ensures r.auth.isAuthenticated <==> r.tokenStored
    ensures r.auth.user == None && r.auth.error == None && !r.auth.loading
  {
    Session(State(tokenStored, None, None, false), tokenStored)
  }

  /** `authReducer(state, action)`, including its removal of the saved token on LOGOUT. */
  function Reduce(s: Session, a: Action): (r: Session)
    ensures !r.auth.loading || (a.Other? && s.auth.loading)
    ensures a.Login? ==> r.auth == State(true, a.loggedIn, None, false) && r.tokenStored == s.tokenStored
    ensures a.Logout? ==> r == Session(State(false, None, None, false), false)
    ensures a.SetUser? ==>
      && r.auth.user == a.user && r.auth.isAuthenticated == s.auth.isAuthenticated
      && r.auth.error == s.auth.error && r.tokenStored == s.tokenStored
    ensures a.AuthError? ==>
      && r.auth.error == a.message && r.auth.isAuthenticated == s.auth.isAuthenticated
      && r.auth.user == s.auth.user && r.tokenStored == s.tokenStored
    ensures a.Other? ==> r == s
    ensures r.tokenStored ==> s.tokenStored
  {
    match a
    case Login(u) => s.(auth := s.auth.(isAuthenticated := true, user := u, error := None, loading := false))
    case Logout =>
      Session(s.auth.(isAuthenticated := false, user := None, error := None, loading := false), false)
    case SetUser(u) => s.(auth := s.auth.(user := u, loading := false))
    case AuthError(e) => s.(auth := s.auth.(error := e, loading := false))
    case Other => s
  }

  function ReduceAll(s: Session, actions: seq<Action>): Session
    decreases |actions|
  {
    if |actions| == 0 then s else ReduceAll(Reduce(s, actions[0]), actions[1..])
  }

  /** Once the token is gone it never comes back, and no later action signs the
      user in again except a LOGIN. */
  lemma {:induction false} LoggedOutStaysOut(s: Session, actions: seq<Action>)
    requires !s.auth.isAuthenticated && !s.tokenStored
    requires forall i :: 0 <= i < |actions| ==> !actions[i].Login?
    ensures !ReduceAll(s, actions).auth.isAuthenticated && !ReduceAll(s, actions).tokenStored
    decreases |actions|
  {
    if |actions| > 0 {
      LoggedOutStaysOut(Reduce(s, actions[0]), actions[1..]);
    }
  }

  /** The same session results from a LOGOUT whatever happened before it. */
  lemma LogoutForgets(s: Session, t: Session)
    ensures Reduce(s, Logout) == Reduce(t, Logout)
  {
  }
}

=== FILE: common.dfy ===
/** Vocabulary shared by every part of the model: optional values, the
    JavaScript/Python string operations the application relies on, and bytes.
 */
module Common {

  /** A value that may be absent: `null`/`undefined` in JavaScript, `None` in Python. */
  datatype Option<+T> = None | Some(value: T) {
    function GetOr(default: T): T {
      match this
      case Some(v) => v
      case None => default
    }
  }

  newtype byte = x: int | 0 <= x < 256

  /** JavaScript truthiness of an optional string: present and non-empty. */
  predicate Truthy(s: Option<string>) {
    s.Some? && s.value != ""
  }

  /** JavaScript `s || fallback` where `s` is an optional string. */
  function Or(s: Option<string>, fallback: string): (r: string)
    ensures Truthy(s) ==> r == s.value
    ensures !Truthy(s) ==> r == fallback
    ensures r == "" ==> fallback == ""
  {
    if Truthy(s) then s.value else fallback
  }

  // ---------------------------------------------------------------------
  // Case folding (ASCII only: see README)

  function LowerChar(c: char): (r: char)
    ensures 'A' <= c <= 'Z' ==> 'a' <= r <= 'z'
    ensures !('A' <= c <= 'Z') ==> r == c
    ensures !('A' <= r <= 'Z')
  {
    if 'A' <= c <= 'Z' then (c as int + 32) as char else c
  }

  /** `s.toLowerCase()` in JavaScript, `s.lower()` in Python. */
  function Lower(s: string): (r: string)
    ensures |r| == |s|
    ensures forall i :: 0 <= i < |s| ==> r[i] == LowerChar(s[i])
  {
    seq(|s|, i requires 0 <= i < |s| => LowerChar(s[i]))
  }

  lemma LowerIdempotent(s: string)
    ensures Lower(Lower(s)) == Lower(s)
  {
    var l := Lower(s);
    assert forall i :: 0 <= i < |l| ==> LowerChar(l[i]) == l[i];
  }

  lemma LowerConcat(a: string, b: string)
    ensures Lower(a + b) == Lower(a) + Lower(b)
  {
  }

  // ---------------------------------------------------------------------
  // Substrings

  predicate StartsWith(s: string, prefix: string) {
    |prefix| <= |s| && s[..|prefix|] == prefix
  }

  predicate EndsWith(s: string, suffix: string) {
    |suffix| <= |s| && s[|s| - |suffix|..] == suffix
  }

  /** `hay.includes(needle)` / `needle in hay`. */
  predicate Contains(hay: string, needle: string) {
    exists i :: 0 <= i <= |hay| - |needle| && OccursAt(hay, needle, i)
  }

  predicate OccursAt(hay: string, needle: string, i: int)
    requires 0 <= i <= |hay| - |needle|
  {
    hay[i..i + |needle|] == needle
  }

  lemma ContainsEmpty(hay: string)
    ensures Contains(hay, "")
  {
    assert OccursAt(hay, "", 0);
  }

  lemma ContainsSelf(s: string)
    ensures Contains(s, s)
  {
    assert OccursAt(s, s, 0);
  }

  /** Index of the last occurrence of `c` in `s`, or -1 (JavaScript `lastIndexOf`). */
  function LastIndexOf(s: string, c: char): (r: int)
    ensures -1 <= r < |s|
    ensures r == -1 <==> c !in s
    ensures r >= 0 ==> s[r] == c
    ensures forall j :: r < j < |s| ==> s[j] != c
  {
    if |s| == 0 then -1
    else if s[|s| - 1] == c then |s| - 1
    else
      var r := LastIndexOf(s[..|s| - 1], c);
      assert forall j :: r < j < |s| - 1 ==> s[j] == s[..|s| - 1][j];
      assert c in s[..|s| - 1] ==> c in s;
      assert c in s && s[|s| - 1] != c ==> c in s[..|s| - 1] by {
        if c in s && s[|s| - 1] != c {
          var k :| 0 <= k < |s| && s[k] == c;
          assert s[..|s| - 1][k] == c;
        }
      }
      r
  }

  /** The text after the last `c`, or all of `s` when there is none: Python's
      `s.rsplit(c, 1)[-1]` and JavaScript's `s.split(c).pop()`. */
  function AfterLast(s: string, c: char): (r: string)
    ensures c !in r
    ensures EndsWith(s, r)
    ensures c !in s ==> r == s
    ensures c in s ==> |r| < |s| && s[|s| - |r| - 1] == c
  {
    var k := LastIndexOf(s, c);
    var r := s[k + 1..];
    assert forall j :: 0 <= j < |r| ==> r[j] == s[k + 1 + j];
    r
  }

  /** Lower-casing moves no dot, so the last dot is where it was. */
  lemma LastDotOfLower(s: string)
    ensures LastIndexOf(Lower(s), '.') == LastIndexOf(s, '.')
    ensures '.' in Lower(s) <==> '.' in s
  {
    var l := Lower(s);
    assert forall i :: 0 <= i < |s| ==> (l[i] == '.' <==> s[i] == '.');
    assert '.' in l ==> '.' in s;
    assert '.' in s ==> '.' in l;
  }

  /** Lower-casing commutes with taking the text after the last dot. */
  lemma AfterLastDotOfLower(s: string)
    ensures Lower(AfterLast(s, '.')) == AfterLast(Lower(s), '.')
  {
    LastDotOfLower(s);
    var k := LastIndexOf(s, '.');
    var l := Lower(s);
    LowerSuffix(s, k + 1);
    assert AfterLast(s, '.') == s[k + 1..];
    assert AfterLast(l, '.') == l[k + 1..];
  }

  lemma LowerSuffix(s: string, k: nat)
    requires k <= |s|
    ensures Lower(s)[k..] == Lower(s[k..])
  {
    var a, b := Lower(s)[k..], Lower(s[k..]);
    assert |a| == |b|;
    forall i | 0 <= i < |a|
      ensures a[i] == b[i]
    {
      assert a[i] == LowerChar(s[k + i]);
    }
  }

  /** JavaScript `s.slice(k)` for a single start index: a negative `k` counts from the end. */
  function SliceFrom(s: string, k: int): (r: string)
    ensures EndsWith(s, r)
    ensures 0 <= k <= |s| ==> r == s[k..]
    ensures -|s| <= k < 0 ==> |r| == -k
  {
    if k < 0 then (if -k >= |s| then s else s[|s| + k..])
    else if k >= |s| then "" else s[k..]
  }

  /** For an extension `e` without a dot, "`s` ends with `.e`" and "the text after
      the last dot of `s` is `e`" are the same test. */
  lemma EndsWithDotExtension(s: string, e: string)
    requires '.' !in e
    ensures EndsWith(s, "." + e) <==> '.' in s && AfterLast(s, '.') == e
  {
    var r := AfterLast(s, '.');
    if EndsWith(s, "." + e) {
      assert s[|s| - |e| - 1] == ("." + e)[0];
      assert r == e;
    }
    if '.' in s && r == e {
      assert s[|s| - |e| - 1..] == "." + e;
    }
  }

  // ---------------------------------------------------------------------
  // Whitespace

  /** The characters JavaScript's `trim` and `Number` treat as white space
      (WhiteSpace and LineTerminator of the ECMAScript grammar). */
  predicate IsJsSpace(c: char) {
    || c == '\t' || c == '\n' || c == '\U{000B}' || c == '\U{000C}' || c == '\r' || c == ' '
    || c == '\U{00A0}' || c == '\U{1680}' || ('\U{2000}' <= c <= '\U{200A}')
    || c == '\U{2028}' || c == '\U{2029}' || c == '\U{202F}' || c == '\U{205F}'
    || c == '\U{3000}' || c == '\U{FEFF}'
  }

  function TrimStart(s: string): (r: string)
    ensures EndsWith(s, r)
    ensures |r| > 0 ==> !IsJsSpace(r[0])
    ensures forall i :: 0 <= i < |s| - |r| ==> IsJsSpace(s[i])
  {
    if |s| > 0 && IsJsSpace(s[0]) then TrimStart(s[1..]) else s
  }

  function TrimEnd(s: string): (r: string)
    ensures StartsWith(s, r)
    ensures |r| > 0 ==> !IsJsSpace(r[|r| - 1])
    ensures forall i :: |r| <= i < |s| ==> IsJsSpace(s[i])
  {
    if |s| > 0 && IsJsSpace(s[|s| - 1]) then TrimEnd(s[..|s| - 1]) else s
  }

  /** JavaScript `s.trim()`. */
  function Trim(s: string): (r: string)
    ensures r == "" <==> forall i :: 0 <= i < |s| ==> IsJsSpace(s[i])
  {
    var t := TrimStart(s);
    var r := TrimEnd(t);
    SuffixAllSpace(s, t);
    if r == "" then r
    else
      assert !IsJsSpace(r[0]) && r[0] == t[0];
      r
  }

  lemma SuffixAllSpace(s: string, t: string)
    requires EndsWith(s, t)
    requires forall i :: 0 <= i < |s| - |t| ==> IsJsSpace(s[i])
    ensures (forall i :: 0 <= i < |t| ==> IsJsSpace(t[i])) ==> forall i :: 0 <= i < |s| ==> IsJsSpace(s[i])
  {
    if forall i :: 0 <= i < |t| ==> IsJsSpace(t[i]) {
      forall i | 0 <= i < |s|
        ensures IsJsSpace(s[i])
      {
        if i >= |s| - |t| {
          assert s[i] == t[i - (|s| - |t|)];
        }
      }
    }
  }

  // ---------------------------------------------------------------------
  // Rounding

  /** JavaScript `Math.round(n / d)` on exact numbers: the nearest integer, halves rounded up. */
  function RoundDiv(n: nat, d: nat): (r: nat)
    requires d > 0
    ensures 2 * d * r <= 2 * n + d < 2 * d * (r + 1)
  {
    var r := (2 * n + d) / (2 * d);
    DivBounds(2 * n + d, 2 * d);
    r
  }

  lemma DivBounds(n: nat, d: nat)
    requires d > 0
    ensures 0 <= n / d && d * (n / d) <= n < d * (n / d + 1)
  {
  }

  lemma MulLe(d: nat, x: int, y: int)
    requires x <= y
    ensures d * x <= d * y
  {
  }

  /** Rounding never passes a bound `k` the exact quotient respects. */
  lemma RoundDivAtMost(n: nat, d: nat, k: nat)
    requires d > 0 && n <= d * k
    ensures RoundDiv(n, d) <= k
  {
    var r := RoundDiv(n, d);
    if r > k {
      MulLe(2 * d, k + 1, r);
    }
  }

  /** Rounding is monotone in the numerator. */
  lemma RoundDivMonotone(a: nat, b: nat, d: nat)
    requires a <= b && d > 0
    ensures RoundDiv(a, d) <= RoundDiv(b, d)
  {
    var ra, rb := RoundDiv(a, d), RoundDiv(b, d);
    if rb < ra {
      MulLe(2 * d, rb + 1, ra);
    }
  }

  /** An exact quotient is not rounded. */
  lemma RoundDivExact(d: nat, k: nat)
    requires d > 0
    ensures RoundDiv(d * k, d) == k
  {
    RoundDivAtMost(d * k, d, k);
    var r := RoundDiv(d * k, d);
    if r < k {
      MulLe(2 * d, r + 1, k);
    }
  }
}

=== FILE: error_handler.dfy ===
/** The user-facing texts for failed uploads and processing requests, and the
    client-side file check (frontend/src/utils/errorHandler.js).
 */
module ErrorHandler {
  import opened Common
  import opened Http
  import Helpers

  // ---------------------------------------------------------------------
  // handleUploadError / handleProcessingError

  const UploadNetworkText := "网络错误，请检查网络连接"
  const UploadPrefix := "上传失败："
  const ProcessingPrefix := "处理失败："

  /** `handleUploadError(error)`. */
  function HandleUploadError(e: RequestError): (r: string)
    ensures r != ""
    ensures e.response.Some? ==>
      var status := e.response.value.status;
      && (status == 413 ==> r == "文件太大，请选择小于16MB的文件")
      && (status == 415 ==> r == "不支持的文件格式，请选择DICOM或NIfTI格式")
      && (status == 401 ==> r == "未登录或会话已过期，请重新登录")
      && (status == 403 ==> r == "没有权限执行此操作")
      && (status == 500 ==> r == "服务器处理失败，请稍后重试")
      && (status !in {413, 415, 401, 403, 500} ==> r == Or(e.response.value.data.message, "上传失败，请重试"))
    ensures e.response.None? && e.requestSent ==> r == UploadNetworkText
    ensures e.response.None? && !e.requestSent ==> r == UploadPrefix + e.message
  {
    if e.response.Some? then
      var status := e.response.value.status;
      if status == 413 then "文件太大，请选择小于16MB的文件"
      else if status == 415 then "不支持的文件格式，请选择DICOM或NIfTI格式"
      else if status == 401 then "未登录或会话已过期，请重新登录"
      else if status == 403 then "没有权限执行此操作"
      else if status == 500 then "服务器处理失败，请稍后重试"
      else Or(e.response.value.data.message, "上传失败，请重试")
    else if e.requestSent then UploadNetworkText
    else UploadPrefix + e.message
  }

  /** `handleProcessingError(error)`: there is no network branch. */
  function HandleProcessingError(e: RequestError): (r: string)
    ensures r != ""
    ensures e.response.Some? ==>
      var status := e.response.value.status;
      && (status == 404 ==> r == "找不到要处理的图像")
      && (status == 400 ==> r == "图像格式不正确或已损坏")
      && (status == 500 ==> r == "处理失败，请检查图像格式是否正确")
      && (status !in {404, 400, 500} ==> r == Or(e.response.value.data.message, "处理失败，请重试"))
    ensures e.response.None? ==> r == ProcessingPrefix + e.message
  {
    if e.response.Some? then
      var status := e.response.value.status;
      if status == 404 then "找不到要处理的图像"
      else if status == 400 then "图像格式不正确或已损坏"
      else if status == 500 then "处理失败，请检查图像格式是否正确"
      else Or(e.response.value.data.message, "处理失败，请重试")
    else ProcessingPrefix + e.message
  }

  /** A request that went out but got no answer reads as a network error when uploading,
      but as a processing failure carrying the raw message when processing. */
  lemma NoAnswerTexts(e: RequestError)
    requires e.response.None? && e.requestSent
    ensures HandleUploadError(e) == UploadNetworkText
    ensures HandleProcessingError(e) != UploadNetworkText
  {
    assert HandleProcessingError(e)[0] == ProcessingPrefix[0] != UploadNetworkText[0];
  }

  /** For a request that got no reply, `handleUploadError` and the general `formatError`
      agree: both report a network error (the upload text extends the general one), and
      for a request never sent both report its message. */
  lemma AgreesWithFormatError(e: RequestError)
    requires e.response.None?
    ensures e.requestSent ==> StartsWith(HandleUploadError(e), Helpers.FormatError(Some(e)))
    ensures !e.requestSent && e.message != "" ==>
      Helpers.FormatError(Some(e)) == e.message && EndsWith(HandleUploadError(e), e.message)
  {
    if e.requestSent {
      assert UploadNetworkText[..|Helpers.NetworkError|] == Helpers.NetworkError;
    } else {
      assert (UploadPrefix + e.message)[|UploadPrefix|..] == e.message;
    }
  }

  // ---------------------------------------------------------------------
  // validateFile

  const MaxSize: nat := 16 * 1024 * 1024
  const SizeError := "文件大小不能超过16MB"
  const TypeError := "只支持DICOM (.dcm)和NIfTI (.nii, .nii.gz)格式"
  const AllowedTypes: seq<string> := [".dcm", ".nii", ".nii.gz"]

  /** `file.name.toLowerCase().slice(file.name.lastIndexOf('.'))`: from the last dot on,
      or the last character when there is no dot. */
  function Extension(name: string): (r: string)
    ensures '.' in name ==> r == "." + AfterLast(Lower(name), '.')
    ensures '.' !in name ==> |r| <= 1
    ensures '.' !in name ==> r == (if name == "" then "" else [Lower(name)[|name| - 1]])
  {
    SliceAtLastDot(name);
    SliceFrom(Lower(name), LastIndexOf(name, '.'))
  }

  lemma SliceAtLastDot(name: string)
    ensures var r := SliceFrom(Lower(name), LastIndexOf(name, '.'));
      && ('.' in name ==> r == "." + AfterLast(Lower(name), '.'))
      && ('.' !in name ==> |r| <= 1)
  {
    LastDotOfLower(name);
    SliceFromLastDot(Lower(name));
  }

  /** Slicing from the last dot keeps the dot and what follows it. */
  lemma SliceFromLastDot(l: string)
    ensures var r := SliceFrom(l, LastIndexOf(l, '.'));
      && ('.' in l ==> r == "." + AfterLast(l, '.'))
      && ('.' !in l ==> |r| <= 1)
  {
    var k := LastIndexOf(l, '.');
    if k >= 0 {
      assert SliceFrom(l, k) == l[k..];
      assert AfterLast(l, '.') == l[k + 1..];
      SplitAt(l, k);
    } else if |l| > 0 {
      assert |SliceFrom(l, k)| == 1;
    }
  }

  /** No name has the extension `.nii.gz`: the text after the last dot holds no dot. */
  lemma NiiGzUnreachable(name: string)
    ensures Extension(name) != ".nii.gz"
  {
    if '.' in name {
      DotThenNoDot(Extension(name), AfterLast(Lower(name), '.'));
    }
  }

  lemma DotThenNoDot(ext: string, tail: string)
    requires ext == "." + tail && '.' !in tail
    ensures ext != ".nii.gz"
  {
    assert ext[1..] == tail;
    assert ".nii.gz"[1..][3] == '.';
  }

  /** The extension is allowed exactly when the text after the last dot is `dcm` or `nii`. */
  lemma ExtensionRule(name: string)
    ensures Extension(name) in AllowedTypes <==> '.' in Lower(name) && AfterLast(Lower(name), '.') in {"dcm", "nii"}
  {
    LastDotOfLower(name);
    if '.' in name {
      DottedExtensionRule(Extension(name), AfterLast(Lower(name), '.'));
    } else {
      assert |Extension(name)| <= 1 < |".dcm"|;
    }
  }

  lemma DottedExtensionRule(ext: string, tail: string)
    requires ext == "." + tail && '.' !in tail
    ensures ext in AllowedTypes <==> tail in {"dcm", "nii"}
  {
    assert "nii.gz"[3] == '.';
    DotPrefix(tail, "dcm");
    DotPrefix(tail, "nii");
    DotPrefix(tail, "nii.gz");
    assert "." + "dcm" == ".dcm" && "." + "nii" == ".nii" && "." + "nii.gz" == ".nii.gz";
    assert ext in AllowedTypes <==> ext == ".dcm" || ext == ".nii" || ext == ".nii.gz";
  }

  lemma SplitAt(s: string, k: nat)
    requires k < |s|
    ensures s[k..] == [s[k]] + s[k + 1..]
  {
  }

  lemma DotPrefix(t: string, u: string)
    ensures "." + t == "." + u <==> t == u
  {
    if "." + t == "." + u {
      assert t == ("." + t)[1..];
    }
  }

  /** The type check shared by the written and corrected validators: `typeOk` decides it. */
  function Collect(size: nat, typeOk: bool): (r: seq<string>)
    ensures |r| <= 2
    ensures SizeError in r <==> size > MaxSize
    ensures TypeError in r <==> !typeOk
    ensures size > MaxSize ==> r[0] == SizeError
    ensures forall m :: m in r ==> m == SizeError || m == TypeError
    ensures r == [] <==> size <= MaxSize && typeOk
  {
    (if size > MaxSize then [SizeError] else []) + (if typeOk then [] else [TypeError])
  }

  /** `validateFile(file)` as written. */
  function ValidateFile(f: FileInfo): (r: seq<string>)
    ensures |r| <= 2
    ensures SizeError in r <==> f.size > MaxSize
    ensures TypeError in r <==> Extension(f.name) !in AllowedTypes
    ensures f.size > MaxSize ==> r[0] == SizeError
    ensures forall m :: m in r ==> m == SizeError || m == TypeError
    ensures r == [] <==> f.size <= MaxSize && Extension(f.name) in AllowedTypes
  {
    Collect(f.size, Extension(f.name) in AllowedTypes)
  }

  /** As written, the type is accepted exactly for names whose last extension is `dcm` or
      `nii` in any letter case: every `.nii.gz` file is refused. */
  lemma ValidateFileTypeRule(f: FileInfo)
    ensures TypeError !in ValidateFile(f) <==> Helpers.ValidateFileType(f.name) && !EndsWith(Lower(f.name), ".nii.gz")
  {
    Helpers.ValidateFileTypeByExtension(f.name);
    ExtensionRule(f.name);
    if EndsWith(Lower(f.name), ".nii.gz") {
      Helpers.NiiGzTail(Lower(f.name));
    }
  }

  /** Every `.nii.gz` file within the size limit is refused, for its type alone. */
  lemma NiiGzRefused(f: FileInfo)
    requires EndsWith(Lower(f.name), ".nii.gz") && f.size <= MaxSize
    ensures ValidateFile(f) == [TypeError]
  {
    ValidateFileTypeRule(f);
  }

  /** `validateFile` with the type decided by suffix, as `validateFileType` does. */
  function ValidateFileFixed(f: FileInfo): (r: seq<string>)
    ensures |r| <= 2
    ensures SizeError in r <==> f.size > MaxSize
    ensures TypeError !in r <==>
      exists k :: 0 <= k < |AllowedTypes| && EndsWith(Lower(f.name), AllowedTypes[k])
    ensures f.size > MaxSize ==> r[0] == SizeError
    ensures forall m :: m in r ==> m == SizeError || m == TypeError
    ensures r == [] <==> f.size <= MaxSize && Helpers.ValidateFileType(f.name)
  {
    var ok := Helpers.ValidateFileType(f.name);
    assert ok ==> exists k :: 0 <= k < |AllowedTypes| && EndsWith(Lower(f.name), AllowedTypes[k]) by {
      if ok {
        if EndsWith(Lower(f.name), ".dcm") { assert EndsWith(Lower(f.name), AllowedTypes[0]); }
        else if EndsWith(Lower(f.name), ".nii") { assert EndsWith(Lower(f.name), AllowedTypes[1]); }
        else { assert EndsWith(Lower(f.name), AllowedTypes[2]); }
      }
    }
    Collect(f.size, ok)
  }

  /** The corrected check accepts `scan.nii.gz` in any letter case and still refuses other types;
      it differs from the written one only on `.nii.gz` names. */
  lemma FixedAcceptsNiiGz(f: FileInfo)
    ensures EndsWith(Lower(f.name), ".nii.gz") ==> TypeError !in ValidateFileFixed(f)
    ensures !EndsWith(Lower(f.name), ".nii.gz") ==> ValidateFileFixed(f) == ValidateFile(f)
  {
    ValidateFileTypeRule(f);
  }
}

=== FILE: helpers.dfy ===
/** The shared front-end helpers (frontend/src/utils/helpers.js): the file-type
    check, the error and status texts, and the patient-data check.
 */
module Helpers {
  import opened Common
  import opened Http
  import opened JsNumber

  // ---------------------------------------------------------------------
  // validateFileType

  const AcceptedSuffixes: seq<string> := [".dcm", ".nii", ".nii.gz"]

  /** `validateFileType(file)`: the lower-cased name ends with one of the accepted suffixes. */
  predicate ValidateFileType(name: string) {
    var lower := Lower(name);
    EndsWith(lower, ".dcm") || EndsWith(lower, ".nii") || EndsWith(lower, ".nii.gz")
  }

  /** The check ignores letter case. */
  lemma ValidateFileTypeIgnoresCase(name: string)
    ensures ValidateFileType(name) <==> ValidateFileType(Lower(name))
  {
    LowerIdempotent(name);
  }

  /** In terms of the text after the last dot: `dcm` or `nii`, or a name ending in `.nii.gz`.
      This is the test the last-extension validators elsewhere were meant to make. */
  lemma ValidateFileTypeByExtension(name: string)
    ensures ValidateFileType(name) <==>
      || ('.' in Lower(name) && AfterLast(Lower(name), '.') in {"dcm", "nii"})
      || EndsWith(Lower(name), ".nii.gz")
  {
    var lower := Lower(name);
    assert "." + "dcm" == ".dcm" && "." + "nii" == ".nii";
    EndsWithDotExtension(lower, "dcm");
    EndsWithDotExtension(lower, "nii");
    assert EndsWith(lower, ".dcm") <==> '.' in lower && AfterLast(lower, '.') == "dcm";
    assert EndsWith(lower, ".nii") <==> '.' in lower && AfterLast(lower, '.') == "nii";
  }

  /** A name ending in `.nii.gz` has `gz` after its last dot. */
  lemma NiiGzTail(lower: string)
    requires EndsWith(lower, ".nii.gz")
    ensures '.' in lower && AfterLast(lower, '.') == "gz"
  {
    assert lower[|lower| - 3..] == "." + "gz";
    EndsWithDotExtension(lower, "gz");
  }

  // ---------------------------------------------------------------------
  // formatError

  const ServerError := "服务器错误"
  const AuthError := "认证失败"
  const NetworkError := "网络错误"
  const NotFound := "请求的资源不存在"

  /** `formatError(error)`. */
  function FormatError(error: Option<RequestError>): (r: string)
    ensures r == "" <==> error.None?
    ensures error.Some? && error.value.response.Some? ==>
      var resp := error.value.response.value;
      && (resp.status == 401 ==> r == AuthError)
      && (resp.status == 404 ==> r == NotFound)
      && (resp.status == 500 ==> r == ServerError)
      && (resp.status !in {401, 404, 500} ==> r == Or(resp.data.message, ServerError))
    ensures error.Some? && error.value.response.None? && error.value.requestSent ==> r == NetworkError
    ensures error.Some? && error.value.response.None? && !error.value.requestSent ==>
      r == Or(Some(error.value.message), ServerError)
  {
    match error
    case None => ""
    case Some(e) =>
      if e.response.Some? then
        var resp := e.response.value;
        if resp.status == 400 then Or(resp.data.message, ServerError)
        else if resp.status == 401 then AuthError
        else if resp.status == 404 then NotFound
        else if resp.status == 500 then ServerError
        else Or(resp.data.message, ServerError)
      else if e.requestSent then NetworkError
      else Or(Some(e.message), ServerError)
  }

  // ---------------------------------------------------------------------
  // formatProcessingStatus

  const KnownStatuses: seq<string> := ["uploading", "uploaded", "processing", "completed", "failed", "error"]
  const StatusLabels: seq<string> := ["正在上传", "上传完成", "正在处理", "处理完成", "处理失败", "发生错误"]
  const IdleLabel := "准备就绪"

  /** `formatProcessingStatus(status)`; `None` stands for `null`/`undefined`. */
  function FormatProcessingStatus(status: Option<string>): (r: string)
    ensures forall k :: 0 <= k < |KnownStatuses| ==> (status == Some(KnownStatuses[k]) <==> r == StatusLabels[k])
    ensures (status.None? || status.value !in KnownStatuses) <==> r == IdleLabel
  {
    match status
    case Some("uploading") => "正在上传"
    case Some("uploaded") => "上传完成"
    case Some("processing") => "正在处理"
    case Some("completed") => "处理完成"
    case Some("failed") => "处理失败"
    case Some("error") => "发生错误"
    case _ => IdleLabel
  }

  /** The label tells the status apart: two statuses with the same label are the same known
      status or both unknown. */
  lemma StatusLabelsDistinct(a: Option<string>, b: Option<string>)
    requires FormatProcessingStatus(a) == FormatProcessingStatus(b)
    ensures a == b || ((a.None? || a.value !in KnownStatuses) && (b.None? || b.value !in KnownStatuses))
  {
    if FormatProcessingStatus(a) != IdleLabel {
      var k :| 0 <= k < |KnownStatuses| && FormatProcessingStatus(a) == StatusLabels[k];
      assert a == Some(KnownStatuses[k]) && b == Some(KnownStatuses[k]);
    }
  }

  // ---------------------------------------------------------------------
  // validatePatientData

  /** The fields read from the patient data; `None` for a field that is missing. */
  datatype PatientFields = PatientFields(name: Option<string>, patientId: Option<string>, age: Option<string>, gender: Option<string>)

  datatype Validation = Validation(isValid: bool, errors: map<string, string>)

  /** `data.age` is present but `isNaN(data.age) || data.age <= 0`; once NaN is excluded,
      `x <= 0` is `!(x > 0)`. */
  predicate BadAge(age: string) {
    IsNaN(age) || !GreaterThan(age, 0.0)
  }

  /** `validatePatientData(data)`. */
  function ValidatePatientData(d: PatientFields): (r: Validation)
    ensures r.isValid <==> r.errors == map[]
    ensures "name" in r.errors <==> !Truthy(d.name)
    ensures "patient_id" in r.errors <==> !Truthy(d.patientId)
    ensures "gender" in r.errors <==> !Truthy(d.gender)
    ensures "age" in r.errors <==> !Truthy(d.age) || BadAge(d.age.value)
    ensures r.errors.Keys <= {"name", "patient_id", "age", "gender"}
    ensures "age" in r.errors ==> r.errors["age"] == (if Truthy(d.age) then "请输入有效的年龄" else "请输入年龄")
  {
    var e0: map<string, string> := map[];
    var e1 := if !Truthy(d.name) then e0["name" := "请输入姓名"] else e0;
    var e2 := if !Truthy(d.patientId) then e1["patient_id" := "请输入患者ID"] else e1;
    var e3 :=
      if !Truthy(d.age) then e2["age" := "请输入年龄"]
      else if BadAge(d.age.value) then e2["age" := "请输入有效的年龄"]
      else e2;
    var e4 := if !Truthy(d.gender) then e3["gender" := "请选择性别"] else e3;
    Validation(|e4.Keys| == 0, e4)
  }

  /** A record with every field filled in and a positive whole-number age is valid. */
  lemma WholeAgeIsValid(name: string, patientId: string, n: int, gender: string)
    requires name != "" && patientId != "" && gender != "" && n > 0
    ensures ValidatePatientData(PatientFields(Some(name), Some(patientId), Some(SignedDecimal(n)), Some(gender))).isValid
  {
    ToNumberDecimal(n);
  }

  /** Zero and negative whole-number ages are refused. */
  lemma NonPositiveAgeRefused(d: PatientFields, n: int)
    requires n <= 0 && d.age == Some(SignedDecimal(n))
    ensures "age" in ValidatePatientData(d).errors && !ValidatePatientData(d).isValid
  {
    ToNumberDecimal(n);
  }
}

=== FILE: http.dfy ===
/** The shapes the client code reads out of a failed HTTP request, and the
    file descriptions the upload validators inspect.
 */
module Http {
  import opened Common

  /** The JSON body of an error reply, as far as the messages read it. */
  datatype ErrorBody = ErrorBody(message: Option<string>, error: Option<string>)

  /** A reply the server did send, with a status outside 2xx. */
  datatype ErrorResponse = ErrorResponse(status: int, data: ErrorBody)

  /** An axios rejection: `error.response` when the server answered,
      `error.request` when a request went out, and `error.message`. */
  datatype RequestError = RequestError(response: Option<ErrorResponse>, requestSent: bool, message: string)

  /** A browser `File` (or an upload part) as the validators see it. */
  datatype FileInfo = FileInfo(name: string, size: nat)

  /** `error.response?.data?.error || error.message || fallback`. */
  function ReplyErrorOr(e: RequestError, fallback: string): (r: string)
    ensures e.response.Some? && Truthy(e.response.value.data.error) ==> r == e.response.value.data.error.value
    ensures (e.response.None? || !Truthy(e.response.value.data.error)) && e.message != "" ==> r == e.message
    ensures (e.response.None? || !Truthy(e.response.value.data.error)) && e.message == "" ==> r == fallback
  {
    var fromReply := if e.response.Some? then e.response.value.data.error else None;
    Or(fromReply, Or(Some(e.message), fallback))
  }
}

=== FILE: js_number.dfy ===
/** The two ways the application turns form text into numbers:
    `parseInt(text, 10)` and the implicit `Number(text)` coercion behind
    `isNaN(text)` and `text < 0`.
 */
module JsNumber {
  import opened Common

  /** A JavaScript number, as far as the validators can tell numbers apart. */
  datatype Number = NaN | Finite(value: real) | Infinity(negative: bool)

  // ---------------------------------------------------------------------
  // Digits in a radix

  /** The value of `c` as a digit of `radix` (2, 8, 10 or 16), if it is one. */
  function DigitValue(c: char, radix: nat): (r: Option<nat>)
    ensures r.Some? ==> r.value < radix
  {
    var v :=
      if '0' <= c <= '9' then c as int - '0' as int
      else if 'a' <= c <= 'f' then c as int - 'a' as int + 10
      else if 'A' <= c <= 'F' then c as int - 'A' as int + 10
      else 16;
    if v < radix then Some(v) else None
  }

  predicate IsDigit(c: char) {
    '0' <= c <= '9'
  }

  predicate AllDigits(s: string, radix: nat) {
    forall i :: 0 <= i < |s| ==> DigitValue(s[i], radix).Some?
  }

  /** The number written by the digit string `s`, most significant digit first. */
  function DigitsValue(s: string, radix: nat): nat
    requires AllDigits(s, radix)
    decreases |s|
  {
    if |s| == 0 then 0
    else DigitsValue(s[..|s| - 1], radix) * radix + DigitValue(s[|s| - 1], radix).value
  }

  /** The longest prefix of `s` made of decimal digits. */
  function LeadingDigits(s: string): (r: string)
    ensures StartsWith(s, r)
    ensures AllDigits(r, 10)
    ensures |r| < |s| ==> !IsDigit(s[|r|])
    decreases |s|
  {
    if |s| > 0 && IsDigit(s[0]) then [s[0]] + LeadingDigits(s[1..]) else ""
  }

  /** The decimal text of a natural number, without leading zeros. */
  function Decimal(n: nat): (r: string)
    ensures |r| > 0 && AllDigits(r, 10)
    decreases n
  {
    var d := ['0' + (n % 10) as char];
    if n < 10 then d else Decimal(n / 10) + d
  }

  /** The decimal text of an integer, with a `-` sign when negative. */
  function SignedDecimal(n: int): (r: string)
    ensures |r| > 0
  {
    if n < 0 then "-" + Decimal(-n) else Decimal(n)
  }

  lemma {:induction false} DecimalValue(n: nat)
    ensures DigitsValue(Decimal(n), 10) == n
    decreases n
  {
    var s := Decimal(n);
    if n >= 10 {
      DecimalValue(n / 10);
      assert s[..|s| - 1] == Decimal(n / 10);
    }
  }

  lemma {:induction false} LeadingDigitsOfDigits(a: string, b: string)
    requires AllDigits(a, 10)
    requires |b| == 0 || !IsDigit(b[0])
    ensures LeadingDigits(a + b) == a
    decreases |a|
  {
    if |a| > 0 {
      assert (a + b)[1..] == a[1..] + b;
      assert DigitValue(a[0], 10).Some?;
      LeadingDigitsOfDigits(a[1..], b);
    }
  }

  // ---------------------------------------------------------------------
  // parseInt(text, 10)

  /** `parseInt(s, 10)`: skip leading white space, read an optional sign and the
      longest run of decimal digits; NaN (here `None`) when there is no digit. */
  function ParseInt(s: string): (r: Option<int>)
    ensures r.None? <==> LeadingDigits(UnsignedPart(TrimStart(s))) == ""
  {
    var t := TrimStart(s);
    var digits := LeadingDigits(UnsignedPart(t));
    if digits == "" then None
    else
      var magnitude := DigitsValue(digits, 10);
      Some(if StartsWith(t, "-") then -(magnitude as int) else magnitude)
  }

  /** `s` without one leading `+` or `-`. */
  function UnsignedPart(t: string): (r: string)
    ensures |r| <= |t|
  {
    if StartsWith(t, "-") || StartsWith(t, "+") then t[1..] else t
  }

  /** `parseInt` reads back the decimal text of every integer, whatever non-digit text follows it. */
  lemma ParseIntDecimal(n: int, rest: string)
    requires |rest| == 0 || !IsDigit(rest[0])
    ensures ParseInt(SignedDecimal(n) + rest) == Some(n)
  {
    var m: nat := if n < 0 then -n else n;
    var d := Decimal(m);
    var s := SignedDecimal(n) + rest;
    SignedTextParts(n, rest);
    LeadingDigitsOfDigits(d, rest);
    DecimalValue(m);
    assert LeadingDigits(UnsignedPart(TrimStart(s))) == d;
  }

  /** Followed by any text, the decimal text of `n` starts with no space, carries its
      sign first and then the digits of its magnitude. */
  lemma SignedTextParts(n: int, rest: string)
    ensures var s := SignedDecimal(n) + rest;
      && TrimStart(s) == s
      && (StartsWith(s, "-") <==> n < 0)
      && UnsignedPart(s) == Decimal(if n < 0 then -n else n) + rest
  {
    var d := Decimal(if n < 0 then -n else n);
    var s := SignedDecimal(n) + rest;
    SignedDecimalShape(n);
    assert s[0] == SignedDecimal(n)[0];
    if n < 0 {
      NegativeText(d, rest, s);
    } else {
      assert s == d + rest;
      assert DigitValue(s[0], 10).Some?;
      assert !StartsWith(s, "-") && !StartsWith(s, "+");
    }
  }

  lemma NegativeText(d: string, rest: string, s: string)
    requires s == "-" + d + rest
    ensures StartsWith(s, "-") && UnsignedPart(s) == d + rest
  {
    assert s[..1] == "-";
    assert s[1..] == d + rest;
  }

  /** The decimal text of `n`: an optional `-`, then the digits of its magnitude. */
  lemma SignedDecimalShape(n: int)
    ensures var s := SignedDecimal(n);
      var d := Decimal(if n < 0 then -n else n);
      && (n < 0 ==> s == "-" + d) && (n >= 0 ==> s == d)
      && (StartsWith(s, "-") <==> n < 0)
      && UnsignedPart(s) == d
      && !IsJsSpace(s[0]) && IsDigit(s[|s| - 1])
  {
    var d := Decimal(if n < 0 then -n else n);
    assert DigitValue(d[0], 10).Some? && DigitValue(d[|d| - 1], 10).Some?;
  }

  // ---------------------------------------------------------------------
  // Number(text)

  function Pow(base: nat, e: nat): (r: nat)
    ensures base > 0 ==> r > 0
  {
    if e == 0 then 1 else base * Pow(base, e - 1)
  }

  /** `m * 10^e` for a signed exponent. */
  function Scale(m: real, e: int): real {
    if e >= 0 then m * Pow(10, e) as real else m / Pow(10, -e) as real
  }

  /** Index of the first `c1` or `c2` in `s`, or `|s|`. */
  function IndexOfEither(s: string, c1: char, c2: char): (r: nat)
    ensures r <= |s|
    ensures r < |s| ==> s[r] == c1 || s[r] == c2
    ensures forall j :: 0 <= j < r ==> s[j] != c1 && s[j] != c2
    decreases |s|
  {
    if |s| == 0 || s[0] == c1 || s[0] == c2 then 0 else 1 + IndexOfEither(s[1..], c1, c2)
  }

  /** `digits`, `digits.`, `digits.digits` or `.digits`. */
  function Mantissa(m: string): Option<real> {
    var k := IndexOfEither(m, '.', '.');
    var whole := m[..k];
    var frac := if k < |m| then m[k + 1..] else "";
    if !AllDigits(whole, 10) || !AllDigits(frac, 10) || |whole| + |frac| == 0 then None
    else Some(DigitsValue(whole, 10) as real + Fraction(frac))
  }

  /** The value of the digits after a decimal point. */
  function Fraction(frac: string): real
    requires AllDigits(frac, 10)
  {
    DigitsValue(frac, 10) as real / Pow(10, |frac|) as real
  }

  /** An exponent: optional sign, then at least one decimal digit. */
  function Exponent(x: string): Option<int> {
    var u := UnsignedPart(x);
    if |u| == 0 || !AllDigits(u, 10) then None
    else Some(if StartsWith(x, "-") then -(DigitsValue(u, 10) as int) else DigitsValue(u, 10))
  }

  /** StrUnsignedDecimalLiteral without `Infinity`: a mantissa and an optional `e`/`E` exponent. */
  function UnsignedDecimal(u: string): Option<real> {
    var k := IndexOfEither(u, 'e', 'E');
    var m := Mantissa(u[..k]);
    if m.None? then None
    else if k == |u| then m
    else
      var e := Exponent(u[k + 1..]);
      if e.None? then None else Some(Scale(m.value, e.value))
  }

  /** `0x…`, `0o…` or `0b…` (either case), with no sign. */
  function RadixLiteral(t: string): Option<nat> {
    if |t| < 3 || t[0] != '0' then None
    else
      var radix :=
        if t[1] == 'x' || t[1] == 'X' then 16
        else if t[1] == 'o' || t[1] == 'O' then 8
        else if t[1] == 'b' || t[1] == 'B' then 2
        else 0;
      if radix == 0 || !AllDigits(t[2..], radix) then None
      else Some(DigitsValue(t[2..], radix))
  }

  /** `Number(s)` for a string `s` (section 7.1.4.1.1 of ECMA-262, StringToNumber). */
  function ToNumber(s: string): (r: Number)
    ensures Trim(s) == "" ==> r == Finite(0.0)
  {
    var t := Trim(s);
    if t == "" then Finite(0.0)
    else if t == "Infinity" || t == "+Infinity" then Infinity(false)
    else if t == "-Infinity" then Infinity(true)
    else if RadixLiteral(t).Some? then Finite(RadixLiteral(t).value as real)
    else
      var v := UnsignedDecimal(UnsignedPart(t));
      if v.None? then NaN
      else if StartsWith(t, "-") then Finite(-v.value)
      else Finite(v.value)
  }

  /** `isNaN(s)`. */
  predicate IsNaN(s: string) {
    ToNumber(s).NaN?
  }

  /** `s < k` for a string `s` and a number `k` (false when `s` is NaN). */
  predicate LessThan(s: string, k: real) {
    match ToNumber(s)
    case NaN => false
    case Finite(v) => v < k
    case Infinity(neg) => neg
  }

  /** `s > k` for a string `s` and a number `k` (false when `s` is NaN). */
  predicate GreaterThan(s: string, k: real) {
    match ToNumber(s)
    case NaN => false
    case Finite(v) => v > k
    case Infinity(neg) => !neg
  }

  /** `Number` reads back the decimal text of every integer. */
  lemma ToNumberDecimal(n: int)
    ensures ToNumber(SignedDecimal(n)) == Finite(n as real)
  {
    var m: nat := if n < 0 then -n else n;
    var s := SignedDecimal(n);
    var d := Decimal(m);
    SignedDecimalShape(n);
    TrimUnchanged(s);
    NotInfinityText(s);
    DecimalNotRadix(n);
    UnsignedDecimalOfDigits(d);
    DecimalValue(m);
    assert UnsignedDecimal(UnsignedPart(s)) == Some(m as real);
  }

  /** A text ending in a digit is none of the spellings of infinity. */
  lemma NotInfinityText(s: string)
    requires |s| > 0 && IsDigit(s[|s| - 1])
    ensures s != "Infinity" && s != "+Infinity" && s != "-Infinity"
  {
    assert "Infinity"[7] == 'y' && "+Infinity"[8] == 'y' && "-Infinity"[8] == 'y';
  }

  /** Decimal text never reads as a `0x`/`0o`/`0b` literal. */
  lemma DecimalNotRadix(n: int)
    ensures RadixLiteral(SignedDecimal(n)).None?
  {
    var s := SignedDecimal(n);
    var d := Decimal(if n < 0 then -n else n);
    SignedDecimalShape(n);
    if |s| >= 3 && s[0] == '0' {
      assert s == d;
      assert DigitValue(d[1], 10).Some?;
    }
  }

  lemma TrimUnchanged(s: string)
    requires |s| > 0 && !IsJsSpace(s[0]) && !IsJsSpace(s[|s| - 1])
    ensures Trim(s) == s
  {
    assert TrimStart(s) == s;
    assert TrimEnd(s) == s;
  }

  /** A plain run of digits is read as the integer it writes. */
  lemma UnsignedDecimalOfDigits(d: string)
    requires |d| > 0 && AllDigits(d, 10)
    ensures UnsignedDecimal(d) == Some(DigitsValue(d, 10) as real)
  {
    IndexNotFound(d, 'e', 'E');
    assert d[..|d|] == d;
    MantissaOfDigits(d);
  }

  lemma MantissaOfDigits(d: string)
    requires |d| > 0 && AllDigits(d, 10)
    ensures Mantissa(d) == Some(DigitsValue(d, 10) as real)
  {
    var k := IndexOfEither(d, '.', '.');
    assert k == |d| by { IndexNotFound(d, '.', '.'); }
    assert d[..k] == d;
    var v := DigitsValue(d, 10) as real + Fraction("");
    assert v == DigitsValue(d, 10) as real by { assert Fraction("") == 0.0; }
    assert Mantissa(d) == Some(v);
  }

  lemma IndexNotFound(s: string, c1: char, c2: char)
    requires AllDigits(s, 10)
    requires !IsDigit(c1) && !IsDigit(c2)
    ensures IndexOfEither(s, c1, c2) == |s|
  {
  }
}

=== FILE: legacy_app.dfy ===
/** The root component of the earlier single-page client
    (mri-web-app/frontend/src/App.js): its upload reducer, the progress
    percentage, the result poll and the upload handler.
 */
module LegacyApp {
  import opened Common
  import opened Http
  import MainApp
  import UploadStore

  type State = MainApp.UploadState

  /** The five handled actions, and any other action; there is no RESET. */
  datatype Action =
    | StartUpload
    | UpdateProgress(progress: int)
    | ProcessStart(taskId: Option<string>)
    | Success(result: Option<UploadStore.Volumes>)
    | Error(error: Option<string>)
    | Other

  function Initial(): State {
    MainApp.InitialUpload()
  }

  /** This file's `uploadReducer`. */
  function Reduce(s: State, a: Action): (r: State)
    ensures a.StartUpload? ==> r == s.(status := "uploading", progress := 0)
    ensures a.UpdateProgress? ==> r == s.(progress := a.progress)
    ensures a.ProcessStart? ==> r == s.(status := "processing", taskId := a.taskId)
    ensures a.Success? ==> r == s.(status := "completed", result := a.result)
    ensures a.Error? ==> r == s.(status := "failed", error := a.error)
    ensures a.Other? ==> r == s
  {
    match a
    case StartUpload => s.(status := "uploading", progress := 0)
    case UpdateProgress(p) => s.(progress := p)
    case ProcessStart(t) => s.(status := "processing", taskId := t)
    case Success(res) => s.(status := "completed", result := res)
    case Error(e) => s.(status := "failed", error := e)
    case Other => s
  }

  /** The same action of the other client's reducer. */
  function Counterpart(a: Action): MainApp.UploadAction {
    match a
    case StartUpload => MainApp.StartUpload
    case UpdateProgress(p) => MainApp.UpdateProgress(p)
    case ProcessStart(t) => MainApp.ProcessStart(t)
    case Success(res) => MainApp.Success(res)
    case Error(e) => MainApp.Error(e)
    case Other => MainApp.OtherUpload
  }

  /** Apart from the missing RESET, the two clients' upload reducers agree on every action. */
  lemma AgreesWithMainApp(s: State, a: Action)
    ensures Reduce(s, a) == MainApp.UploadReduce(s, Counterpart(a))
  {
  }

  /** A RESET sent to this reducer is an unknown action and changes nothing. */
  lemma NoReset(s: State)
    ensures MainApp.UploadReduce(s, MainApp.Reset) == Initial()
    ensures Reduce(s, Other) == s
  {
  }

  function ReduceAll(s: State, actions: seq<Action>): State
    decreases |actions|
  {
    if |actions| == 0 then s else ReduceAll(Reduce(s, actions[0]), actions[1..])
  }

  // ---------------------------------------------------------------------
  // Upload progress

  /** `Math.round(loaded * 100 / total)` on exact numbers; `None` when `total` is 0,
      where the division yields NaN or Infinity rather than a percentage. */
  function UploadPercent(loaded: nat, total: nat): (r: Option<int>)
    ensures r.None? <==> total == 0
    ensures r.Some? ==> 2 * total * r.value <= 200 * loaded + total < 2 * total * (r.value + 1)
    ensures r.Some? && loaded <= total ==> 0 <= r.value <= 100
  {
    if total == 0 then None
    else
      PercentAtMost100(loaded, total);
      Some(RoundDiv(100 * loaded, total))
  }

  lemma PercentAtMost100(loaded: nat, total: nat)
    requires total > 0
    ensures loaded <= total ==> RoundDiv(100 * loaded, total) <= 100
  {
    if loaded <= total {
      RoundDivAtMost(100 * loaded, total, 100);
    }
  }

  /** The percentage never goes down as more bytes are sent. */
  lemma UploadPercentMonotone(a: nat, b: nat, total: nat)
    requires a <= b && total > 0
    ensures UploadPercent(a, total).value <= UploadPercent(b, total).value
  {
    RoundDivMonotone(100 * a, 100 * b, total);
  }

  /** A finished upload shows 100 and an unstarted one 0. */
  lemma UploadPercentEnds(total: nat)
    requires total > 0
    ensures UploadPercent(total, total) == Some(100)
    ensures UploadPercent(0, total) == Some(0)
  {
    RoundDivAtMost(0, total, 0);
    RoundDivAtMost(100 * total, total, 100);
    var r := RoundDiv(100 * total, total);
    if r < 100 {
      MulLe(2 * total, r + 1, 100);
    }
  }

  // ---------------------------------------------------------------------
  // pollResult

  /** One answer to `GET /api/tasks/<id>`, or an exception raised by the request. */
  datatype PollReply = TaskData(status: string, results: Option<UploadStore.Volumes>, error: Option<string>) | Thrown(message: string)

  const FailedText := "处理失败"

  /** One call of `pollResult`: the actions it dispatches and whether it schedules the next call. */
  function PollResult(reply: PollReply): (r: (seq<Action>, MainApp.Next))
    ensures r.1.Stop? <==> |r.0| == 1
    ensures r.1.Continue? ==> r.0 == [] && r.1.delayMs == 2000
    ensures r.1.Stop? ==> !r.1.loadImages
    ensures reply.TaskData? && reply.status == "completed" ==> r.0 == [Success(reply.results)]
    ensures reply.TaskData? && reply.status == "failed" ==> r.0 == [Error(Some(Or(reply.error, FailedText)))]
    ensures reply.Thrown? ==> r.0 == [Error(Some(reply.message))]
    ensures r.1.Continue? <==> reply.TaskData? && reply.status != "completed" && reply.status != "failed"
  {
    match reply
    case Thrown(message) => ([Error(Some(message))], MainApp.Stop(false))
    case TaskData(status, results, error) =>
      if status == "completed" then ([Success(results)], MainApp.Stop(false))
      else if status == "failed" then ([Error(Some(Or(error, FailedText)))], MainApp.Stop(false))
      else ([], MainApp.Continue(2000))
  }

  /** Whatever ends a poll, the state shows it: 'completed' after a completed task,
      'failed' after a failed one or an exception. */
  lemma PollOutcome(s: State, reply: PollReply)
    requires PollResult(reply).1.Stop?
    ensures ReduceAll(s, PollResult(reply).0).status == (if reply.TaskData? && reply.status == "completed" then "completed" else "failed")
  {
    var acts := PollResult(reply).0;
    assert acts[1..] == [];
  }

  // ---------------------------------------------------------------------
  // handleUpload

  /** What `POST /api/process` answers: a task to poll, or a failure. */
  datatype UploadReply = Accepted(taskId: Option<string>) | Rejected(error: RequestError)

  /** The actions `handleUpload` dispatches before any poll, and the task it starts polling (if any). */
  datatype UploadRun = UploadRun(dispatched: seq<Action>, polls: Option<Option<string>>)

  /** The message the handler's `catch` dispatches for a failed request. */
  function UploadErrorText(e: RequestError): (r: string)
    ensures e.response.Some? ==> r == Or(e.response.value.data.error, "上传失败")
    ensures e.response.None? && e.requestSent ==> r == "服务器无响应"
    ensures e.response.None? && !e.requestSent ==> r == e.message
  {
    if e.response.Some? then Or(e.response.value.data.error, "上传失败")
    else if e.requestSent then "服务器无响应"
    else e.message
  }

  /** The error a browser raises when the options object reads the undeclared `source`. */
  const UndeclaredSource := RequestError(None, false, "source is not defined")

  /** `handleUpload` as written: the request options read `source.token`, but no
      `source` is declared, so building them throws before any request is sent. */
  function HandleUpload(file: Option<FileInfo>, reply: UploadReply): (r: UploadRun)
    ensures file.None? ==> r == UploadRun([], None)
    ensures file.Some? ==> |r.dispatched| == 2 && r.dispatched[0] == StartUpload && r.dispatched[1].Error? && r.polls.None?
  {
    if file.None? then UploadRun([], None)
    else UploadRun([StartUpload, Error(Some(UploadErrorText(UndeclaredSource)))], None)
  }

  /** One `onUploadProgress` call: bytes sent so far out of the request's total. */
  datatype ProgressEvent = ProgressEvent(loaded: nat, total: nat)

  /** Every event carries a known, positive total, as a browser reports for a form upload. */
  predicate KnownTotals(events: seq<ProgressEvent>) {
    forall i :: 0 <= i < |events| ==> events[i].total > 0
  }

  /** The `UPDATE_PROGRESS` actions `onUploadProgress` dispatches, one per event. */
  function ProgressActions(events: seq<ProgressEvent>): (r: seq<Action>)
    requires KnownTotals(events)
    ensures |r| == |events|
    ensures forall i :: 0 <= i < |r| ==> r[i].UpdateProgress?
    ensures forall i :: 0 <= i < |r| ==> Some(r[i].progress) == UploadPercent(events[i].loaded, events[i].total)
    decreases |events|
  {
    if |events| == 0 then []
    else
      var first := UpdateProgress(UploadPercent(events[0].loaded, events[0].total).value);
      var rest := ProgressActions(events[1..]);
      assert forall i :: 1 <= i < |events| ==> events[i] == events[1..][i - 1];
      [first] + rest
  }

  /** The progress the last event shows, or `before` when there was none. */
  function LastPercent(before: int, events: seq<ProgressEvent>): int
    requires KnownTotals(events)
  {
    if |events| == 0 then before
    else UploadPercent(events[|events| - 1].loaded, events[|events| - 1].total).value
  }

  /** Dispatching the progress actions changes only the progress, which ends at the
      percentage of the last event. */
  lemma {:induction false} ReduceProgress(s: State, events: seq<ProgressEvent>)
    requires KnownTotals(events)
    ensures ReduceAll(s, ProgressActions(events)) == s.(progress := LastPercent(s.progress, events))
    decreases |events|
  {
    if |events| > 0 {
      var acts := ProgressActions(events);
      var s1 := Reduce(s, acts[0]);
      assert acts[1..] == ProgressActions(events[1..]);
      ReduceProgress(s1, events[1..]);
      if |events| > 1 {
        assert events[1..][|events[1..]| - 1] == events[|events| - 1];
      }
    }
  }

  lemma {:induction false} ReduceAllAppend(s: State, a: seq<Action>, b: seq<Action>)
    ensures ReduceAll(s, a + b) == ReduceAll(ReduceAll(s, a), b)
    decreases |a|
  {
    if |a| > 0 {
      assert (a + b)[1..] == a[1..] + b;
      ReduceAllAppend(Reduce(s, a[0]), a[1..], b);
    } else {
      assert a + b == b;
    }
  }

  /** `handleUpload` with a declared cancel source: the progress events of the request,
      then the server's reply, decide. */
  function HandleUploadFixed(file: Option<FileInfo>, events: seq<ProgressEvent>, reply: UploadReply): (r: UploadRun)
    requires KnownTotals(events)
    ensures file.None? ==> r == UploadRun([], None)
    ensures file.Some? ==> |r.dispatched| >= 1 + |events| && r.dispatched[0] == StartUpload
    ensures file.Some? ==> r.dispatched[1..1 + |events|] == ProgressActions(events)
    ensures file.Some? && reply.Accepted? ==> |r.dispatched| == 1 + |events| && r.polls == Some(reply.taskId)
    ensures file.Some? && reply.Rejected? ==>
      && |r.dispatched| == 2 + |events| && r.polls.None?
      && r.dispatched[1 + |events|] == Error(Some(UploadErrorText(reply.error)))
  {
    if file.None? then UploadRun([], None)
    else
      var sending := [StartUpload] + ProgressActions(events);
      assert sending[1..1 + |events|] == ProgressActions(events);
      match reply
      case Accepted(t) => UploadRun(sending, Some(t))
      case Rejected(e) =>
        var acts := sending + [Error(Some(UploadErrorText(e)))];
        assert acts[1..1 + |events|] == sending[1..1 + |events|];
        UploadRun(acts, None)
  }

  /** As written, no upload ever reaches the poll: even one the server accepts ends
      'failed' with the message "source is not defined". */
  lemma UploadNeverPolls(s: State, f: FileInfo, task: Option<string>)
    ensures HandleUpload(Some(f), Accepted(task)).polls.None?
    ensures ReduceAll(s, HandleUpload(Some(f), Accepted(task)).dispatched) ==
      s.(status := "failed", progress := 0, error := Some("source is not defined"))
  {
    var acts := HandleUpload(Some(f), Accepted(task)).dispatched;
    assert acts == [StartUpload, Error(Some("source is not defined"))];
    var s1 := Reduce(s, StartUpload);
    assert acts[1..] == [Error(Some("source is not defined"))];
    assert ReduceAll(s, acts) == ReduceAll(s1, acts[1..]);
    assert acts[1..][1..] == [];
  }

  /** With the source declared, an accepted upload polls the task the server named
      and leaves the state 'uploading', showing the last progress event's percentage
      (0 when none arrived), which is 100 once every byte was reported sent. */
  lemma FixedUploadPolls(s: State, f: FileInfo, events: seq<ProgressEvent>, task: Option<string>)
    requires KnownTotals(events)
    ensures HandleUploadFixed(Some(f), events, Accepted(task)).polls == Some(task)
    ensures ReduceAll(s, HandleUploadFixed(Some(f), events, Accepted(task)).dispatched) ==
      s.(status := "uploading", progress := LastPercent(0, events))
    ensures |events| > 0 && events[|events| - 1].loaded == events[|events| - 1].total ==>
      LastPercent(0, events) == 100
  {
    var acts := HandleUploadFixed(Some(f), events, Accepted(task)).dispatched;
    assert acts == [StartUpload] + ProgressActions(events);
    var s1 := Reduce(s, StartUpload);
    assert acts[1..] == ProgressActions(events);
    ReduceProgress(s1, events);
    if |events| > 0 {
      UploadPercentEnds(events[|events| - 1].total);
    }
  }

  /** With the source declared, a rejected upload ends 'failed' showing the text
      `UploadErrorText` derives from the rejection, which is never empty when the error
      carries a message; the progress is the last one reported before the reply. */
  lemma RejectedUploadShowsError(s: State, f: FileInfo, events: seq<ProgressEvent>, e: RequestError)
    requires KnownTotals(events)
    ensures HandleUploadFixed(Some(f), events, Rejected(e)).polls.None?
    ensures ReduceAll(s, HandleUploadFixed(Some(f), events, Rejected(e)).dispatched) ==
      s.(status := "failed", progress := LastPercent(0, events), error := Some(UploadErrorText(e)))
    ensures e.message != "" ==> UploadErrorText(e) != ""
  {
    var acts := HandleUploadFixed(Some(f), events, Rejected(e)).dispatched;
    var err := Error(Some(UploadErrorText(e)));
    assert acts == [StartUpload] + ProgressActions(events) + [err];
    var s1 := Reduce(s, StartUpload);
    assert acts[1..] == ProgressActions(events) + [err];
    ReduceAllAppend(s1, ProgressActions(events), [err]);
    ReduceProgress(s1, events);
    var s2 := ReduceAll(s1, ProgressActions(events));
    assert [err][1..] == [];
    assert ReduceAll(s2, [err]) == Reduce(s2, err);
  }
}

=== FILE: legacy_upload.dfy ===
/** The earlier upload form kept as a backup
    (frontend/src/components/Image/backup/ImageUpload_old.js): its upload and
    process handlers and its self-rescheduling task poll.
 */
module LegacyUpload {
  import opened Common
  import opened Http
  import UploadStore
  import MainApp

  /** The component state the handlers write. */
  datatype View = View(
    error: string,
    processingStatus: string,
    uploadedImage: Option<UploadStore.ImageRecord>,
    processedData: Option<UploadStore.Volumes>,
    matlabLog: string,
    loading: bool)

  // ---------------------------------------------------------------------
  // handleUpload

  /** What `POST /api/upload` answered. */
  datatype UploadReply = Uploaded(image: Option<UploadStore.ImageRecord>) | UploadFailed(error: RequestError)

  /** `handleUpload(e)`: a file must be chosen first, then a patient. */
  function HandleUpload(v: View, file: Option<FileInfo>, patientId: Option<string>, reply: UploadReply): (r: View)
    ensures file.None? ==> r == v.(error := "请选择文件")
    ensures file.Some? && !Truthy(patientId) ==> r == v.(error := "请先选择患者")
    ensures file.Some? && Truthy(patientId) ==> !r.loading
    ensures file.Some? && Truthy(patientId) && reply.Uploaded? && reply.image.Some? ==>
      r.processingStatus == "uploaded" && r.uploadedImage == reply.image && r.error == ""
    ensures file.Some? && Truthy(patientId) && reply.Uploaded? && reply.image.None? ==>
      r.processingStatus == "uploading" && r.uploadedImage == v.uploadedImage
    ensures file.Some? && Truthy(patientId) && reply.UploadFailed? ==>
      r.processingStatus == "error" && r.error == ReplyErrorOr(reply.error, "上传失败，请重试")
  {
    if file.None? then v.(error := "请选择文件")
    else if !Truthy(patientId) then v.(error := "请先选择患者")
    else
      var sending := v.(loading := true, error := "", processingStatus := "uploading");
      var done :=
        match reply
        case Uploaded(Some(img)) => sending.(uploadedImage := Some(img), processingStatus := "uploaded")
        case Uploaded(None) => sending
        case UploadFailed(e) => sending.(error := ReplyErrorOr(e, "上传失败，请重试"), processingStatus := "error");
      done.(loading := false)
  }

  // ---------------------------------------------------------------------
  // handleProcess

  /** What `POST /api/process/<id>` answered. */
  datatype ProcessReply = Started(taskId: Option<string>) | ProcessFailed(error: RequestError)

  const MissingTask := "处理响应中缺少任务ID"

  /** `handleProcess(imageId)` up to the first poll: the state and the task to poll, if any. */
  function HandleProcess(v: View, imageId: Option<string>, reply: ProcessReply): (r: (View, Option<string>))
    ensures !Truthy(imageId) ==> r == (v.(error := "缺少图像ID", processingStatus := "error"), None)
    ensures r.1.Some? <==> Truthy(imageId) && reply.Started? && Truthy(reply.taskId)
    ensures r.1.Some? ==> r.1 == reply.taskId && r.0.processingStatus == "processing" && r.0.processedData == None && r.0.matlabLog == ""
    ensures r.1.None? ==> r.0.processingStatus == "error" && r.0.error != ""
  {
    if !Truthy(imageId) then (v.(error := "缺少图像ID", processingStatus := "error"), None)
    else
      var started := v.(processingStatus := "processing", processedData := None, matlabLog := "");
      match reply
      case Started(task) =>
        if Truthy(task) then (started, task)
        else (started.(error := MissingTask, processingStatus := "error"), None)
      case ProcessFailed(e) =>
        var text := ReplyErrorOr(e, "处理失败，请重试");
        (started.(error := text, processingStatus := "error"), None)
  }

  // ---------------------------------------------------------------------
  // pollTaskStatus

  /** One answer to `GET /api/tasks/<id>`, or a failed request. */
  datatype TaskReply = TaskData(status: string, results: Option<UploadStore.Volumes>, matlabLog: Option<string>) | PollFailed(error: RequestError)

  /** One call of `pollTaskStatus(taskId)`: the new state and whether it schedules itself again. */
  function PollTick(v: View, reply: TaskReply): (r: (View, MainApp.Next))
    ensures r.1.Continue? <==> reply.TaskData? && reply.status != "completed" && reply.status != "failed"
    ensures r.1.Continue? ==> r.1.delayMs == 2000 && r.0.processingStatus == v.processingStatus
    ensures r.1.Stop? ==> !r.1.loadImages
    ensures reply.TaskData? && Truthy(reply.matlabLog) ==> r.0.matlabLog == reply.matlabLog.value
    ensures reply.TaskData? && !Truthy(reply.matlabLog) ==> r.0.matlabLog == v.matlabLog
    ensures reply.TaskData? && reply.status == "completed" ==>
      && r.0.processingStatus == "completed"
      && r.0.processedData == (if reply.results.Some? then reply.results else v.processedData)
    ensures reply.TaskData? && reply.status == "failed" ==> r.0.processingStatus == "error" && r.0.error == "处理失败"
    ensures reply.PollFailed? ==> r.0 == v.(processingStatus := "error", error := ReplyErrorOr(reply.error, "轮询失败"))
  {
    match reply
    case PollFailed(e) => (v.(processingStatus := "error", error := ReplyErrorOr(e, "轮询失败")), MainApp.Stop(false))
    case TaskData(status, results, log) =>
      var v' := v.(matlabLog := Or(log, v.matlabLog));
      if status == "completed" then
        (v'.(processingStatus := "completed", processedData := if results.Some? then results else v.processedData), MainApp.Stop(false))
      else if status == "failed" then (v'.(processingStatus := "error", error := "处理失败"), MainApp.Stop(false))
      else (v', MainApp.Continue(2000))
  }

  /** While processing, a poll stops exactly when it moves the form out of 'processing',
      and it then leaves it 'completed' or 'error'. */
  lemma PollEndsInFinalStatus(v: View, reply: TaskReply)
    requires v.processingStatus == "processing"
    ensures var (w, next) := PollTick(v, reply);
      && (next.Stop? <==> w.processingStatus != "processing")
      && (next.Stop? ==> w.processingStatus in {"completed", "error"})
  {
  }

  /** `handleUpload` never leaves the form loading, never shows an error alongside a newly
      uploaded image, and changes the image only by a successful upload. */
  lemma UploadSettles(v: View, file: Option<FileInfo>, patientId: Option<string>, reply: UploadReply)
    requires !v.loading
    ensures var r := HandleUpload(v, file, patientId, reply);
      && !r.loading
      && (r.uploadedImage != v.uploadedImage ==> r.error == "" && r.processingStatus == "uploaded")
  {
  }

  /** `handleProcess` puts the form in 'processing' exactly when it starts a poll, so the
      form is never left 'processing' with nothing polling it; and the poll it starts stops
      exactly when it moves the form out of 'processing'. */
  lemma ProcessingOnlyWhilePolled(v: View, imageId: Option<string>, reply: ProcessReply)
    ensures var (w, task) := HandleProcess(v, imageId, reply);
      w.processingStatus == "processing" <==> task.Some?
    ensures var (w, task) := HandleProcess(v, imageId, reply);
      task.Some? ==> forall answer :: PollTick(w, answer).1.Stop? <==> PollTick(w, answer).0.processingStatus != "processing"
  {
    var (w, task) := HandleProcess(v, imageId, reply);
    if task.Some? {
      forall answer
        ensures PollTick(w, answer).1.Stop? <==> PollTick(w, answer).0.processingStatus != "processing"
      {
        PollEndsInFinalStatus(w, answer);
      }
    }
  }

  /** A successful upload followed by processing of the uploaded image starts polling the
      task the server returns. */
  lemma UploadThenProcess(v: View, f: FileInfo, patientId: string, img: UploadStore.ImageRecord, task: string)
    requires patientId != "" && img.id != "" && task != ""
    ensures var uploaded := HandleUpload(v, Some(f), Some(patientId), Uploaded(Some(img)));
      && uploaded.uploadedImage == Some(img)
      && HandleProcess(uploaded, Some(img.id), Started(Some(task))).1 == Some(task)
  {
  }
}

=== FILE: main_app.dfy ===
/** The state machines inside the top-level `MainApp` component
    (frontend/src/App.js): its two inline reducers, the checks before a
    patient is created, the task poll and the loading of processed images.
 */
module MainApp {
  import opened Common
  import opened Http
  import opened JsNumber
  import AuthStore
  import PatientStore
  import UploadStore

  // ---------------------------------------------------------------------
  // authReducer

  datatype AuthState = AuthState(isAuthenticated: bool, user: Option<AuthStore.User>)

  datatype AuthAction = Login(payload: Option<AuthStore.User>) | Logout | OtherAuth

  /** The inline `authReducer`: only LOGIN and LOGOUT change anything. */
  function AuthReduce(s: AuthState, a: AuthAction): (r: AuthState)
    ensures a.Login? ==> r == AuthState(true, a.payload)
    ensures a.Logout? ==> r == AuthState(false, None)
    ensures a.OtherAuth? ==> r == s
  {
    match a
    case Login(u) => s.(isAuthenticated := true, user := u)
    case Logout => s.(isAuthenticated := false, user := None)
    case OtherAuth => s
  }

  /** The store action that mirrors an inline auth action. */
  function StoreAuthAction(a: AuthAction): AuthStore.Action {
    match a
    case Login(u) => AuthStore.Login(u)
    case Logout => AuthStore.Logout
    case OtherAuth => AuthStore.Other
  }

  /** The inline reducer and the store's `authReducer` agree on who is signed in, from any
      session and for every action the inline one knows. */
  lemma AuthReduceAgreesWithStore(s: AuthStore.Session, a: AuthAction)
    ensures var r := AuthStore.Reduce(s, StoreAuthAction(a));
      AuthReduce(AuthState(s.auth.isAuthenticated, s.auth.user), a) == AuthState(r.auth.isAuthenticated, r.auth.user)
  {
  }

  // ---------------------------------------------------------------------
  // uploadReducer

  /** `status` is one of 'idle', 'uploading', 'processing', 'completed', 'failed'. */
  datatype UploadState = UploadState(
    taskId: Option<string>, status: string, progress: int,
    result: Option<UploadStore.Volumes>, error: Option<string>)

  datatype UploadAction =
    | StartUpload
    | UpdateProgress(progress: int)
    | ProcessStart(taskId: Option<string>)
    | Success(result: Option<UploadStore.Volumes>)
    | Error(error: Option<string>)
    | Reset
    | OtherUpload

  const Statuses: set<string> := {"idle", "uploading", "processing", "completed", "failed"}

  function InitialUpload(): UploadState {
    UploadState(None, "idle", 0, None, None)
  }

  /** The inline `uploadReducer`. */
  function UploadReduce(s: UploadState, a: UploadAction): (r: UploadState)
    ensures s.status in Statuses ==> r.status in Statuses
    ensures a.StartUpload? ==> r == s.(status := "uploading", progress := 0)
    ensures a.UpdateProgress? ==> r == s.(progress := a.progress)
    ensures a.ProcessStart? ==> r == s.(status := "processing", taskId := a.taskId)
    ensures a.Success? ==> r.status == "completed" && r.result == a.result && r.error == s.error && r.taskId == s.taskId
    ensures a.Error? ==> r.status == "failed" && r.error == a.error && r.result == s.result && r.taskId == s.taskId
    ensures a.Reset? ==> r == InitialUpload()
    ensures a.OtherUpload? ==> r == s
  {
    match a
    case StartUpload => s.(status := "uploading", progress := 0)
    case UpdateProgress(p) => s.(progress := p)
    case ProcessStart(t) => s.(status := "processing", taskId := t)
    case Success(res) => s.(status := "completed", result := res)
    case Error(e) => s.(status := "failed", error := e)
    case Reset => InitialUpload()
    case OtherUpload => s
  }

  /** A failure does not erase a result already shown, nor a success an earlier error message. */
  lemma OutcomesDoNotErase(s: UploadState, res: Option<UploadStore.Volumes>, e: Option<string>)
    ensures UploadReduce(UploadReduce(s, Success(res)), Error(e)).result == res
    ensures UploadReduce(UploadReduce(s, Error(e)), Success(res)).error == e
  {
  }

  // ---------------------------------------------------------------------
  // handleCreatePatient

  /** The new-patient form; every field is text as typed. */
  datatype PatientForm = PatientForm(name: string, patientId: string, age: string, gender: string)

  /** The body posted to `/api/patients`: the form with `age` replaced by its parsed value. */
  datatype PatientData = PatientData(name: string, patientId: string, age: int, gender: string)

  datatype CreateCheck = NeedLogin | MissingField | BadAge | Post(data: PatientData)

  const EmptyForm: PatientForm := PatientForm("", "", "", "M")

  /** The checks `handleCreatePatient` makes before it sends anything. */
  function CheckCreate(tokenStored: bool, f: PatientForm): (r: CreateCheck)
    ensures r.NeedLogin? <==> !tokenStored
    ensures r.MissingField? <==> tokenStored && (f.name == "" || f.patientId == "" || f.age == "" || f.gender == "")
    ensures r.Post? <==>
      && tokenStored && f.name != "" && f.patientId != "" && f.age != "" && f.gender != ""
      && ParseInt(f.age).Some? && ParseInt(f.age).value > 0
    ensures r.Post? ==>
      && r.data.name == f.name && r.data.patientId == f.patientId && r.data.gender == f.gender
      && Some(r.data.age) == ParseInt(f.age) && r.data.age > 0
  {
    if !tokenStored then NeedLogin
    else if f.name == "" || f.patientId == "" || f.age == "" || f.gender == "" then MissingField
    else
      var age := ParseInt(f.age);
      if age.None? || age.value <= 0 then BadAge
      else Post(PatientData(f.name, f.patientId, age.value, f.gender))
  }

  /** Typing a positive whole number, optionally followed by non-digit text, posts exactly that number. */
  lemma TypedAgeIsPosted(f: PatientForm, n: int, rest: string)
    requires f.name != "" && f.patientId != "" && f.gender != ""
    requires n > 0 && f.age == SignedDecimal(n) + rest
    requires |rest| == 0 || !IsDigit(rest[0])
    ensures CheckCreate(true, f) == Post(PatientData(f.name, f.patientId, n, f.gender))
  {
    ParseIntDecimal(n, rest);
  }

  /** What the server answered to the POST. */
  datatype CreateReply = Created(patient: Option<PatientStore.Patient>) | CreateFailed(error: RequestError)

  /** The page after a create attempt: the patient list, the form and the alert shown. */
  datatype CreateResult = CreateResult(patients: seq<PatientStore.Patient>, form: PatientForm, alert: string)

  const CreateDefault := "创建患者失败，请重试"
  const NetworkText := "无法连接到服务器，请检查网络连接"

  /** `handleCreatePatient` once the POST has been answered by `reply`. */
  function CreatePatient(tokenStored: bool, f: PatientForm, patients: seq<PatientStore.Patient>, reply: CreateReply): (r: CreateResult)
    ensures !CheckCreate(tokenStored, f).Post? ==> r.patients == patients && r.form == f
    ensures CheckCreate(tokenStored, f).Post? && reply.Created? && reply.patient.Some? ==>
      r.patients == patients + [reply.patient.value] && r.form == EmptyForm
    ensures CheckCreate(tokenStored, f).Post? && !(reply.Created? && reply.patient.Some?) ==>
      r.patients == patients && r.form == f && r.alert != ""
    ensures CheckCreate(tokenStored, f).Post? && reply.Created? && reply.patient.None? ==> r.alert == CreateDefault
    ensures CheckCreate(tokenStored, f).Post? && reply.CreateFailed? && reply.error.response.None? && reply.error.requestSent ==>
      r.alert == NetworkText
  {
    match CheckCreate(tokenStored, f)
    case NeedLogin => CreateResult(patients, f, "请先登录")
    case MissingField => CreateResult(patients, f, "请填写所有必填字段")
    case BadAge => CreateResult(patients, f, "请输入有效的年龄")
    case Post(_) =>
      match reply
      case Created(Some(p)) => CreateResult(patients + [p], EmptyForm, "患者创建成功")
      case Created(None) => CreateResult(patients, f, CreateDefault)
      case CreateFailed(e) =>
        var message :=
          if e.response.Some? then Or(e.response.value.data.error, Or(e.response.value.data.message, CreateDefault))
          else if e.requestSent then NetworkText
          else CreateDefault;
        CreateResult(patients, f, message)
  }

  /** The list only ever grows through a form that passed every check, and then by exactly
      the one patient the server returned; the form is either kept or cleared. */
  lemma CreateOnlyFromCheckedForm(tokenStored: bool, f: PatientForm, patients: seq<PatientStore.Patient>, reply: CreateReply)
    ensures var r := CreatePatient(tokenStored, f, patients, reply);
      r.patients != patients ==>
        && tokenStored && f.name != "" && f.patientId != "" && f.gender != ""
        && ParseInt(f.age).Some? && ParseInt(f.age).value > 0
        && reply.Created? && reply.patient.Some? && r.patients == patients + [reply.patient.value]
    ensures var r := CreatePatient(tokenStored, f, patients, reply);
      r.form == f || r.form == EmptyForm
  {
  }

  // ---------------------------------------------------------------------
  // pollTaskStatus

  /** One answer to `GET /api/tasks/<id>`, or a request that failed. */
  datatype TaskReply = TaskReply(status: string, results: Option<UploadStore.Volumes>, matlabLog: Option<string>) | TransportError

  /** The component state the poll writes. */
  datatype View = View(processingStatus: Option<string>, matlabLog: string, analysisResults: Option<UploadStore.Volumes>)

  /** What happens after a poll: another one 2000 ms later, or the interval is cleared
      (after which the processed images are loaded when `loadImages`). */
  datatype Next = Continue(delayMs: nat) | Stop(loadImages: bool)

  const PollInterval: nat := 2000

  /** One tick of the `setInterval` callback as the code is written. A failed request
      rejects the async callback, which nothing awaits: the outer `catch` never sees it
      and the interval keeps firing. */
  function PollTick(v: View, reply: TaskReply): (r: (View, Next))
    ensures reply.TransportError? ==> r == (v, Continue(PollInterval))
    ensures reply.TaskReply? ==> r.0.matlabLog == Or(reply.matlabLog, "")
    ensures reply.TaskReply? && reply.status == "completed" ==>
      r.0.processingStatus == Some("completed") && r.0.analysisResults == reply.results && r.1 == Stop(true)
    ensures reply.TaskReply? && reply.status == "failed" ==>
      r.0.processingStatus == Some("failed") && r.0.analysisResults == v.analysisResults && r.1 == Stop(false)
    ensures reply.TaskReply? && reply.status != "completed" && reply.status != "failed" ==>
      r.0 == v.(matlabLog := Or(reply.matlabLog, "")) && r.1 == Continue(PollInterval)
  {
    match reply
    case TransportError => (v, Continue(PollInterval))
    case TaskReply(status, results, log) =>
      var v' := v.(matlabLog := Or(log, ""));
      if status == "completed" then (v'.(processingStatus := Some("completed"), analysisResults := results), Stop(true))
      else if status == "failed" then (v'.(processingStatus := Some("failed")), Stop(false))
      else (v', Continue(PollInterval))
  }

  /** The tick with the failed request handled the way the surrounding `catch` intends:
      polling stops and the status becomes 'error'. */
  function PollTickFixed(v: View, reply: TaskReply): (r: (View, Next))
    ensures reply.TransportError? ==> r == (v.(processingStatus := Some("error")), Stop(false))
    ensures reply.TaskReply? ==> r == PollTick(v, reply)
  {
    if reply.TransportError? then (v.(processingStatus := Some("error")), Stop(false))
    else PollTick(v, reply)
  }

  /** The tick stops on `reply` whatever the view. */
  ghost predicate AlwaysStops(tick: (View, TaskReply) -> (View, Next), reply: TaskReply) {
    forall w :: tick(w, reply).1.Stop?
  }

  /** Running the ticks for a sequence of replies until one stops the interval: the run
      stops only on a reply some tick stops on, and it does stop when some reply stops
      the tick whatever the view. */
  function RunPoll(tick: (View, TaskReply) -> (View, Next), v: View, replies: seq<TaskReply>): (r: (View, bool))
    ensures r.1 ==> exists k, w :: 0 <= k < |replies| && tick(w, replies[k]).1.Stop?
    ensures (forall k, w :: 0 <= k < |replies| ==> tick(w, replies[k]).1.Continue?) ==> !r.1
    ensures (exists k :: 0 <= k < |replies| && AlwaysStops(tick, replies[k])) ==> r.1
    ensures |replies| == 0 ==> r == (v, false)
    decreases |replies|
  {
    if |replies| == 0 then (v, false)
    else
      var (v', next) := tick(v, replies[0]);
      if next.Stop? then (v', true)
      else
        var r := RunPoll(tick, v', replies[1..]);
        assert forall k :: 0 <= k < |replies| - 1 ==> replies[1..][k] == replies[k + 1];
        assert (exists k :: 0 <= k < |replies| && AlwaysStops(tick, replies[k])) ==>
               (exists k :: 0 <= k < |replies[1..]| && AlwaysStops(tick, replies[1..][k])) by {
          if k :| 0 <= k < |replies| && AlwaysStops(tick, replies[k]) {
            assert k != 0;
            assert AlwaysStops(tick, replies[1..][k - 1]);
          }
        }
        r
  }

  /** As written, a server that cannot be reached is polled forever: no run of failed
      requests, however long, stops the interval or reports anything. */
  lemma {:induction false} UnreachableServerPolledForever(v: View, n: nat)
    ensures RunPoll(PollTick, v, seq(n, _ => TransportError)) == (v, false)
    decreases n
  {
    if n > 0 {
      assert seq(n, _ => TransportError)[1..] == seq(n - 1, _ => TransportError);
      UnreachableServerPolledForever(v, n - 1);
    }
  }

  /** The corrected tick stops on the first failed request and shows 'error'. */
  lemma FixedPollStopsOnError(v: View, rest: seq<TaskReply>)
    ensures RunPoll(PollTickFixed, v, [TransportError] + rest) == (v.(processingStatus := Some("error")), true)
  {
  }

  /** With either tick, polling stops at a reply iff its status is 'completed' or 'failed'
      or (corrected tick only) the request failed. */
  lemma StopRule(v: View, reply: TaskReply)
    ensures PollTick(v, reply).1.Stop? <==> reply.TaskReply? && reply.status in {"completed", "failed"}
    ensures PollTickFixed(v, reply).1.Stop? <==> reply.TransportError? || reply.status in {"completed", "failed"}
  {
  }

  /** A reply that stops the written tick: the task completed or failed. */
  predicate Final(reply: TaskReply) {
    reply.TaskReply? && reply.status in {"completed", "failed"}
  }

  /** A reply that stops the corrected tick: also a failed request. */
  predicate FinalFixed(reply: TaskReply) {
    reply.TransportError? || Final(reply)
  }

  /** For a tick whose stop depends only on the reply, a run stops iff some reply stops it. */
  lemma {:induction false} RunPollStopsIff(tick: (View, TaskReply) -> (View, Next), stops: TaskReply -> bool, v: View, replies: seq<TaskReply>)
    requires forall w, x :: tick(w, x).1.Stop? <==> stops(x)
    ensures RunPoll(tick, v, replies).1 <==> exists k :: 0 <= k < |replies| && stops(replies[k])
    decreases |replies|
  {
    if |replies| > 0 && !stops(replies[0]) {
      RunPollStopsIff(tick, stops, tick(v, replies[0]).0, replies[1..]);
      assert forall k :: 1 <= k < |replies| ==> replies[k] == replies[1..][k - 1];
    }
  }

  /** For such a tick, a run stops at the first reply that stops it: the replies before it
      do not stop the run, and the final view is that reply's tick after them. */
  lemma {:induction false} RunPollFirstStop(tick: (View, TaskReply) -> (View, Next), stops: TaskReply -> bool, v: View, replies: seq<TaskReply>, k: nat)
    requires forall w, x :: tick(w, x).1.Stop? <==> stops(x)
    requires k < |replies| && stops(replies[k])
    requires forall j :: 0 <= j < k ==> !stops(replies[j])
    ensures !RunPoll(tick, v, replies[..k]).1
    ensures RunPoll(tick, v, replies) == (tick(RunPoll(tick, v, replies[..k]).0, replies[k]).0, true)
    decreases k
  {
    if k > 0 {
      var v' := tick(v, replies[0]).0;
      assert !stops(replies[0]);
      assert forall j :: 0 <= j < k - 1 ==> replies[1..][j] == replies[j + 1];
      RunPollFirstStop(tick, stops, v', replies[1..], k - 1);
      assert replies[..k][0] == replies[0];
      assert replies[..k][1..] == replies[1..][..k - 1];
    } else {
      assert replies[..0] == [];
    }
  }

  /** With the written tick a run stops iff some task completed or failed, and with the
      corrected one also on a failed request; no reply before the first such one stops it. */
  lemma RunPollStopsAtFirstFinal(v: View, replies: seq<TaskReply>)
    ensures RunPoll(PollTick, v, replies).1 <==> exists k :: 0 <= k < |replies| && Final(replies[k])
    ensures RunPoll(PollTickFixed, v, replies).1 <==> exists k :: 0 <= k < |replies| && FinalFixed(replies[k])
    ensures forall k :: 0 <= k < |replies| && Final(replies[k]) && (forall j :: 0 <= j < k ==> !Final(replies[j])) ==>
      && !RunPoll(PollTick, v, replies[..k]).1
      && RunPoll(PollTick, v, replies) == (PollTick(RunPoll(PollTick, v, replies[..k]).0, replies[k]).0, true)
    ensures forall k :: 0 <= k < |replies| && FinalFixed(replies[k]) && (forall j :: 0 <= j < k ==> !FinalFixed(replies[j])) ==>
      && !RunPoll(PollTickFixed, v, replies[..k]).1
      && RunPoll(PollTickFixed, v, replies) == (PollTickFixed(RunPoll(PollTickFixed, v, replies[..k]).0, replies[k]).0, true)
  {
    forall w, x ensures (PollTick(w, x).1.Stop? <==> Final(x)) && (PollTickFixed(w, x).1.Stop? <==> FinalFixed(x)) {
      StopRule(w, x);
    }
    RunPollStopsIff(PollTick, Final, v, replies);
    RunPollStopsIff(PollTickFixed, FinalFixed, v, replies);
    forall k | 0 <= k < |replies| && Final(replies[k]) && (forall j :: 0 <= j < k ==> !Final(replies[j]))
      ensures && !RunPoll(PollTick, v, replies[..k]).1
              && RunPoll(PollTick, v, replies) == (PollTick(RunPoll(PollTick, v, replies[..k]).0, replies[k]).0, true)
    {
      RunPollFirstStop(PollTick, Final, v, replies, k);
    }
    forall k | 0 <= k < |replies| && FinalFixed(replies[k]) && (forall j :: 0 <= j < k ==> !FinalFixed(replies[j]))
      ensures && !RunPoll(PollTickFixed, v, replies[..k]).1
              && RunPoll(PollTickFixed, v, replies) == (PollTickFixed(RunPoll(PollTickFixed, v, replies[..k]).0, replies[k]).0, true)
    {
      RunPollFirstStop(PollTickFixed, FinalFixed, v, replies, k);
    }
  }

  // ---------------------------------------------------------------------
  // loadProcessedImages

  /** One answer to `GET /api/processed/<task>/<name>`, or a request that threw. */
  datatype ImageReply = ImageReply(status: string, image: string) | ImageThrown

  const ChannelNames: seq<string> := ["p1input.nii", "p2input.nii", "p3input.nii"]

  /** `loadProcessedImages`: the images of the three channels whose reply says 'success',
      keyed by file name; `None` when a request throws, because then the component
      state is never set. */
  method LoadProcessedImages(fetch: string -> ImageReply) returns (loaded: Option<map<string, string>>)
    ensures loaded.None? <==> exists k :: 0 <= k < |ChannelNames| && fetch(ChannelNames[k]).ImageThrown?
    ensures loaded.Some? ==> forall name :: name in loaded.value <==>
      name in ChannelNames && fetch(name).ImageReply? && fetch(name).status == "success"
    ensures loaded.Some? ==> forall name :: name in loaded.value ==> loaded.value[name] == fetch(name).image
  {
    var images: map<string, string> := map[];
    var i := 0;
    while i < |ChannelNames|
      invariant 0 <= i <= |ChannelNames|
      invariant forall k :: 0 <= k < i ==> fetch(ChannelNames[k]).ImageReply?
      invariant forall name :: name in images <==>
        name in ChannelNames[..i] && fetch(name).ImageReply? && fetch(name).status == "success"
      invariant forall name :: name in images ==> images[name] == fetch(name).image
    {
      var name := ChannelNames[i];
      var reply := fetch(name);
      if reply.ImageThrown? {
        return None;
      }
      if reply.status == "success" {
        images := images[name := reply.image];
      }
      assert ChannelNames[..i + 1] == ChannelNames[..i] + [name];
      i := i + 1;
    }
    assert ChannelNames[..i] == ChannelNames;
    return Some(images);
  }
}

=== FILE: patient_form.dfy ===
/** The patient edit form (frontend/src/components/Patient/PatientEdit.js): its
    validation, its change handler and the choice between creating and updating.
 */
module PatientForm {
  import opened Common
  import opened JsNumber

  /** The age field holds the typed text, or the number the server sent for an existing patient. */
  datatype Age = AgeText(text: string) | AgeNumber(n: int)

  datatype Form = Form(name: string, patientId: string, age: Age, gender: string)

  /** `formData.age` is truthy. */
  predicate AgeGiven(a: Age) {
    match a
    case AgeText(t) => t != ""
    case AgeNumber(n) => n != 0
  }

  /** `isNaN(age) || age < 0 || age > 150`. */
  predicate AgeInvalid(a: Age) {
    match a
    case AgeText(t) => IsNaN(t) || LessThan(t, 0.0) || GreaterThan(t, 150.0)
    case AgeNumber(n) => n < 0 || n > 150
  }

  /** `validationErrors`: one entry per form field; `None` when the key is absent. */
  datatype Errors = Errors(name: Option<string>, patientId: Option<string>, age: Option<string>, gender: Option<string>)

  const NoErrors := Errors(None, None, None, None)

  /** `validateForm()`: the errors recorded, and whether there are none. */
  function ValidateForm(f: Form): (r: (Errors, bool))
    ensures r.1 <==> r.0 == NoErrors
    ensures r.0.name.Some? <==> forall i :: 0 <= i < |f.name| ==> IsJsSpace(f.name[i])
    ensures r.0.patientId.Some? <==> forall i :: 0 <= i < |f.patientId| ==> IsJsSpace(f.patientId[i])
    ensures r.0.age.Some? <==> !AgeGiven(f.age) || AgeInvalid(f.age)
    ensures r.0.gender.Some? <==> f.gender == ""
    ensures forall e :: e in [r.0.name, r.0.patientId, r.0.age, r.0.gender] && e.Some? ==> e.value != ""
  {
    var errors := Errors(
      if Trim(f.name) == "" then Some("姓名不能为空") else None,
      if Trim(f.patientId) == "" then Some("患者ID不能为空") else None,
      if !AgeGiven(f.age) then Some("年龄不能为空")
      else if AgeInvalid(f.age) then Some("请输入有效的年龄")
      else None,
      if f.gender == "" then Some("请选择性别") else None);
    (errors, errors == NoErrors)
  }

  /** A typed whole-number age is accepted exactly when it lies in [0, 150]; a typed "0"
      passes, while a 0 received from the server counts as missing. */
  lemma TypedAgeRule(f: Form, n: int)
    requires f.age == AgeText(SignedDecimal(n))
    ensures ValidateForm(f).0.age.Some? <==> n < 0 || n > 150
    ensures ValidateForm(f.(age := AgeNumber(0))).0.age.Some?
  {
    TypedAgeInvalid(n);
  }

  lemma TypedAgeInvalid(n: int)
    ensures AgeGiven(AgeText(SignedDecimal(n)))
    ensures AgeInvalid(AgeText(SignedDecimal(n))) <==> n < 0 || n > 150
  {
    ToNumberDecimal(n);
  }

  // ---------------------------------------------------------------------
  // handleChange

  datatype Field = Name | PatientId | AgeField | Gender

  /** The error entry of `field`. */
  function ErrorOf(errors: Errors, field: Field): Option<string> {
    match field
    case Name => errors.name
    case PatientId => errors.patientId
    case AgeField => errors.age
    case Gender => errors.gender
  }

  /** `handleChange(e)` for an input named `field` now holding `value`: the field takes
      the value, and a shown error for that field is blanked. */
  function HandleChange(f: Form, errors: Errors, field: Field, value: string): (r: (Form, Errors))
    ensures field == Name ==> r.0 == f.(name := value)
    ensures field == PatientId ==> r.0 == f.(patientId := value)
    ensures field == AgeField ==> r.0 == f.(age := AgeText(value))
    ensures field == Gender ==> r.0 == f.(gender := value)
    ensures forall g :: g != field ==> ErrorOf(r.1, g) == ErrorOf(errors, g)
    ensures ErrorOf(r.1, field).Some? <==> ErrorOf(errors, field).Some?
    ensures ErrorOf(r.1, field).Some? ==> ErrorOf(r.1, field).value == ""
  {
    var blank := Truthy(ErrorOf(errors, field));
    match field
    case Name => (f.(name := value), if blank then errors.(name := Some("")) else errors)
    case PatientId => (f.(patientId := value), if blank then errors.(patientId := Some("")) else errors)
    case AgeField => (f.(age := AgeText(value)), if blank then errors.(age := Some("")) else errors)
    case Gender => (f.(gender := value), if blank then errors.(gender := Some("")) else errors)
  }

  // ---------------------------------------------------------------------
  // handleSubmit

  datatype Submit = NotSent | NeedLogin | Post(body: Form) | Put(id: string, body: Form)

  /** `handleSubmit(e)` for the route parameter `id` (`None` when absent). */
  function HandleSubmit(f: Form, id: Option<string>, tokenStored: bool): (r: Submit)
    ensures r.NotSent? <==> !ValidateForm(f).1
    ensures r.NeedLogin? <==> ValidateForm(f).1 && !tokenStored
    ensures r.Post? <==> ValidateForm(f).1 && tokenStored && (id == Some("new") || !Truthy(id))
    ensures r.Put? <==> ValidateForm(f).1 && tokenStored && Truthy(id) && id != Some("new")
    ensures r.Post? ==> r.body == f
    ensures r.Put? ==> r.body == f && Some(r.id) == id
  {
    if !ValidateForm(f).1 then NotSent
    else if !tokenStored then NeedLogin
    else if id == Some("new") || !Truthy(id) then Post(f)
    else Put(id.value, f)
  }

  /** Typing a name with any non-space character clears the name error on the next check. */
  lemma FilledNameValidates(f: Form, errors: Errors, value: string, i: nat)
    requires i < |value| && !IsJsSpace(value[i])
    ensures ValidateForm(HandleChange(f, errors, Name, value).0).0.name == None
  {
  }

  /** Repeating the same change changes nothing more. */
  lemma HandleChangeIdempotent(f: Form, errors: Errors, field: Field, value: string)
    ensures var (g, e) := HandleChange(f, errors, field, value);
      HandleChange(g, e, field, value) == (g, e)
  {
    var (g, e) := HandleChange(f, errors, field, value);
    assert !Truthy(ErrorOf(e, field));
  }

  /** Whatever is sent to the server passed validation: names and ids are not blank, the
      age is given and within range, and a gender is chosen. */
  lemma SentBodyIsValid(f: Form, id: Option<string>, tokenStored: bool)
    ensures var r := HandleSubmit(f, id, tokenStored);
      (r.Post? || r.Put?) ==>
        && ValidateForm(r.body).1
        && Trim(r.body.name) != "" && Trim(r.body.patientId) != ""
        && AgeGiven(r.body.age) && !AgeInvalid(r.body.age) && r.body.gender != ""
  {
  }
}

=== FILE: patient_reducer.dfy ===
/** The Redux slice holding the patient list and the selected patient
    (frontend/src/store/reducers/patientReducer.js).
 */
module PatientStore {
  import opened Common
  import Seqs

  /** A patient as the server serialises it; `id` is the database key. */
  datatype Patient = Patient(id: int, name: string, patientId: string, age: string, gender: string)

  datatype State = State(patients: seq<Patient>, selectedPatient: Option<Patient>, loading: bool, error: Option<string>)

  /** The seven `PATIENT_ACTIONS` with their payloads, and any other action. */
  datatype Action =
    | SetPatients(list: seq<Patient>)
    | AddPatient(added: Patient)
    | UpdatePatient(updated: Patient)
    | DeletePatient(deletedId: int)
    | SetSelectedPatient(selected: Option<Patient>)
    | SetLoading(flag: bool)
    | SetError(message: Option<string>)
    | Other

  function Initial(): State {
    State([], None, false, None)
  }

  /** `selectedPatient?.id === id`. */
  predicate SelectedHasId(s: State, id: int) {
    s.selectedPatient.Some? && s.selectedPatient.value.id == id
  }

  /** The patients left by `patients.filter(p => p.id !== id)`. */
  function WithoutId(patients: seq<Patient>, id: int): (r: seq<Patient>)
    ensures Seqs.IsSubsequence(r, patients)
    ensures forall p :: p in r <==> p in patients && p.id != id
    ensures forall p :: multiset(r)[p] == if p.id != id then multiset(patients)[p] else 0
  {
    Seqs.Filter(patients, (p: Patient) => p.id != id)
  }

  /** `patientReducer(state, action)`. */
  function Reduce(s: State, a: Action): (r: State)
    ensures (a.SetPatients? || a.AddPatient? || a.UpdatePatient? || a.DeletePatient?) ==> !r.loading && r.error == None
    ensures a.SetPatients? ==> r.patients == a.list && r.selectedPatient == s.selectedPatient
    ensures a.AddPatient? ==>
      && |r.patients| == |s.patients| + 1 && r.patients[..|s.patients|] == s.patients
      && r.patients[|s.patients|] == a.added && r.selectedPatient == s.selectedPatient
    ensures a.UpdatePatient? ==>
      && |r.patients| == |s.patients|
      && (forall i :: 0 <= i < |s.patients| && s.patients[i].id == a.updated.id ==> r.patients[i] == a.updated)
      && (forall i :: 0 <= i < |s.patients| && s.patients[i].id != a.updated.id ==> r.patients[i] == s.patients[i])
      && r.selectedPatient == (if SelectedHasId(s, a.updated.id) then Some(a.updated) else s.selectedPatient)
    ensures a.DeletePatient? ==>
      && Seqs.IsSubsequence(r.patients, s.patients)
      && (forall p :: p in r.patients <==> p in s.patients && p.id != a.deletedId)
      && (forall p :: multiset(r.patients)[p] == if p.id != a.deletedId then multiset(s.patients)[p] else 0)
      && (r.selectedPatient == None <==> s.selectedPatient == None || SelectedHasId(s, a.deletedId))
      && (!SelectedHasId(s, a.deletedId) ==> r.selectedPatient == s.selectedPatient)
    ensures a.SetSelectedPatient? ==> r == s.(selectedPatient := a.selected)
    ensures a.SetLoading? ==> r == s.(loading := a.flag)
    ensures a.SetError? ==>
      && r.error == a.message && !r.loading
      && r.patients == s.patients && r.selectedPatient == s.selectedPatient
    ensures a.Other? ==> r == s
  {
    match a
    case SetPatients(list) => s.(patients := list, loading := false, error := None)
    case AddPatient(p) => s.(patients := s.patients + [p], loading := false, error := None)
    case UpdatePatient(p) =>
      s.(patients := seq(|s.patients|, i requires 0 <= i < |s.patients| =>
                           if s.patients[i].id == p.id then p else s.patients[i]),
         selectedPatient := if SelectedHasId(s, p.id) then Some(p) else s.selectedPatient,
         loading := false, error := None)
    case DeletePatient(id) =>
      s.(patients := WithoutId(s.patients, id),
         selectedPatient := if SelectedHasId(s, id) then None else s.selectedPatient,
         loading := false, error := None)
    case SetSelectedPatient(p) => s.(selectedPatient := p)
    case SetLoading(flag) => s.(loading := flag)
    case SetError(e) => s.(error := e, loading := false)
    case Other => s
  }

  /** Deleting a freshly added patient restores the list it was added to. */
  lemma AddThenDelete(s: State, p: Patient)
    requires forall q :: q in s.patients ==> q.id != p.id
    ensures Reduce(Reduce(s, AddPatient(p)), DeletePatient(p.id)).patients == s.patients
  {
    var added := Reduce(s, AddPatient(p));
    assert added.patients == s.patients + [p];
    WithoutAppended(s.patients, p);
  }

  /** Removing the id of a patient appended to a list without that id gives the list back. */
  lemma WithoutAppended(patients: seq<Patient>, p: Patient)
    requires forall q :: q in patients ==> q.id != p.id
    ensures WithoutId(patients + [p], p.id) == patients
  {
    var keep := (q: Patient) => q.id != p.id;
    Seqs.FilterAppend(patients, [p], keep);
    assert Seqs.Filter([p], keep) == [];
  }

  /** After a delete, no patient with that id is left and nothing else was lost. */
  lemma DeleteRemovesAll(s: State, id: int)
    ensures forall q :: q in Reduce(s, DeletePatient(id)).patients ==> q.id != id
    ensures |Reduce(s, DeletePatient(id)).patients| <= |s.patients|
    ensures (forall q :: q in s.patients ==> q.id != id) ==> Reduce(s, DeletePatient(id)).patients == s.patients
  {
    Seqs.SubsequenceShorter(WithoutId(s.patients, id), s.patients);
  }

  /** Updating twice with the same record is updating once. */
  lemma UpdateIdempotent(s: State, p: Patient)
    ensures Reduce(Reduce(s, UpdatePatient(p)), UpdatePatient(p)) == Reduce(s, UpdatePatient(p))
  {
    var once := Reduce(s, UpdatePatient(p));
    var twice := Reduce(once, UpdatePatient(p));
    assert |twice.patients| == |once.patients|;
    assert forall i :: 0 <= i < |once.patients| ==> twice.patients[i] == once.patients[i];
    assert twice.patients == once.patients;
  }

  /** Deleting twice by the same id is deleting once. */
  lemma DeleteIdempotent(s: State, id: int)
    ensures Reduce(Reduce(s, DeletePatient(id)), DeletePatient(id)) == Reduce(s, DeletePatient(id))
  {
    var once := Reduce(s, DeletePatient(id));
    Seqs.FilterIdempotent(s.patients, (q: Patient) => q.id != id);
    assert once.patients == WithoutId(s.patients, id);
    assert !SelectedHasId(once, id);
  }
}

=== FILE: patient_registry.dfy ===
/** The patient endpoints of the service package
    (backend/app/routes/patient_routes.py) over an in-memory store of patients and
    images: creation, listing, and reading, updating and deleting one patient.
 */
module PatientRegistry {
  import opened Common

  /** A JSON request body; field values are kept as text. */
  type Body = map<string, string>

  /** A `Patient` row: its fields and the user that owns it. */
  datatype PatientRow = PatientRow(name: string, patientId: string, age: string, gender: string, owner: string)

  /** An `Image` row, pointing at its patient's database id. */
  datatype ImageRow = ImageRow(patient: int, filename: string, processedFilename: Option<string>)

  /** The tables, and the next id the database will hand out. */
  datatype Db = Db(patients: map<int, PatientRow>, images: map<int, ImageRow>, nextId: int)

  /** `patient_id` is unique across all users. */
  predicate UniquePatientIds(db: Db) {
    forall a, b :: a in db.patients && b in db.patients && a != b ==> db.patients[a].patientId != db.patients[b].patientId
  }

  /** Every image belongs to an existing patient. */
  predicate ImagesHaveOwners(db: Db) {
    forall i :: i in db.images ==> db.images[i].patient in db.patients
  }

  predicate FreshIds(db: Db) {
    forall k :: k in db.patients ==> k < db.nextId
  }

  predicate Valid(db: Db) {
    UniquePatientIds(db) && ImagesHaveOwners(db) && FreshIds(db)
  }

  datatype Reply =
    | Failure(status: int, error: string)
    | Created(id: int, row: PatientRow)
    | Listing(ids: set<int>)
    | Found(id: int, row: PatientRow)
    | Updated(id: int, row: PatientRow)
    | Deleted

  const Required: seq<string> := ["name", "patient_id", "age", "gender"]

  /** The first of `fields` the body lacks: the route's `for field in required_fields` loop. */
  function FirstMissingOf(fields: seq<string>, data: Body): (r: Option<string>)
    ensures r.None? <==> forall k :: 0 <= k < |fields| ==> fields[k] in data
    ensures r.Some? ==>
      exists k :: 0 <= k < |fields| && fields[k] == r.value && r.value !in data && (forall j :: 0 <= j < k ==> fields[j] in data)
    decreases |fields|
  {
    if |fields| == 0 then None
    else if fields[0] !in data then
      assert fields[0] == fields[0];
      Some(fields[0])
    else
      var rest := FirstMissingOf(fields[1..], data);
      if rest.Some? then
        var k :| 0 <= k < |fields[1..]| && fields[1..][k] == rest.value && rest.value !in data &&
          (forall j :: 0 <= j < k ==> fields[1..][j] in data);
        assert fields[k + 1] == rest.value;
        assert forall j :: 0 <= j < k + 1 ==> fields[j] in data by {
          forall j | 0 <= j < k + 1
            ensures fields[j] in data
          {
            if j > 0 {
              assert fields[1..][j - 1] == fields[j];
            }
          }
        }
        rest
      else
        assert forall k :: 0 <= k < |fields| ==> fields[k] in data by {
          forall k | 0 <= k < |fields|
            ensures fields[k] in data
          {
            if k > 0 {
              assert fields[1..][k - 1] == fields[k];
            }
          }
        }
        rest
  }

  function FirstMissing(data: Body): Option<string> {
    FirstMissingOf(Required, data)
  }

  /** Some patient already carries `patientId`. */
  predicate PatientIdTaken(db: Db, patientId: string) {
    exists k :: k in db.patients && db.patients[k].patientId == patientId
  }

  /** Some patient other than `self` carries `patientId`. */
  predicate PatientIdTakenByOther(db: Db, patientId: string, self: int) {
    exists k :: k in db.patients && k != self && db.patients[k].patientId == patientId
  }

  /** The row a complete body describes, owned by `user`. */
  function RowOf(data: Body, user: string): (r: PatientRow)
    requires FirstMissing(data).None?
    ensures r.name == data["name"] && r.patientId == data["patient_id"]
    ensures r.age == data["age"] && r.gender == data["gender"] && r.owner == user
  {
    assert Required[0] in data && Required[1] in data && Required[2] in data && Required[3] in data;
    assert Required[0] == "name" && Required[1] == "patient_id";
    PatientRow(data["name"], data["patient_id"], data["age"], data["gender"], user)
  }

  // ---------------------------------------------------------------------
  // /patients

  /** POST /patients by the token's user (`None` or empty when the token names none);
      `data` is `None` when the request carries no JSON. */
  function CreatePatient(db: Db, user: Option<string>, data: Option<Body>): (r: (Db, Reply))
    requires Valid(db)
    ensures Valid(r.0)
    ensures !Truthy(user) <==> r.1 == Failure(401, "未授权访问")
    ensures Truthy(user) && data.None? ==> r.1 == Failure(500, "创建患者失败")
    ensures Truthy(user) && data.Some? && FirstMissing(data.value).Some? ==>
      r.1 == Failure(400, "缺少必需字段：" + FirstMissing(data.value).value)
    ensures Truthy(user) && data.Some? && FirstMissing(data.value).None? && PatientIdTaken(db, data.value["patient_id"]) ==>
      r.1 == Failure(400, "患者ID已存在")
    ensures r.1.Created? <==>
      Truthy(user) && data.Some? && FirstMissing(data.value).None? && !PatientIdTaken(db, data.value["patient_id"])
    ensures r.1.Created? ==>
      && r.1.id !in db.patients && r.1.row == RowOf(data.value, user.value)
      && r.0.patients == db.patients[r.1.id := r.1.row] && r.0.images == db.images
    ensures !r.1.Created? ==> r.0 == db
  {
    if !Truthy(user) then (db, Failure(401, "未授权访问"))
    else if data.None? then (db, Failure(500, "创建患者失败"))
    else if FirstMissing(data.value).Some? then (db, Failure(400, "缺少必需字段：" + FirstMissing(data.value).value))
    else if PatientIdTaken(db, data.value["patient_id"]) then (db, Failure(400, "患者ID已存在"))
    else
      var id := db.nextId;
      var row := RowOf(data.value, user.value);
      var after := Db(db.patients[id := row], db.images, id + 1);
      assert UniquePatientIds(after) by {
        forall a, b | a in after.patients && b in after.patients && a != b
          ensures after.patients[a].patientId != after.patients[b].patientId
        {
          if a != id && b != id {
          } else if a == id {
            assert db.patients[b].patientId != row.patientId;
          } else {
            assert db.patients[a].patientId != row.patientId;
          }
        }
      }
      (after, Created(id, row))
  }

  /** The ids of the patients `user` owns. */
  function OwnedBy(db: Db, user: string): set<int> {
    set k | k in db.patients && db.patients[k].owner == user
  }

  /** GET /patients: exactly the caller's patients. */
  function ListPatients(db: Db, user: Option<string>): (r: Reply)
    ensures !Truthy(user) <==> r == Failure(401, "未授权访问")
    ensures Truthy(user) ==> r.Listing? && forall k :: k in r.ids <==> k in db.patients && db.patients[k].owner == user.value
  {
    if !Truthy(user) then Failure(401, "未授权访问") else Listing(OwnedBy(db, user.value))
  }

  /** A patient created by a user shows up in that user's list, and in nobody else's. */
  lemma CreatedPatientIsListed(db: Db, user: Option<string>, data: Option<Body>, other: Option<string>)
    requires Valid(db)
    requires CreatePatient(db, user, data).1.Created?
    requires Truthy(other) && other != user
    ensures var (after, reply) := CreatePatient(db, user, data);
      && reply.id in ListPatients(after, user).ids
      && ListPatients(after, other) == ListPatients(db, other)
  {
    var (after, reply) := CreatePatient(db, user, data);
    assert OwnedBy(after, other.value) == OwnedBy(db, other.value);
  }

  // ---------------------------------------------------------------------
  // /patients/<id>

  datatype Verb = Get | Put(data: Option<Body>) | Delete

  /** `id` names a patient that `user` owns. */
  predicate Owns(db: Db, user: string, id: int) {
    id in db.patients && db.patients[id].owner == user
  }

  /** The images of patient `id`. */
  function ImagesOf(db: Db, id: int): set<int> {
    set i | i in db.images && db.images[i].patient == id
  }

  /** The store without patient `id` and its images. */
  function Cascade(db: Db, id: int): (r: Db)
    requires ImagesHaveOwners(db)
    ensures r.patients.Keys == db.patients.Keys - {id}
    ensures r.images.Keys == db.images.Keys - ImagesOf(db, id)
    ensures forall k :: k in r.patients ==> r.patients[k] == db.patients[k]
    ensures forall i :: i in r.images ==> r.images[i] == db.images[i]
    ensures ImagesHaveOwners(r)
  {
    Db(map k | k in db.patients && k != id :: db.patients[k],
       map i | i in db.images && db.images[i].patient != id :: db.images[i],
       db.nextId)
  }

  /** GET, PUT or DELETE of /patients/<id>. */
  function PatientDetail(db: Db, user: Option<string>, id: int, verb: Verb): (r: (Db, Reply))
    requires Valid(db)
    ensures Valid(r.0)
    ensures !Truthy(user) <==> r.1 == Failure(401, "未授权访问")
    ensures Truthy(user) ==> (!Owns(db, user.value, id) <==> r.1 == Failure(404, "未找到患者"))
    ensures verb.Get? && Truthy(user) && Owns(db, user.value, id) ==> r.1 == Found(id, db.patients[id])
    ensures verb.Put? && Truthy(user) && Owns(db, user.value, id) ==>
      var data := verb.data;
      && (data.None? || data == Some(map[]) <==> r.1 == Failure(400, "请求数据为空"))
      && (data.Some? && data.value != map[] && FirstMissing(data.value).Some? ==>
            r.1 == Failure(400, "缺少必填字段：" + FirstMissing(data.value).value))
      && (data.Some? && data.value != map[] && FirstMissing(data.value).None? && PatientIdTakenByOther(db, data.value["patient_id"], id) ==>
            r.1 == Failure(400, "患者ID已存在"))
      && (r.1.Updated? <==> data.Some? && data.value != map[] && FirstMissing(data.value).None? && !PatientIdTakenByOther(db, data.value["patient_id"], id))
      && (r.1.Updated? ==> r.1 == Updated(id, RowOf(data.value, user.value)) && r.0 == db.(patients := db.patients[id := r.1.row]))
    ensures verb.Delete? && Truthy(user) && Owns(db, user.value, id) ==> r.1 == Deleted && r.0 == Cascade(db, id)
    ensures !r.1.Updated? && !r.1.Deleted? ==> r.0 == db
  {
    if !Truthy(user) then (db, Failure(401, "未授权访问"))
    else if !Owns(db, user.value, id) then (db, Failure(404, "未找到患者"))
    else
      match verb
      case Get => (db, Found(id, db.patients[id]))
      case Put(data) =>
        if data.None? || data.value == map[] then (db, Failure(400, "请求数据为空"))
        else if FirstMissing(data.value).Some? then (db, Failure(400, "缺少必填字段：" + FirstMissing(data.value).value))
        else if PatientIdTakenByOther(db, data.value["patient_id"], id) then (db, Failure(400, "患者ID已存在"))
        else
          var row := RowOf(data.value, user.value);
          var after := db.(patients := db.patients[id := row]);
          assert UniquePatientIds(after) by {
            forall a, b | a in after.patients && b in after.patients && a != b
              ensures after.patients[a].patientId != after.patients[b].patientId
            {
              if a == id {
                assert db.patients[b].patientId != row.patientId;
              } else if b == id {
                assert db.patients[a].patientId != row.patientId;
              }
            }
          }
          (after, Updated(id, row))
      case Delete => (Cascade(db, id), Deleted)
  }

  /** A PUT keeps the patient's owner and changes no other patient and no image. */
  lemma UpdateTouchesOnlyItsPatient(db: Db, user: Option<string>, id: int, data: Option<Body>)
    requires Valid(db)
    requires PatientDetail(db, user, id, Put(data)).1.Updated?
    ensures var after := PatientDetail(db, user, id, Put(data)).0;
      && after.patients.Keys == db.patients.Keys && after.images == db.images
      && after.patients[id].owner == db.patients[id].owner
      && forall k :: k in db.patients && k != id ==> after.patients[k] == db.patients[k]
  {
  }

  /** Keeping one's own `patient_id` on update is never a conflict. */
  lemma KeepingOwnPatientIdAllowed(db: Db, user: Option<string>, id: int, data: Body)
    requires Valid(db) && Truthy(user) && Owns(db, user.value, id)
    requires data != map[] && FirstMissing(data).None? && data["patient_id"] == db.patients[id].patientId
    ensures PatientDetail(db, user, id, Put(Some(data))).1.Updated?
  {
    assert !PatientIdTakenByOther(db, data["patient_id"], id);
  }

  /** After a DELETE the patient is gone for its owner and none of its images remain. */
  lemma DeletedPatientIsGone(db: Db, user: Option<string>, id: int)
    requires Valid(db)
    requires PatientDetail(db, user, id, Delete).1 == Deleted
    ensures var after := PatientDetail(db, user, id, Delete).0;
      && PatientDetail(after, user, id, Get).1 == Failure(404, "未找到患者")
      && forall i :: i in after.images ==> after.images[i].patient != id
  {
  }

  /** Whatever one user does to a single patient, every patient owned by someone else
      (and that patient's images) is left as it was. */
  lemma OtherUsersUntouched(db: Db, user: Option<string>, id: int, verb: Verb, other: string)
    requires Valid(db)
    requires user != Some(other)
    ensures var after := PatientDetail(db, user, id, verb).0;
      forall k :: Owns(db, other, k) ==> k in after.patients && after.patients[k] == db.patients[k] && ImagesOf(after, k) == ImagesOf(db, k)
  {
    var after := PatientDetail(db, user, id, verb).0;
    forall k | Owns(db, other, k)
      ensures k in after.patients && after.patients[k] == db.patients[k] && ImagesOf(after, k) == ImagesOf(db, k)
    {
      if after != db {
        assert Truthy(user) && Owns(db, user.value, id);
        assert k != id;
      }
    }
  }
}

=== FILE: patient_search.dfy ===
/** The search boxes over patient lists: the patient list page
    (frontend/src/components/Patient/PatientList.js) and the data manager
    (frontend/src/components/DataManagement/DataManager.js).
 */
module PatientSearch {
  import opened Common
  import Seqs
  import PatientStore

  /** `text.toLowerCase().includes(term.toLowerCase())`. */
  predicate MatchesText(text: string, term: string) {
    Contains(Lower(text), Lower(term))
  }

  // ---------------------------------------------------------------------
  // PatientList

  /** The patient list keeps a patient whose name or `patient_id` contains the term. */
  predicate ListMatches(p: PatientStore.Patient, term: string) {
    MatchesText(p.name, term) || MatchesText(p.patientId, term)
  }

  /** `filteredPatients` on the patient list page. */
  function FilterPatientList(patients: seq<PatientStore.Patient>, term: string): (r: seq<PatientStore.Patient>)
    ensures Seqs.IsSubsequence(r, patients)
    ensures forall p :: p in r <==> p in patients && ListMatches(p, term)
    ensures forall p :: multiset(r)[p] == if ListMatches(p, term) then multiset(patients)[p] else 0
  {
    Seqs.Filter(patients, (p: PatientStore.Patient) => ListMatches(p, term))
  }

  /** An empty term shows every patient. */
  lemma EmptyTermKeepsAllOnList(patients: seq<PatientStore.Patient>)
    ensures FilterPatientList(patients, "") == patients
  {
    forall p | p in patients
      ensures ListMatches(p, "")
    {
      ContainsEmpty(Lower(p.name));
    }
  }

  /** Letter case in the term makes no difference. */
  lemma ListSearchIgnoresCase(patients: seq<PatientStore.Patient>, term: string)
    ensures FilterPatientList(patients, term) == FilterPatientList(patients, Lower(term))
  {
    LowerIdempotent(term);
    Seqs.FilterCongruent(patients,
      (p: PatientStore.Patient) => ListMatches(p, term),
      (p: PatientStore.Patient) => ListMatches(p, Lower(term)));
  }

  /** Searching for a patient's whole name always finds that patient. */
  lemma ListFindsByName(patients: seq<PatientStore.Patient>, p: PatientStore.Patient)
    requires p in patients
    ensures p in FilterPatientList(patients, p.name)
  {
    ContainsSelf(Lower(p.name));
  }

  // ---------------------------------------------------------------------
  // DataManager

  /** A patient as the data manager receives it; its `id` is read as text. */
  datatype Record = Record(id: string, name: string)

  /** The data manager keeps a record whose name or `id` (not `patient_id`) contains the term. */
  predicate ManagerMatches(p: Record, term: string) {
    MatchesText(p.name, term) || MatchesText(p.id, term)
  }

  /** `filteredPatients` in the data manager. */
  function FilterManager(patients: seq<Record>, term: string): (r: seq<Record>)
    ensures Seqs.IsSubsequence(r, patients)
    ensures |r| <= |patients|
    ensures forall p :: p in r <==> p in patients && ManagerMatches(p, term)
    ensures forall p :: multiset(r)[p] == if ManagerMatches(p, term) then multiset(patients)[p] else 0
  {
    Seqs.Filter(patients, (p: Record) => ManagerMatches(p, term))
  }

  lemma EmptyTermKeepsAllInManager(patients: seq<Record>)
    ensures FilterManager(patients, "") == patients
  {
    forall p | p in patients
      ensures ManagerMatches(p, "")
    {
      ContainsEmpty(Lower(p.name));
    }
  }

  /** Narrowing the search: a longer term that contains the shorter one keeps no more
      records, in the same order. */
  lemma ManagerSearchNarrows(patients: seq<Record>, short: string, long: string)
    requires Contains(Lower(long), Lower(short))
    ensures forall p :: p in FilterManager(patients, long) ==> p in FilterManager(patients, short)
    ensures Seqs.IsSubsequence(FilterManager(patients, long), FilterManager(patients, short))
  {
    forall p | p in FilterManager(patients, long)
      ensures ManagerMatches(p, short)
    {
      if MatchesText(p.name, long) {
        ContainsTransitive(Lower(p.name), Lower(long), Lower(short));
      } else {
        ContainsTransitive(Lower(p.id), Lower(long), Lower(short));
      }
    }
    Seqs.FilterNarrower(patients, (p: Record) => ManagerMatches(p, long), (p: Record) => ManagerMatches(p, short));
  }

  /** Containment of substrings is transitive. */
  lemma ContainsTransitive(a: string, b: string, c: string)
    requires Contains(a, b) && Contains(b, c)
    ensures Contains(a, c)
  {
    var i :| 0 <= i <= |a| - |b| && OccursAt(a, b, i);
    var j :| 0 <= j <= |b| - |c| && OccursAt(b, c, j);
    forall k | 0 <= k < |c|
      ensures a[i + j + k] == c[k]
    {
      assert a[i..i + |b|][j + k] == b[j + k];
      assert b[j..j + |c|][k] == c[k];
    }
    assert OccursAt(a, c, i + j);
  }
}

=== FILE: processing.dfy ===
/** The processing panel (frontend/src/components/Image/ImageProcessing.js): it
    starts processing of the selected image and polls the task, driving the
    upload slice of the store with its actions. The selected image's id is a
    parameter: the upload slice has no such field (see README).
 */
module Processing {
  import opened Common
  import opened Http
  import opened UploadStore

  const ProcessingFailed := "处理失败"
  const NoImage := "没有可处理的图像"
  const MissingTask := "处理响应中缺少任务ID"

  /** What `imageAPI.processImage` yields: a reply carrying `task_id` (maybe missing), or a failure. */
  datatype StartReply = Started(taskId: Option<string>) | StartFailed(error: RequestError)

  /** `startProcessing()`: the actions it dispatches, and whether it sent a request. */
  function StartProcessingRun(selectedId: Option<string>, reply: StartReply): (r: (seq<Action>, bool))
    ensures !Truthy(selectedId) ==> r == ([ProcessingError(Some(NoImage))], false)
    ensures Truthy(selectedId) ==> r.1 && |r.0| == 2 && r.0[0] == StartProcessing(None)
    ensures Truthy(selectedId) && reply.Started? && Truthy(reply.taskId) ==> r.0[1] == StartProcessing(reply.taskId)
    ensures Truthy(selectedId) && reply.Started? && !Truthy(reply.taskId) ==> r.0[1] == ProcessingError(Some(MissingTask))
    ensures Truthy(selectedId) && reply.StartFailed? ==> r.0[1] == ProcessingError(Some(Or(Some(reply.error.message), ProcessingFailed)))
  {
    if !Truthy(selectedId) then ([ProcessingError(Some(NoImage))], false)
    else
      var last :=
        match reply
        case Started(task) => if Truthy(task) then StartProcessing(task) else ProcessingError(Some(MissingTask))
        case StartFailed(e) => ProcessingError(Some(Or(Some(e.message), ProcessingFailed)));
      ([StartProcessing(None), last], true)
  }

  /** After `startProcessing` the slice is 'processing' with the server's task id, or
      'error' with no task; it is never left idle. */
  lemma StartProcessingOutcome(s: State, selectedId: Option<string>, reply: StartReply)
    ensures var t := ReduceAll(s, StartProcessingRun(selectedId, reply).0);
      && (t.processingStatus == "processing" <==> Truthy(selectedId) && reply.Started? && Truthy(reply.taskId))
      && (t.processingStatus == "processing" ==> t.taskId == reply.taskId && t.error == None)
      && (t.processingStatus != "processing" ==> t.processingStatus == "error" && t.error.Some?)
  {
    var acts := StartProcessingRun(selectedId, reply).0;
    if Truthy(selectedId) {
      ReduceAllShort(s, acts[0], acts[1]);
    } else {
      ReduceAllShort(s, acts[0], acts[0]);
    }
  }

  /** One answer to `imageAPI.getTaskStatus`, or an exception. */
  datatype TaskReply =
    | TaskData(status: string, results: Option<Volumes>, images: Option<Images>, matlabLog: Option<string>)
    | Thrown(message: string)

  /** `pollTaskStatus()`: the actions dispatched and whether polling stops. Without a
      selected image it returns `undefined`, which the caller reads as "do not stop". */
  function PollTaskStatus(selectedId: Option<string>, reply: TaskReply): (r: (seq<Action>, bool))
    ensures !Truthy(selectedId) ==> r == ([], false)
    ensures Truthy(selectedId) && reply.TaskData? ==> |r.0| >= 1 && r.0[0] == UpdateMatlabLog(Or(reply.matlabLog, ""))
    ensures Truthy(selectedId) ==> (r.1 <==> reply.Thrown? || reply.status in {"completed", "failed"})
    ensures Truthy(selectedId) && reply.TaskData? && reply.status == "completed" ==>
      r.0 == [UpdateMatlabLog(Or(reply.matlabLog, "")), ProcessingSuccess(Some(reply.images.GetOr(map[])), reply.results)]
    ensures Truthy(selectedId) && reply.TaskData? && reply.status == "failed" ==>
      r.0 == [UpdateMatlabLog(Or(reply.matlabLog, "")), ProcessingError(Some(ProcessingFailed))]
    ensures Truthy(selectedId) && reply.Thrown? ==> r.0 == [ProcessingError(Some(Or(Some(reply.message), ProcessingFailed)))]
    ensures Truthy(selectedId) && !r.1 ==> r.0 == [UpdateMatlabLog(Or(reply.matlabLog, ""))]
  {
    if !Truthy(selectedId) then ([], false)
    else match reply
      case Thrown(message) => ([ProcessingError(Some(Or(Some(message), ProcessingFailed)))], true)
      case TaskData(status, results, images, log) =>
        var logAction := UpdateMatlabLog(Or(log, ""));
        if status == "completed" then ([logAction, ProcessingSuccess(Some(images.GetOr(map[])), results)], true)
        else if status == "failed" then ([logAction, ProcessingError(Some(ProcessingFailed))], true)
        else ([logAction], false)
  }

  /** The effect polls while the slice is 'processing' and an image is selected. The id
      of the selected image is an input here; when no image is selected the effect does not
      skip polling but throws reading its `id` (see README). */
  predicate PollingActive(s: State, selectedId: Option<string>) {
    s.processingStatus == "processing" && Truthy(selectedId)
  }

  /** While polling is active, a poll asks to stop exactly when its actions move the slice
      out of 'processing', so the stop decision and the store never disagree. */
  lemma StopIffLeavesProcessing(s: State, selectedId: Option<string>, reply: TaskReply)
    requires PollingActive(s, selectedId)
    ensures var (acts, stop) := PollTaskStatus(selectedId, reply);
      stop <==> ReduceAll(s, acts).processingStatus != "processing"
  {
    var (acts, stop) := PollTaskStatus(selectedId, reply);
    if |acts| == 2 {
      ReduceAllShort(s, acts[0], acts[1]);
    } else {
      ReduceAllShort(s, acts[0], acts[0]);
    }
  }

  /** Running the poll over a sequence of answers: it stops at the first one that asks to
      stop; otherwise the next poll is scheduled `POLLING_INTERVAL` (2000 ms) later. Returns
      the final state and the number of polls made. */
  function RunPolls(s: State, selectedId: Option<string>, replies: seq<TaskReply>): (r: (State, nat))
    ensures r.1 <= |replies|
    decreases |replies|
  {
    if |replies| == 0 then (s, 0)
    else
      var (acts, stop) := PollTaskStatus(selectedId, replies[0]);
      var t := ReduceAll(s, acts);
      if stop then (t, 1)
      else
        var (u, n) := RunPolls(t, selectedId, replies[1..]);
        (u, n + 1)
  }

  /** An answer that ends polling while an image is selected. */
  predicate Final(reply: TaskReply) {
    reply.Thrown? || reply.status in {"completed", "failed"}
  }

  /** A run that starts while polling is active stays 'processing' until it stops; it stops
      at the first completed or failed task or the first exception, and runs through all
      answers when there is none. */
  lemma {:induction false} RunPollsStopsAtFirstFinal(s: State, selectedId: Option<string>, replies: seq<TaskReply>)
    requires PollingActive(s, selectedId)
    ensures var (t, n) := RunPolls(s, selectedId, replies);
      && (t.processingStatus != "processing" <==> exists k :: 0 <= k < |replies| && Final(replies[k]))
      && (forall k :: 0 <= k < n - 1 ==> !Final(replies[k]))
      && (t.processingStatus != "processing" ==> n > 0 && Final(replies[n - 1]))
      && (t.processingStatus == "processing" ==> n == |replies|)
    decreases |replies|
  {
    if |replies| > 0 {
      StopIffLeavesProcessing(s, selectedId, replies[0]);
      var (acts, stop) := PollTaskStatus(selectedId, replies[0]);
      var t := ReduceAll(s, acts);
      if !stop {
        RunPollsStopsAtFirstFinal(t, selectedId, replies[1..]);
        assert forall k :: 1 <= k < |replies| ==> replies[k] == replies[1..][k - 1];
      }
    }
  }
}

=== FILE: segmentation.dfy ===
/** Loading the grey-matter, white-matter and CSF overlays of a processed image
    in the comparison view (frontend/src/components/Image/ImageCompare.js).
 */
module Segmentation {
  import opened Common

  /** One answer to `GET /api/preview/<task>?type=<channel>`, or a request that threw. */
  datatype Attempt = Answer(status: Option<string>, image: Option<string>) | Thrown

  const MaxRetries: nat := 3
  const DataUrlPrefix := "data:image/png;base64,"

  /** An answer the loop accepts: status 'success' and a non-empty image. */
  predicate Good(a: Attempt) {
    a.Answer? && a.status == Some("success") && Truthy(a.image)
  }

  /** The waits before the retries after `failures` failed attempts: 1000 ms, then 2000 ms, ... */
  function Waits(failures: nat): (r: seq<nat>)
    ensures |r| == failures
    ensures forall k :: 0 <= k < failures ==> r[k] == 1000 * (k + 1)
  {
    seq(failures, k => 1000 * (k + 1))
  }

  /** Reference definition of a channel's outcome, independent of the loop: the first of the
      three attempts that is answered well, if any. */
  function FirstGood(reply: nat -> Attempt): (r: Option<nat>)
    ensures r.Some? ==> r.value < MaxRetries && Good(reply(r.value))
    ensures r.Some? ==> forall k :: 0 <= k < r.value ==> !Good(reply(k))
    ensures r.None? <==> forall k :: 0 <= k < MaxRetries ==> !Good(reply(k))
  {
    if Good(reply(0)) then Some(0)
    else if Good(reply(1)) then Some(1)
    else if Good(reply(2)) then Some(2)
    else None
  }

  /** The overlay a channel yields: the data URL of its first good answer. */
  function ChannelImage(reply: nat -> Attempt): Option<string> {
    match FirstGood(reply)
    case Some(k) => Some(DataUrlPrefix + reply(k).image.value)
    case None => None
  }

  /** The requests a channel costs: up to and including its first good answer, else all three. */
  function ChannelRequests(reply: nat -> Attempt): nat {
    match FirstGood(reply)
    case Some(k) => k + 1
    case None => MaxRetries
  }

  /** `fetchSegmentationImage(taskId, type)` for one channel, where attempt `k` (from 0)
      is answered by `reply(k)`. Returns the data URL or `None`, the number of requests
      made and the waits slept between them. */
  method FetchSegmentationImage(taskId: Option<string>, reply: nat -> Attempt)
    returns (image: Option<string>, requests: nat, waits: seq<nat>)
    ensures !Truthy(taskId) ==> image.None? && requests == 0 && waits == []
    ensures Truthy(taskId) ==> 1 <= requests <= MaxRetries && waits == Waits(requests - 1)
    ensures Truthy(taskId) ==> forall k :: 0 <= k < requests - 1 ==> !Good(reply(k))
    ensures image.Some? ==> Good(reply(requests - 1)) && image.value == DataUrlPrefix + reply(requests - 1).image.value
    ensures Truthy(taskId) && image.None? ==> requests == MaxRetries && !Good(reply(requests - 1))
    ensures Truthy(taskId) ==> image == ChannelImage(reply) && requests == ChannelRequests(reply)
  {
    if !Truthy(taskId) {
      return None, 0, [];
    }
    var retryCount: nat := 0;
    waits := [];
    // The source returns null right after the last failed attempt; leaving the loop
    // and returning null at its end is the same.
    while retryCount < MaxRetries
      invariant retryCount <= MaxRetries
      invariant waits == Waits(if retryCount == MaxRetries then MaxRetries - 1 else retryCount)
      invariant forall k :: 0 <= k < retryCount ==> !Good(reply(k))
      decreases MaxRetries - retryCount
    {
      var a := reply(retryCount);
      if Good(a) {
        return Some(DataUrlPrefix + a.image.value), retryCount + 1, waits;
      }
      retryCount := retryCount + 1;
      if retryCount < MaxRetries {
        waits := waits + [1000 * retryCount];
      }
    }
    return None, retryCount, waits;
  }

  /** A channel whose first answer is good costs one request and no wait; one that never
      answers well costs exactly three requests and 3000 ms of waiting in all. */
  method FetchCosts(taskId: string, reply: nat -> Attempt)
    returns (image: Option<string>, requests: nat, waited: nat)
    requires taskId != ""
    ensures Good(reply(0)) ==> image.Some? && requests == 1 && waited == 0
    ensures (forall k :: 0 <= k < MaxRetries ==> !Good(reply(k))) ==> image.None? && requests == 3 && waited == 3000
  {
    var w;
    image, requests, w := FetchSegmentationImage(Some(taskId), reply);
    waited := Sum(w);
    if requests == 3 {
      assert w == [1000, 2000];
      assert Sum(w) == 1000 + Sum([2000]);
    }
  }

  function Sum(s: seq<nat>): nat
    decreases |s|
  {
    if |s| == 0 then 0 else s[0] + Sum(s[1..])
  }

  // ---------------------------------------------------------------------
  // handleImageSelect

  /** The image record the comparison view works with. */
  datatype ImageData = ImageData(id: string, taskId: Option<string>)

  /** What was picked: a bare id (looked up first) or a full record. */
  datatype Selection = ById(id: string) | Record(data: ImageData)

  datatype Overlays = Overlays(gm: Option<string>, wm: Option<string>, csf: Option<string>)

  /** The record `handleImageSelect` goes on with: the looked-up one for an id (`None` when
      the lookup failed) or the record given. */
  function Resolve(sel: Selection, lookup: Option<ImageData>): (r: Option<ImageData>)
    ensures sel.Record? ==> r == Some(sel.data)
    ensures sel.ById? ==> r == lookup
  {
    if sel.ById? then lookup else Some(sel.data)
  }

  /** `handleImageSelect(index, imageData)` after the lookup: the overlays loaded for the
      selected record, or `None` when the selection is abandoned. `reply(channel, k)`
      answers attempt `k` of a channel. */
  method HandleImageSelect(sel: Selection, lookup: Option<ImageData>, reply: string -> nat -> Attempt)
    returns (overlays: Option<Overlays>, requests: nat)
    ensures overlays.None? <==> Resolve(sel, lookup).None? || !Truthy(Resolve(sel, lookup).value.taskId)
    ensures overlays.None? ==> requests == 0
    ensures overlays.Some? ==> 3 <= requests <= 3 * MaxRetries
    ensures overlays.Some? ==>
      overlays.value == Overlays(ChannelImage(reply("gm")), ChannelImage(reply("wm")), ChannelImage(reply("csf")))
    ensures overlays.Some? ==>
      requests == ChannelRequests(reply("gm")) + ChannelRequests(reply("wm")) + ChannelRequests(reply("csf"))
  {
    var data := Resolve(sel, lookup);
    if data.None? || !Truthy(data.value.taskId) {
      return None, 0;
    }
    var task := data.value.taskId;
    var gm, n1, _ := FetchSegmentationImage(task, reply("gm"));
    var wm, n2, _ := FetchSegmentationImage(task, reply("wm"));
    var csf, n3, _ := FetchSegmentationImage(task, reply("csf"));
    return Some(Overlays(gm, wm, csf)), n1 + n2 + n3;
  }

  /** The reference outcome of a channel: one to three requests; an overlay starting with the
      data-URL prefix exactly when one of the three answers is good, otherwise all three
      requests spent. */
  lemma ChannelOutcome(reply: nat -> Attempt)
    ensures 1 <= ChannelRequests(reply) <= MaxRetries
    ensures ChannelImage(reply).Some? <==> exists k :: 0 <= k < MaxRetries && Good(reply(k))
    ensures ChannelImage(reply).Some? ==> StartsWith(ChannelImage(reply).value, DataUrlPrefix)
    ensures ChannelImage(reply).None? ==> ChannelRequests(reply) == MaxRetries
  {
    if ChannelImage(reply).Some? {
      var k := FirstGood(reply).value;
      assert (DataUrlPrefix + reply(k).image.value)[..|DataUrlPrefix|] == DataUrlPrefix;
    }
  }
}

=== FILE: seqs.dfy ===
/** Order-preserving selection over sequences: `Array.prototype.filter`. */
module Seqs {

  /** `a` can be obtained from `b` by deleting elements, keeping the order of the rest. */
  predicate IsSubsequence<T(==)>(a: seq<T>, b: seq<T>)
    decreases |b|
  {
    if |a| == 0 then true
    else if |b| == 0 then false
    else (a[0] == b[0] && IsSubsequence(a[1..], b[1..])) || IsSubsequence(a, b[1..])
  }

  lemma {:induction false} SubsequenceShorter<T>(a: seq<T>, b: seq<T>)
    requires IsSubsequence(a, b)
    ensures |a| <= |b|
    decreases |b|
  {
    if |a| == 0 {
    } else if a[0] == b[0] && IsSubsequence(a[1..], b[1..]) {
      SubsequenceShorter(a[1..], b[1..]);
    } else {
      SubsequenceShorter(a, b[1..]);
    }
  }

  lemma {:induction false} SubsequenceReflexive<T>(a: seq<T>)
    ensures IsSubsequence(a, a)
    decreases |a|
  {
    if |a| > 0 {
      SubsequenceReflexive(a[1..]);
    }
  }

  /** `s.filter(keep)`. */
  function Filter<T(==,!new)>(s: seq<T>, keep: T -> bool): (r: seq<T>)
    ensures IsSubsequence(r, s)
    ensures |r| <= |s|
    ensures forall x :: x in r <==> x in s && keep(x)
    ensures forall x :: multiset(r)[x] == if keep(x) then multiset(s)[x] else 0
    ensures (forall x :: x in s ==> keep(x)) ==> r == s
    ensures (forall x :: x in s ==> !keep(x)) ==> r == []
    decreases |s|
  {
    if |s| == 0 then []
    else
      var rest := Filter(s[1..], keep);
      var r := if keep(s[0]) then [s[0]] + rest else rest;
      assert IsSubsequence(r, s) by {
        if keep(s[0]) { assert r[1..] == rest; }
      }
      assert forall x :: x in r <==> x in s && keep(x) by {
        assert forall x :: x in s <==> x == s[0] || x in s[1..];
      }
      assert forall x :: multiset(r)[x] == if keep(x) then multiset(s)[x] else 0 by {
        assert s == [s[0]] + s[1..];
        assert multiset(s) == multiset{s[0]} + multiset(s[1..]);
        if keep(s[0]) { assert multiset(r) == multiset{s[0]} + multiset(rest); }
      }
      assert (forall x :: x in s ==> keep(x)) ==> r == s by {
        if forall x :: x in s ==> keep(x) {
          assert forall x :: x in s[1..] ==> x in s;
          assert s == [s[0]] + s[1..];
        }
      }
      assert (forall x :: x in s ==> !keep(x)) ==> r == [] by {
        assert forall x :: x in s[1..] ==> x in s;
      }
      r
  }

  /** Filtering twice with the same predicate changes nothing the second time. */
  lemma {:induction false} FilterIdempotent<T(!new)>(s: seq<T>, keep: T -> bool)
    ensures Filter(Filter(s, keep), keep) == Filter(s, keep)
  {
    var r := Filter(s, keep);
    assert forall x :: x in r ==> keep(x);
  }

  /** Filters with equivalent predicates select the same elements. */
  lemma {:induction false} FilterCongruent<T(!new)>(s: seq<T>, p: T -> bool, q: T -> bool)
    requires forall x :: x in s ==> (p(x) <==> q(x))
    ensures Filter(s, p) == Filter(s, q)
    decreases |s|
  {
    if |s| > 0 {
      assert forall x :: x in s[1..] ==> x in s;
      FilterCongruent(s[1..], p, q);
    }
  }

  /** Filtering distributes over concatenation. */
  lemma {:induction false} FilterAppend<T(!new)>(a: seq<T>, b: seq<T>, keep: T -> bool)
    ensures Filter(a + b, keep) == Filter(a, keep) + Filter(b, keep)
    decreases |a|
  {
    if |a| > 0 {
      assert (a + b)[1..] == a[1..] + b;
      FilterAppend(a[1..], b, keep);
    } else {
      assert a + b == b;
    }
  }

  /** Filtering with a narrower predicate keeps a subsequence of what the wider one keeps. */
  lemma {:induction false} FilterNarrower<T(!new)>(s: seq<T>, p: T -> bool, q: T -> bool)
    requires forall x :: x in s && p(x) ==> q(x)
    ensures IsSubsequence(Filter(s, p), Filter(s, q))
    decreases |s|
  {
    if |s| == 0 {
    } else {
      assert forall x :: x in s[1..] ==> x in s;
      FilterNarrower(s[1..], p, q);
      var rp, rq := Filter(s[1..], p), Filter(s[1..], q);
      if p(s[0]) {
        assert ([s[0]] + rp)[1..] == rp;
        assert ([s[0]] + rq)[1..] == rq;
      } else if q(s[0]) {
        assert ([s[0]] + rq)[1..] == rq;
      }
    }
  }

  /** `s.indexOf(x)`: the first position of `x`, or -1. */
  function IndexOf<T(==)>(s: seq<T>, x: T): (r: int)
    ensures -1 <= r < |s|
    ensures r == -1 <==> x !in s
    ensures r >= 0 ==> s[r] == x && x !in s[..r]
    decreases |s|
  {
    if |s| == 0 then -1
    else if s[0] == x then 0
    else
      var k := IndexOf(s[1..], x);
      if k == -1 then -1
      else
        assert s[..k + 1] == [s[0]] + s[1..][..k];
        k + 1
  }

  /** `s.slice()` followed by `splice(k, 1)`: removes one element, counting a negative
      `k` from the end. */
  function SpliceOne<T>(s: seq<T>, k: int): (r: seq<T>)
    ensures 0 <= k < |s| ==> r == s[..k] + s[k + 1..]
    ensures k >= |s| ==> r == s
    ensures -|s| <= k < 0 ==> r == s[..|s| + k] + s[|s| + k + 1..]
  {
    var start := if k < 0 then (if -k > |s| then 0 else |s| + k) else k;
    if start >= |s| then s else s[..start] + s[start + 1..]
  }
}

=== FILE: task_queue.dfy ===
/** The background processing queue of the service package
    (backend/app/services/queue_manager.py): task records, registration, status
    queries and the life of one task through the three MATLAB steps.
 */
module TaskQueue {
  import opened Common

  /** Extracted measures, keyed by name. */
  type Results = map<string, real>

  /** A clock reading; the source uses `datetime.now()`. */
  type Time = nat

  datatype Status = Pending | Processing | Completed | Failed {
    /** The text the status endpoint reports. */
    function Text(): string {
      match this
      case Pending => "pending"
      case Processing => "processing"
      case Completed => "completed"
      case Failed => "failed"
    }
  }

  /** `ProcessingTask`. */
  datatype Task = Task(
    taskId: string,
    filePath: string,
    outputDir: string,
    status: Status,
    progress: nat,
    startTime: Option<Time>,
    endTime: Option<Time>,
    error: Option<string>,
    results: Option<Results>)

  /** The manager's bookkeeping: the task table, the ids waiting in the queue, the
      number of tasks running and the concurrency limit. */
  datatype Manager = Manager(tasks: map<string, Task>, queue: seq<string>, processingCount: int, maxConcurrent: int)

  /** Every queued id names a registered task. */
  predicate QueueKnown(m: Manager) {
    forall i :: 0 <= i < |m.queue| ==> m.queue[i] in m.tasks
  }

  /** A freshly constructed task. */
  predicate IsFresh(t: Task) {
    && t.status == Pending && t.progress == 0
    && t.startTime.None? && t.endTime.None? && t.error.None? && t.results.None?
  }

  /** `add_task(file_path, output_dir)`; `taskId` is the timestamp the source formats. */
  function AddTask(m: Manager, taskId: string, filePath: string, outputDir: string): (r: (Manager, string))
    ensures r.1 == taskId
    ensures r.0.tasks.Keys == m.tasks.Keys + {taskId}
    ensures IsFresh(r.0.tasks[taskId])
    ensures r.0.tasks[taskId].taskId == taskId && r.0.tasks[taskId].filePath == filePath
    ensures r.0.tasks[taskId].outputDir == outputDir
    ensures forall id :: id in m.tasks && id != taskId ==> r.0.tasks[id] == m.tasks[id]
    ensures r.0.queue == m.queue + [taskId]
    ensures r.0.processingCount == m.processingCount && r.0.maxConcurrent == m.maxConcurrent
    ensures QueueKnown(m) ==> QueueKnown(r.0)
  {
    var task := Task(taskId, filePath, outputDir, Pending, 0, None, None, None, None);
    (m.(tasks := m.tasks[taskId := task], queue := m.queue + [taskId]), taskId)
  }

  /** The dictionary `get_task_status` returns. */
  datatype StatusReport = StatusReport(
    status: string, progress: nat, startTime: Option<Time>, endTime: Option<Time>,
    error: Option<string>, results: Option<Results>)

  /** `get_task_status(task_id)`: `None` for an unknown id. */
  function GetTaskStatus(m: Manager, taskId: string): (r: Option<StatusReport>)
    ensures r.None? <==> taskId !in m.tasks
    ensures r.Some? ==>
      var t := m.tasks[taskId];
      && r.value.status == t.status.Text() && r.value.progress == t.progress
      && r.value.startTime == t.startTime && r.value.endTime == t.endTime
      && r.value.error == t.error && r.value.results == t.results
  {
    if taskId in m.tasks then
      var t := m.tasks[taskId];
      Some(StatusReport(t.status.Text(), t.progress, t.startTime, t.endTime, t.error, t.results))
    else None
  }

  /** A task just added reports `pending` at 0 with nothing else set. */
  lemma AddedTaskIsPending(m: Manager, taskId: string, filePath: string, outputDir: string)
    ensures GetTaskStatus(AddTask(m, taskId, filePath, outputDir).0, taskId)
         == Some(StatusReport("pending", 0, None, None, None, None))
  {
  }

  // ---------------------------------------------------------------------
  // _process_task

  /** A MATLAB step either returns a value or raises with a message. */
  datatype Outcome<T> = Ok(value: T) | Raised(message: string)

  /** The three steps of the MATLAB service, as oracles. */
  datatype Services = Services(
    convert: (string, string) -> Outcome<string>,
    cat12: (string, string) -> Outcome<string>,
    extract: string -> Outcome<Results>)

  /** The progress values a fully successful run writes, in order. */
  const Milestones: seq<nat> := [10, 30, 80, 100]

  /** The result of one run: the task afterwards and the progress values written. */
  datatype Run = Run(task: Task, progressTrace: seq<nat>)

  /** Every step of the run succeeds. */
  predicate AllSucceed(t: Task, svc: Services) {
    && svc.convert(t.filePath, t.outputDir).Ok?
    && svc.cat12(svc.convert(t.filePath, t.outputDir).value, t.outputDir).Ok?
    && svc.extract(svc.cat12(svc.convert(t.filePath, t.outputDir).value, t.outputDir).value).Ok?
  }

  /** The task fields of `_process_task(task)`, started at `start` and ended at `end`. */
  function RunTask(t: Task, svc: Services, start: Time, end: Time): (r: Run)
    ensures 1 <= |r.progressTrace| <= |Milestones| && r.progressTrace == Milestones[..|r.progressTrace|]
    ensures r.task.progress == r.progressTrace[|r.progressTrace| - 1]
    ensures forall i, j :: 0 <= i < j < |r.progressTrace| ==> r.progressTrace[i] < r.progressTrace[j]
    ensures r.task.startTime == Some(start) && r.task.endTime == Some(end)
    ensures r.task.status == Completed || r.task.status == Failed
    ensures r.task.status == Completed <==> AllSucceed(t, svc)
    ensures r.task.status == Completed ==>
      && r.progressTrace == Milestones && r.task.error == t.error
      && r.task.results == Some(svc.extract(svc.cat12(svc.convert(t.filePath, t.outputDir).value, t.outputDir).value).value)
    ensures r.task.status == Failed ==> r.task.error.Some? && r.task.results == t.results && |r.progressTrace| < |Milestones|
    ensures var c := svc.convert(t.filePath, t.outputDir);
      c.Raised? ==> r.progressTrace == [10] && r.task.error == Some(c.message)
    ensures var c := svc.convert(t.filePath, t.outputDir);
      c.Ok? && svc.cat12(c.value, t.outputDir).Raised? ==>
        r.progressTrace == [10, 30] && r.task.error == Some(svc.cat12(c.value, t.outputDir).message)
    ensures var c := svc.convert(t.filePath, t.outputDir);
      c.Ok? && svc.cat12(c.value, t.outputDir).Ok? && svc.extract(svc.cat12(c.value, t.outputDir).value).Raised? ==>
        r.progressTrace == [10, 30, 80] && r.task.error == Some(svc.extract(svc.cat12(c.value, t.outputDir).value).message)
    ensures r.task.taskId == t.taskId && r.task.filePath == t.filePath && r.task.outputDir == t.outputDir
  {
    var running := t.(status := Processing, startTime := Some(start));
    match svc.convert(t.filePath, t.outputDir)
    case Raised(e) => Run(Fail(running.(progress := 10), e, end), [10])
    case Ok(nifti) =>
      match svc.cat12(nifti, t.outputDir)
      case Raised(e) => Run(Fail(running.(progress := 30), e, end), [10, 30])
      case Ok(cat12Output) =>
        match svc.extract(cat12Output)
        case Raised(e) => Run(Fail(running.(progress := 80), e, end), [10, 30, 80])
        case Ok(results) =>
          var done := running.(progress := 100, results := Some(results), status := Completed, endTime := Some(end));
          Run(done, [10, 30, 80, 100])
  }

  /** The `except` branch: failed, with the message and the end time. */
  function Fail(t: Task, message: string, end: Time): Task {
    t.(status := Failed, error := Some(message), endTime := Some(end))
  }

  /** A fresh task never sees its progress go down: 0 first, then the milestones. */
  lemma ProgressNeverDecreases(t: Task, svc: Services, start: Time, end: Time)
    requires IsFresh(t)
    ensures var trace := [t.progress] + RunTask(t, svc, start, end).progressTrace;
      forall i, j :: 0 <= i < j < |trace| ==> trace[i] < trace[j]
  {
    var run := RunTask(t, svc, start, end);
    assert run.progressTrace[0] == 10;
  }

  /** `_process_task(task)` on the task registered under `taskId`: the running count goes
      up for the run and back down in `finally`. */
  function ProcessTask(m: Manager, taskId: string, svc: Services, start: Time, end: Time): (r: Manager)
    requires taskId in m.tasks
    ensures r.processingCount == m.processingCount
    ensures r.tasks.Keys == m.tasks.Keys
    ensures r.tasks[taskId] == RunTask(m.tasks[taskId], svc, start, end).task
    ensures forall id :: id in m.tasks && id != taskId ==> r.tasks[id] == m.tasks[id]
    ensures r.queue == m.queue && r.maxConcurrent == m.maxConcurrent
  {
    var busy := m.(processingCount := m.processingCount + 1);
    var run := RunTask(busy.tasks[taskId], svc, start, end);
    busy.(tasks := busy.tasks[taskId := run.task], processingCount := busy.processingCount - 1)
  }

  /** One turn of the worker loop: when below the concurrency limit, take the next
      queued task and run it; otherwise (or with an empty queue) nothing changes. */
  function WorkerStep(m: Manager, svc: Services, start: Time, end: Time): (r: Manager)
    requires QueueKnown(m)
    ensures QueueKnown(r)
    ensures r.tasks.Keys == m.tasks.Keys
    ensures r.processingCount == m.processingCount
    ensures m.processingCount < m.maxConcurrent && |m.queue| > 0 ==>
      && r.queue == m.queue[1..]
      && r.tasks[m.queue[0]] == RunTask(m.tasks[m.queue[0]], svc, start, end).task
    ensures !(m.processingCount < m.maxConcurrent && |m.queue| > 0) ==> r == m
  {
    if m.processingCount < m.maxConcurrent && |m.queue| > 0 then
      var id := m.queue[0];
      var popped := m.(queue := m.queue[1..]);
      assert forall i :: 0 <= i < |popped.queue| ==> popped.queue[i] == m.queue[i + 1];
      ProcessTask(popped, id, svc, start, end)
    else m
  }

  /** With an idle worker and an empty queue, a task added and then picked up ends
      `completed` or `failed`, with both times recorded and the count back where it was. */
  lemma AddedTaskFinishes(m: Manager, taskId: string, filePath: string, outputDir: string, svc: Services, start: Time, end: Time)
    requires QueueKnown(m) && |m.queue| == 0 && m.processingCount < m.maxConcurrent
    ensures var after := WorkerStep(AddTask(m, taskId, filePath, outputDir).0, svc, start, end);
      && GetTaskStatus(after, taskId).Some?
      && GetTaskStatus(after, taskId).value.status in {"completed", "failed"}
      && GetTaskStatus(after, taskId).value.startTime == Some(start)
      && GetTaskStatus(after, taskId).value.endTime == Some(end)
      && after.processingCount == m.processingCount
      && |after.queue| == 0
  {
    var added := AddTask(m, taskId, filePath, outputDir).0;
    assert added.queue == [taskId];
  }
}

=== FILE: upload_panel.dfy ===
/** The upload card (frontend/src/components/ImageUpload/ImageUpload.js): the
    resize arithmetic, the file check, the one-file list and the processing poll.
 */
module UploadPanel {
  import opened Common
  import opened Http
  import Seqs
  import Helpers
  import MainApp

  // ---------------------------------------------------------------------
  // compressImage

  const MaxSide: nat := 1200

  /** The canvas size `compressImage` draws into: the longer side is brought down to
      1200 pixels with the other side scaled and rounded; small images keep their size. */
  function CompressedSize(width: nat, height: nat): (r: (nat, nat))
    ensures width <= MaxSide && height <= MaxSide ==> r == (width, height)
    ensures width > MaxSide || height > MaxSide ==>
      && (r.0 == MaxSide || r.1 == MaxSide) && r.0 <= MaxSide && r.1 <= MaxSide
    ensures width > height && width > MaxSide ==>
      r.0 == MaxSide && 2 * width * r.1 <= 2 * height * MaxSide + width < 2 * width * (r.1 + 1)
    ensures !(width > height && width > MaxSide) && height > MaxSide ==>
      r.1 == MaxSide && 2 * height * r.0 <= 2 * width * MaxSide + height < 2 * height * (r.0 + 1)
  {
    if width > height && width > MaxSide then
      RoundDivAtMost(height * MaxSide, width, MaxSide);
      (MaxSide, RoundDiv(height * MaxSide, width))
    else if height > MaxSide then
      RoundDivAtMost(width * MaxSide, height, MaxSide);
      (RoundDiv(width * MaxSide, height), MaxSide)
    else (width, height)
  }

  /** Resizing an already resized image changes nothing. */
  lemma CompressIdempotent(width: nat, height: nat)
    ensures var r := CompressedSize(width, height); CompressedSize(r.0, r.1) == r
  {
  }

  /** The orientation survives: a landscape image stays at least as wide as it is tall,
      and a portrait one at least as tall as it is wide. */
  lemma CompressKeepsOrientation(width: nat, height: nat)
    ensures var r := CompressedSize(width, height);
      (width >= height ==> r.0 >= r.1) && (height >= width ==> r.1 >= r.0)
  {
    if width > height && width > MaxSide {
      MulLe(MaxSide, height, width);
      RoundDivAtMost(height * MaxSide, width, MaxSide);
    } else if height > MaxSide {
      MulLe(MaxSide, width, height);
      RoundDivAtMost(width * MaxSide, height, MaxSide);
      if width == height {
        RoundDivExact(height, MaxSide);
      }
    }
  }

  // ---------------------------------------------------------------------
  // validateFile

  const AllowedExtensions: seq<string> := [".dcm", ".nii", ".nii.gz"]
  const MaxFileSize: nat := 100 * 1024 * 1024
  const TypeMessage := "不支持的文件类型。支持的类型：.dcm, .nii, .nii.gz"
  const SizeMessage := "文件大小超过限制。最大支持：100MB"

  /** `'.' + file.name.split('.').pop().toLowerCase()`. */
  function Extension(name: string): (r: string)
    ensures |r| >= 1 && r[0] == '.' && '.' !in r[1..]
  {
    var tail := Lower(AfterLast(name, '.'));
    assert forall i :: 0 <= i < |tail| ==> tail[i] != '.';
    "." + tail
  }

  /** `validateFile(file)`: the error shown, or `None` when the file is accepted.
      The type is checked before the size. */
  function ValidateFile(f: FileInfo): (r: Option<string>)
    ensures r.None? <==> Extension(f.name) in AllowedExtensions && f.size <= MaxFileSize
    ensures Extension(f.name) !in AllowedExtensions ==> r == Some(TypeMessage)
    ensures Extension(f.name) in AllowedExtensions && f.size > MaxFileSize ==> r == Some(SizeMessage)
  {
    if Extension(f.name) !in AllowedExtensions then Some(TypeMessage)
    else if f.size > MaxFileSize then Some(SizeMessage)
    else None
  }

  /** The type is accepted exactly when the text after the last dot (or the whole name,
      when there is none) is `dcm` or `nii` in any letter case; a `.nii.gz` file never is. */
  lemma ExtensionRule(name: string)
    ensures Extension(name) in AllowedExtensions <==> Lower(AfterLast(name, '.')) in {"dcm", "nii"}
    ensures Extension(name) != ".nii.gz"
  {
    var ext := Extension(name);
    assert ext[1..] == Lower(AfterLast(name, '.'));
    DottedRule(ext, ext[1..]);
  }

  /** For `ext == "." + tail` with a dot-free `tail`: allowed exactly for `dcm` and `nii`. */
  lemma DottedRule(ext: string, tail: string)
    requires ext == "." + tail && '.' !in tail
    ensures ext in AllowedExtensions <==> tail in {"dcm", "nii"}
    ensures ext != ".nii.gz"
  {
    assert ".nii.gz"[4] == '.';
    assert "." + "dcm" == ".dcm" && "." + "nii" == ".nii";
    if ext == ".dcm" || ext == ".nii" {
      assert tail == ext[1..];
    }
  }

  /** A name without any dot is judged on the whole name: a file called `dcm` is accepted. */
  lemma DotlessNameIsItsOwnExtension(f: FileInfo)
    requires '.' !in f.name && Lower(f.name) == "nii" && f.size <= MaxFileSize
    ensures ValidateFile(f).None?
  {
    ExtensionRule(f.name);
  }

  /** Every `.nii.gz` file is refused for its type, whatever its size. */
  lemma NiiGzRefused(f: FileInfo)
    requires EndsWith(Lower(f.name), ".nii.gz")
    ensures ValidateFile(f) == Some(TypeMessage)
  {
    ExtensionRule(f.name);
    AfterLastDotOfLower(f.name);
    Helpers.NiiGzTail(Lower(f.name));
    assert Lower(AfterLast(f.name, '.')) == "gz";
  }

  /** `validateFile` with the type decided by suffix, as `validateFileType` does. */
  function ValidateFileFixed(f: FileInfo): (r: Option<string>)
    ensures r.None? <==> Helpers.ValidateFileType(f.name) && f.size <= MaxFileSize
    ensures !Helpers.ValidateFileType(f.name) ==> r == Some(TypeMessage)
  {
    if !Helpers.ValidateFileType(f.name) then Some(TypeMessage)
    else if f.size > MaxFileSize then Some(SizeMessage)
    else None
  }

  /** The corrected check accepts a `.nii.gz` file within the size limit. */
  lemma FixedAcceptsNiiGz(f: FileInfo)
    requires EndsWith(Lower(f.name), ".nii.gz") && f.size <= MaxFileSize
    ensures ValidateFileFixed(f).None?
  {
  }

  // ---------------------------------------------------------------------
  // beforeUpload / onRemove

  /** `beforeUpload(file)`: the file is checked by `validateFile`; an accepted file replaces
      the whole list; the upload itself is always left to the upload button (`false`). */
  function BeforeUpload(fileList: seq<FileInfo>, file: FileInfo): (r: (seq<FileInfo>, bool))
    ensures !r.1
    ensures ValidateFile(file).None? ==> r.0 == [file]
    ensures ValidateFile(file).Some? ==> r.0 == fileList
  {
    if ValidateFile(file).Some? then (fileList, false) else ([file], false)
  }

  /** `beforeUpload` with the corrected file check. */
  function BeforeUploadFixed(fileList: seq<FileInfo>, file: FileInfo): (r: (seq<FileInfo>, bool))
    ensures !r.1
    ensures ValidateFileFixed(file).None? ==> r.0 == [file]
    ensures ValidateFileFixed(file).Some? ==> r.0 == fileList
  {
    if ValidateFileFixed(file).Some? then (fileList, false) else ([file], false)
  }

  /** As written, a small `.nii.gz` file never enters the list; with the corrected check it does. */
  lemma NiiGzNeverListed(fileList: seq<FileInfo>, f: FileInfo)
    requires EndsWith(Lower(f.name), ".nii.gz") && f.size <= MaxFileSize
    ensures BeforeUpload(fileList, f).0 == fileList
    ensures BeforeUploadFixed(fileList, f).0 == [f]
  {
    NiiGzRefused(f);
    FixedAcceptsNiiGz(f);
  }

  /** `onRemove(file)`: `fileList.slice()` then `splice(fileList.indexOf(file), 1)`. */
  function OnRemove(fileList: seq<FileInfo>, file: FileInfo): (r: seq<FileInfo>)
    ensures file in fileList ==>
      var i := Seqs.IndexOf(fileList, file);
      && r == fileList[..i] + fileList[i + 1..]
      && file !in fileList[..i]
    ensures file !in fileList && |fileList| > 0 ==> r == fileList[..|fileList| - 1]
    ensures fileList == [] ==> r == []
  {
    Seqs.SpliceOne(fileList, Seqs.IndexOf(fileList, file))
  }

  /** Removing a listed file takes out exactly one copy of it and keeps the others in order. */
  lemma RemoveListed(fileList: seq<FileInfo>, file: FileInfo)
    requires file in fileList
    ensures |OnRemove(fileList, file)| == |fileList| - 1
    ensures multiset(OnRemove(fileList, file)) == multiset(fileList) - multiset{file}
    ensures Seqs.IsSubsequence(OnRemove(fileList, file), fileList)
  {
    var i := Seqs.IndexOf(fileList, file);
    RemoveAtMultiset(fileList, i);
    SkipOneIsSubsequence(fileList, i);
  }

  lemma RemoveAtMultiset<T>(s: seq<T>, i: nat)
    requires i < |s|
    ensures multiset(s[..i] + s[i + 1..]) == multiset(s) - multiset{s[i]}
  {
    assert s == s[..i] + [s[i]] + s[i + 1..];
    assert multiset(s) == multiset(s[..i]) + multiset{s[i]} + multiset(s[i + 1..]);
  }

  lemma {:induction false} SkipOneIsSubsequence<T>(s: seq<T>, i: nat)
    requires i < |s|
    ensures Seqs.IsSubsequence(s[..i] + s[i + 1..], s)
    decreases i
  {
    if i == 0 {
      assert s[..0] + s[1..] == s[1..];
      Seqs.SubsequenceReflexive(s[1..]);
      if |s[1..]| > 0 {
        PrependSkip(s[1..], s[0]);
      }
    } else {
      var t := s[..i] + s[i + 1..];
      assert t[0] == s[0];
      assert t[1..] == s[1..][..i - 1] + s[1..][i..];
      SkipOneIsSubsequence(s[1..], i - 1);
    }
  }

  /** A sequence is a subsequence of itself with one element put in front. */
  lemma PrependSkip<T>(s: seq<T>, x: T)
    requires Seqs.IsSubsequence(s, s)
    ensures Seqs.IsSubsequence(s, [x] + s)
  {
    assert ([x] + s)[1..] == s;
  }

  /** Adding an accepted file and removing it again leaves the list empty. */
  lemma AddThenRemove(fileList: seq<FileInfo>, file: FileInfo)
    requires ValidateFile(file).None?
    ensures OnRemove(BeforeUpload(fileList, file).0, file) == []
  {
  }

  // ---------------------------------------------------------------------
  // pollProcessingStatus

  /** One answer to `GET /api/tasks/<id>`, or a request that threw. */
  datatype TaskReply = TaskReply(status: string, progress: Option<int>, logs: Option<seq<string>>) | Thrown

  /** The card state a poll writes. */
  datatype View = View(processing: bool, progress: int, logs: seq<string>)

  const DoneToast := "处理完成"
  const FailedToast := "处理失败"
  const PollFailedToast := "获取处理状态失败"

  /** The card state after a reply: `setProgress(progress || 0)`, and the logs when present. */
  function Absorb(v: View, reply: TaskReply): View
    requires reply.TaskReply?
  {
    v.(progress := if reply.progress.Some? && reply.progress.value != 0 then reply.progress.value else 0,
       logs := if reply.logs.Some? then reply.logs.value else v.logs)
  }

  /** One tick of the poll interval as written: its state, what follows, and the toasts
      shown in order. On 'completed' the branch calls `fetchResults`, which is declared
      nowhere: the ReferenceError lands in the `catch`, which shows the failure toast after
      the success toast, and no results are fetched. */
  function PollTick(v: View, reply: TaskReply): (r: (View, MainApp.Next, seq<string>))
    ensures r.1.Stop? <==> reply.Thrown? || reply.status in {"completed", "failed"}
    ensures r.1.Stop? ==> !r.0.processing && |r.2| >= 1 && !r.1.loadImages
    ensures r.1.Continue? ==> r.1.delayMs == 2000 && r.0.processing == v.processing && r.2 == []
    ensures reply.TaskReply? ==>
      && r.0.progress == (if reply.progress.Some? && reply.progress.value != 0 then reply.progress.value else 0)
      && r.0.logs == (if reply.logs.Some? then reply.logs.value else v.logs)
    ensures reply.Thrown? ==> r.0 == v.(processing := false) && r.2 == [PollFailedToast]
    ensures reply.TaskReply? && reply.status == "completed" ==> r.2 == [DoneToast, PollFailedToast]
    ensures reply.TaskReply? && reply.status == "failed" ==> r.2 == [FailedToast]
  {
    match reply
    case Thrown => (v.(processing := false), MainApp.Stop(false), [PollFailedToast])
    case TaskReply(status, _, _) =>
      var v' := Absorb(v, reply);
      if status == "completed" then
        (v'.(processing := false), MainApp.Stop(false), [DoneToast, PollFailedToast])
      else if status == "failed" then (v'.(processing := false), MainApp.Stop(false), [FailedToast])
      else (v', MainApp.Continue(2000), [])
  }

  /** The tick with the results fetched on completion: one success toast, then the
      results are loaded; every other reply is handled as written. */
  function PollTickFixed(v: View, reply: TaskReply): (r: (View, MainApp.Next, seq<string>))
    ensures reply.TaskReply? && reply.status == "completed" ==>
      r == (PollTick(v, reply).0, MainApp.Stop(true), [DoneToast])
    ensures !(reply.TaskReply? && reply.status == "completed") ==> r == PollTick(v, reply)
  {
    if reply.TaskReply? && reply.status == "completed" then
      (Absorb(v, reply).(processing := false), MainApp.Stop(true), [DoneToast])
    else PollTick(v, reply)
  }

  /** As written, a completed task ends with the failure toast last and loads no results,
      exactly as a failed request does; the corrected tick shows only the success toast
      and loads them. Both leave the card in the same state. */
  lemma CompletedEndsInFailureToast(v: View, progress: Option<int>, logs: Option<seq<string>>)
    ensures var (w, next, toasts) := PollTick(v, TaskReply("completed", progress, logs));
      && next == MainApp.Stop(false)
      && toasts[|toasts| - 1] == PollTick(v, Thrown).2[0]
      && DoneToast in toasts
    ensures var (w, next, toasts) := PollTickFixed(v, TaskReply("completed", progress, logs));
      && next == MainApp.Stop(true)
      && toasts == [DoneToast]
      && w == PollTick(v, TaskReply("completed", progress, logs)).0
  {
  }

  /** An answer that ends the poll. */
  predicate Final(reply: TaskReply) {
    reply.Thrown? || reply.status in {"completed", "failed"}
  }

  /** Running the poll over a sequence of answers, one every 2000 ms until a tick stops it:
      the final card state and the number of polls made. */
  function RunPolls(v: View, replies: seq<TaskReply>): (r: (View, nat))
    ensures r.1 <= |replies|
    decreases |replies|
  {
    if |replies| == 0 then (v, 0)
    else
      var (w, next, _) := PollTick(v, replies[0]);
      if next.Stop? then (w, 1)
      else
        var (u, n) := RunPolls(w, replies[1..]);
        (u, n + 1)
  }

  /** A run started while processing stays processing until it stops; it stops at the first
      completed or failed task or the first failed request, and otherwise uses every answer. */
  lemma {:induction false} RunStopsAtFirstFinal(v: View, replies: seq<TaskReply>)
    requires v.processing
    ensures var (w, n) := RunPolls(v, replies);
      && (!w.processing <==> exists k :: 0 <= k < |replies| && Final(replies[k]))
      && (forall k :: 0 <= k < n - 1 ==> !Final(replies[k]))
      && (!w.processing ==> n > 0 && Final(replies[n - 1]))
      && (w.processing ==> n == |replies|)
    decreases |replies|
  {
    if |replies| > 0 {
      var (w, next, _) := PollTick(v, replies[0]);
      if next.Continue? {
        RunStopsAtFirstFinal(w, replies[1..]);
        assert forall k :: 1 <= k < |replies| ==> replies[k] == replies[1..][k - 1];
      }
    }
  }
}

=== FILE: upload_reducer.dfy ===
/** The Redux slice that tracks one upload and its server-side processing
    (frontend/src/store/reducers/uploadReducer.js).
 */
module UploadStore {
  import opened Common
  import opened Http

  /** The server's record of an uploaded image. */
  datatype ImageRecord = ImageRecord(id: string, filename: string)

  /** Volumetric results keyed by measure name (`gm_volume`, `wm_volume`, ...). */
  type Volumes = map<string, real>

  /** Segmentation images keyed by channel, as base64 text. */
  type Images = map<string, string>

  datatype State = State(
    selectedFile: Option<FileInfo>,
    uploadStatus: string,
    uploadProgress: int,
    uploadedImage: Option<ImageRecord>,
    processingStatus: string,
    taskId: Option<string>,
    previewImage: Option<string>,
    matlabLog: string,
    processedImages: Images,
    analysisResults: Option<Volumes>,
    error: Option<string>)

  /** The twelve `UPLOAD_ACTIONS` with their payloads, and any other action. */
  datatype Action =
    | SetFile(file: Option<FileInfo>)
    | StartUpload
    | UploadProgress(progress: int)
    | UploadSuccess(image: Option<ImageRecord>)
    | UploadError(uploadError: Option<string>)
    | StartProcessing(task: Option<string>)
    | ProcessingStatus(log: Option<string>)
    | ProcessingSuccess(images: Option<Images>, results: Option<Volumes>)
    | ProcessingError(processingError: Option<string>)
    | UpdatePreview(preview: Option<string>)
    | UpdateMatlabLog(text: string)
    | Reset
    | Other

  const UploadStatuses: set<string> := {"idle", "uploading", "success", "error"}
  const ProcessingStatuses: set<string> := {"idle", "processing", "success", "error"}

  const AllKeys: set<string> := {
    "selectedFile", "uploadStatus", "uploadProgress", "uploadedImage", "processingStatus",
    "taskId", "previewImage", "matlabLog", "processedImages", "analysisResults", "error"}

  function Initial(): State {
    State(None, "idle", 0, None, "idle", None, None, "", map[], None, None)
  }

  /** Both status fields hold one of the values the slice documents. */
  predicate WellFormed(s: State) {
    s.uploadStatus in UploadStatuses && s.processingStatus in ProcessingStatuses
  }

  /** The keys each action is allowed to write; every other key must survive the action. */
  function Writes(a: Action): set<string> {
    match a
    case SetFile(_) => {"selectedFile", "uploadStatus", "uploadProgress", "uploadedImage", "processingStatus", "error"}
    case StartUpload => {"uploadStatus", "uploadProgress", "error"}
    case UploadProgress(_) => {"uploadProgress"}
    case UploadSuccess(_) => {"uploadStatus", "uploadedImage", "error"}
    case UploadError(_) => {"uploadStatus", "error"}
    case StartProcessing(_) => {"processingStatus", "taskId", "error"}
    case ProcessingStatus(_) => {"processingStatus", "matlabLog"}
    case ProcessingSuccess(_, _) => {"processingStatus", "processedImages", "analysisResults", "error"}
    case ProcessingError(_) => {"processingStatus", "error"}
    case UpdatePreview(_) => {"previewImage"}
    case UpdateMatlabLog(_) => {"matlabLog"}
    case Reset => AllKeys
    case Other => {}
  }

  /** `s` and `t` agree on every key outside `keys`. */
  predicate SameExcept(s: State, t: State, keys: set<string>) {
    && ("selectedFile" !in keys ==> s.selectedFile == t.selectedFile)
    && ("uploadStatus" !in keys ==> s.uploadStatus == t.uploadStatus)
    && ("uploadProgress" !in keys ==> s.uploadProgress == t.uploadProgress)
    && ("uploadedImage" !in keys ==> s.uploadedImage == t.uploadedImage)
    && ("processingStatus" !in keys ==> s.processingStatus == t.processingStatus)
    && ("taskId" !in keys ==> s.taskId == t.taskId)
    && ("previewImage" !in keys ==> s.previewImage == t.previewImage)
    && ("matlabLog" !in keys ==> s.matlabLog == t.matlabLog)
    && ("processedImages" !in keys ==> s.processedImages == t.processedImages)
    && ("analysisResults" !in keys ==> s.analysisResults == t.analysisResults)
    && ("error" !in keys ==> s.error == t.error)
  }

  /** `uploadReducer(state, action)`. */
  function Reduce(s: State, a: Action): (r: State)
    ensures SameExcept(s, r, Writes(a))
    ensures WellFormed(s) ==> WellFormed(r)
    ensures a.SetFile? ==>
      && r.selectedFile == a.file && r.uploadStatus == "idle" && r.processingStatus == "idle"
      && r.uploadProgress == 0 && r.uploadedImage == None && r.error == None
    ensures a.StartUpload? ==> r.uploadStatus == "uploading" && r.uploadProgress == 0 && r.error == None
    ensures a.UploadProgress? ==> r.uploadProgress == a.progress
    ensures a.UploadSuccess? ==> r.uploadStatus == "success" && r.uploadedImage == a.image && r.error == None
    ensures a.UploadError? ==> r.uploadStatus == "error" && r.error == a.uploadError
    ensures a.StartProcessing? ==> r.processingStatus == "processing" && r.taskId == a.task && r.error == None
    ensures a.ProcessingStatus? ==> r.processingStatus == "processing"
    ensures a.ProcessingStatus? && !Truthy(a.log) ==> r.matlabLog == s.matlabLog
    ensures a.ProcessingStatus? && Truthy(a.log) ==> r.matlabLog == a.log.value
    ensures a.ProcessingSuccess? ==>
      && r.processingStatus == "success" && r.processedImages == a.images.GetOr(map[])
      && r.analysisResults == a.results && r.error == None
    ensures a.ProcessingError? ==> r.processingStatus == "error" && r.error == a.processingError
    ensures a.UpdatePreview? ==> r.previewImage == a.preview
    ensures a.UpdateMatlabLog? ==> r.matlabLog == a.text
    ensures a.Reset? ==> r == Initial()
    ensures a.Other? ==> r == s
  {
    match a
    case SetFile(f) =>
      s.(selectedFile := f, uploadStatus := "idle", uploadProgress := 0, uploadedImage := None,
         processingStatus := "idle", error := None)
    case StartUpload => s.(uploadStatus := "uploading", uploadProgress := 0, error := None)
    case UploadProgress(p) => s.(uploadProgress := p)
    case UploadSuccess(img) => s.(uploadStatus := "success", uploadedImage := img, error := None)
    case UploadError(e) => s.(uploadStatus := "error", error := e)
    case StartProcessing(t) => s.(processingStatus := "processing", taskId := t, error := None)
    case ProcessingStatus(log) => s.(processingStatus := "processing", matlabLog := Or(log, s.matlabLog))
    case ProcessingSuccess(images, results) =>
      s.(processingStatus := "success", processedImages := images.GetOr(map[]),
         analysisResults := results, error := None)
    case ProcessingError(e) => s.(processingStatus := "error", error := e)
    case UpdatePreview(p) => s.(previewImage := p)
    case UpdateMatlabLog(text) => s.(matlabLog := text)
    case Reset => Initial()
    case Other => s
  }

  /** Dispatching the actions of `actions` in order. */
  function ReduceAll(s: State, actions: seq<Action>): State
    decreases |actions|
  {
    if |actions| == 0 then s else ReduceAll(Reduce(s, actions[0]), actions[1..])
  }

  /** From a well-formed state, no sequence of actions leaves the documented status values. */
  lemma {:induction false} WellFormedForever(s: State, actions: seq<Action>)
    requires WellFormed(s)
    ensures WellFormed(ReduceAll(s, actions))
    decreases |actions|
  {
    if |actions| > 0 {
      WellFormedForever(Reduce(s, actions[0]), actions[1..]);
    }
  }

  /** A RESET forgets everything dispatched before it. */
  lemma {:induction false} ResetForgetsHistory(s: State, before: seq<Action>, after: seq<Action>)
    ensures ReduceAll(s, before + [Reset] + after) == ReduceAll(Initial(), after)
    decreases |before|
  {
    if |before| == 0 {
      assert before + [Reset] + after == [Reset] + after;
      assert ([Reset] + after)[1..] == after;
    } else {
      assert (before + [Reset] + after)[1..] == before[1..] + [Reset] + after;
      ResetForgetsHistory(Reduce(s, before[0]), before[1..], after);
    }
  }

  /** Every action of the slice is idempotent: dispatching it twice is dispatching it once. */
  lemma Idempotent(s: State, a: Action)
    ensures Reduce(Reduce(s, a), a) == Reduce(s, a)
  {
    match a
    case ProcessingStatus(log) =>
      var once := Reduce(s, a);
      assert once.matlabLog == Or(log, s.matlabLog);
    case _ =>
  }

  /** Dispatching one or two actions through `ReduceAll`. */
  lemma ReduceAllShort(s: State, a: Action, b: Action)
    ensures ReduceAll(s, []) == s
    ensures ReduceAll(s, [a]) == Reduce(s, a)
    ensures ReduceAll(s, [a, b]) == Reduce(Reduce(s, a), b)
  {
    assert [a][1..] == [];
    assert [a, b][1..] == [b];
    assert ReduceAll(s, [a, b]) == ReduceAll(Reduce(s, a), [b]);
    assert ReduceAll(Reduce(s, a), [b]) == ReduceAll(Reduce(Reduce(s, a), b), []);
  }
}

=== FILE: upload_rules.dfy ===
/** The server-side upload checks: `allowed_file` in the service package
    (backend/app/utils/file_utils.py), `allowed_file` and the request checks of
    `process_image` in the main server (backend/app.py), and `convert_path` and the
    DICOM-aware `allowed_file` of the earlier server (mri-web-app/backend/app.py).
 */
module UploadRules {
  import opened Common
  import Helpers

  // ---------------------------------------------------------------------
  // allowed_file: the last extension, lower-cased, looked up in a set

  /** `filename.rsplit('.', 1)[1].lower()`, read only when the name has a dot. */
  function Extension(filename: string): string {
    Lower(AfterLast(filename, '.'))
  }

  /** `allowed_file(filename)` with `ALLOWED_EXTENSIONS == allowed`. Only the entries
      without a dot can ever match: the name must end with `.` and one of them. */
  function AllowedFile(filename: string, allowed: set<string>): (r: bool)
    ensures '.' !in filename ==> !r
    ensures r <==> exists e :: e in allowed && '.' !in e && EndsWith(Lower(filename), "." + e)
  {
    ExtensionIsSuffix(filename);
    '.' in filename && Extension(filename) in allowed
  }

  /** The lower-cased extension is what follows the last dot of the lower-cased name,
      and a dot-free `e` is that extension exactly when the lower-cased name ends with `.e`. */
  lemma ExtensionIsSuffix(filename: string)
    ensures '.' in filename ==> '.' !in Extension(filename) && EndsWith(Lower(filename), "." + Extension(filename))
    ensures forall e :: '.' !in e && EndsWith(Lower(filename), "." + e) ==> '.' in filename && e == Extension(filename)
  {
    var lower := Lower(filename);
    LastDotOfLower(filename);
    AfterLastDotOfLower(filename);
    EndsWithDotExtension(lower, Extension(filename));
    forall e | '.' !in e && EndsWith(lower, "." + e)
      ensures '.' in filename && e == Extension(filename)
    {
      EndsWithDotExtension(lower, e);
    }
  }

  /** Letter case in the name never matters. */
  lemma AllowedFileIgnoresCase(filename: string, allowed: set<string>)
    ensures AllowedFile(Lower(filename), allowed) == AllowedFile(filename, allowed)
  {
    LowerIdempotent(filename);
  }

  /** Entries containing a dot (such as `nii.gz`) are dead: dropping them changes no verdict. */
  lemma DottedEntriesUnreachable(filename: string, allowed: set<string>)
    ensures AllowedFile(filename, allowed) == AllowedFile(filename, set e | e in allowed && '.' !in e)
  {
  }

  /** `ALLOWED_EXTENSIONS` of the service configuration (backend/config/config.py). */
  const ConfigExtensions: set<string> := {"dcm", "nii", "nii.gz"}

  /** With the configured set, a compressed NIfTI name is refused although `nii.gz` is listed. */
  lemma ConfigNiiGzRefused(filename: string)
    requires EndsWith(Lower(filename), ".nii.gz")
    ensures !AllowedFile(filename, ConfigExtensions)
  {
    GzExtension(filename);
    assert "gz" !in ConfigExtensions;
  }

  /** A name ending in `.nii.gz` has the extension `gz`. */
  lemma GzExtension(filename: string)
    requires EndsWith(Lower(filename), ".nii.gz")
    ensures '.' in filename && Extension(filename) == "gz"
  {
    Helpers.NiiGzTail(Lower(filename));
    AfterLastDotOfLower(filename);
    LastDotOfLower(filename);
  }

  /** The check the set was written for: the lower-cased name ends with `.` and some entry. */
  function AllowedFileFixed(filename: string, allowed: set<string>): (r: bool)
    ensures r ==> '.' in filename
  {
    if exists e :: e in allowed && EndsWith(Lower(filename), "." + e) then
      var e :| e in allowed && EndsWith(Lower(filename), "." + e);
      assert Lower(filename)[|Lower(filename)| - |e| - 1] == ("." + e)[0];
      LastDotOfLower(filename);
      true
    else false
  }

  /** For sets without dotted entries the corrected check is the written one. */
  lemma FixedAgreesWithoutDottedEntries(filename: string, allowed: set<string>)
    requires forall e :: e in allowed ==> '.' !in e
    ensures AllowedFileFixed(filename, allowed) == AllowedFile(filename, allowed)
  {
  }

  /** The corrected check accepts compressed NIfTI names under the configured set. */
  lemma FixedAcceptsNiiGz(filename: string)
    requires EndsWith(Lower(filename), ".nii.gz")
    ensures AllowedFileFixed(filename, ConfigExtensions)
    ensures AllowedFileFixed(filename, AppExtensions)
  {
    assert "." + "nii.gz" == ".nii.gz";
    assert "nii.gz" in ConfigExtensions && "nii.gz" in AppExtensions;
  }

  // ---------------------------------------------------------------------
  // backend/app.py

  const AppExtensions: set<string> := {"png", "jpg", "jpeg", "dcm", "nii", "nii.gz"}
  const TestFile := "test.dcm"

  /** `allowed_file(filename)` of the main server, with its shortcut for the test file. */
  function AppAllowedFile(filename: string): (r: bool)
    ensures filename == TestFile ==> r
    ensures r == AllowedFile(filename, AppExtensions)
  {
    if filename == TestFile then
      assert EndsWith(Lower(filename), "." + "dcm");
      true
    else AllowedFile(filename, AppExtensions)
  }

  lemma AppNiiGzRefused(filename: string)
    requires EndsWith(Lower(filename), ".nii.gz")
    ensures !AppAllowedFile(filename)
  {
    GzExtension(filename);
    assert "gz" !in AppExtensions;
  }

  datatype Check = Rejected(status: int, error: string) | Accepted(filename: string)

  /** The checks at the top of `process_image`, for the `file` part of the request
      (`None` when the request has none), in their order. */
  function ProcessImageCheck(file: Option<string>): (r: Check)
    ensures r.Rejected? ==> r.status == 400
    ensures file.None? <==> r == Rejected(400, "未找到文件")
    ensures file == Some("") <==> r == Rejected(400, "未选择文件")
    ensures r == Rejected(400, "不支持的文件类型") <==> file.Some? && file.value != "" && !AppAllowedFile(file.value)
    ensures r.Accepted? <==> file.Some? && AppAllowedFile(file.value)
    ensures r.Accepted? ==> Some(r.filename) == file
  {
    if file.None? then Rejected(400, "未找到文件")
    else if file.value == "" then Rejected(400, "未选择文件")
    else if !AppAllowedFile(file.value) then Rejected(400, "不支持的文件类型")
    else Accepted(file.value)
  }

  /** Every `.nii.gz` upload is turned away with 400 "unsupported type", and every `.dcm`
      upload in any letter case passes the checks. */
  lemma ProcessImageExtensions(filename: string)
    ensures EndsWith(Lower(filename), ".nii.gz") ==> ProcessImageCheck(Some(filename)) == Rejected(400, "不支持的文件类型")
    ensures EndsWith(Lower(filename), ".dcm") ==> ProcessImageCheck(Some(filename)) == Accepted(filename)
  {
    if EndsWith(Lower(filename), ".nii.gz") {
      AppNiiGzRefused(filename);
    }
    if EndsWith(Lower(filename), ".dcm") {
      assert "dcm" in AppExtensions && '.' !in "dcm" && EndsWith(Lower(filename), "." + "dcm");
    }
  }

  // ---------------------------------------------------------------------
  // mri-web-app/backend/app.py

  /** `convert_path(path)`: quotes a path that contains a space. */
  function ConvertPath(path: string): (r: string)
    ensures ' ' in path ==> |r| == |path| + 2 && r[0] == '"' && r[|r| - 1] == '"' && r[1..|r| - 1] == path
    ensures ' ' !in path ==> r == path
    ensures ' ' in r <==> ' ' in path
  {
    if ' ' in path then
      var r := "\"" + path + "\"";
      assert forall i :: 0 <= i < |path| ==> r[i + 1] == path[i];
      r
    else path
  }

  /** Reading a converted path back: strip the quotes of a path with a space. */
  function Unquote(r: string): string {
    if ' ' in r && |r| >= 2 then r[1..|r| - 1] else r
  }

  lemma UnquoteConvertPath(path: string)
    ensures Unquote(ConvertPath(path)) == path
  {
  }

  /** Distinct paths stay distinct once converted. */
  lemma ConvertPathInjective(p: string, q: string)
    requires ConvertPath(p) == ConvertPath(q)
    ensures p == q
  {
    UnquoteConvertPath(p);
    UnquoteConvertPath(q);
  }

  const MriExtensions: set<string> := {"png", "jpg", "jpeg", "dcm", "nii"}

  /** The DICOM prefix `DICM` as bytes. */
  const DicomMagic: seq<byte> := [0x44, 0x49, 0x43, 0x4D]

  /** Section 7.1 of DICOM PS3.10: a 128-byte preamble comes before the prefix. */
  const PreambleLength := 128

  const HeaderLength := 132

  predicate EndsWithBytes(s: seq<byte>, suffix: seq<byte>) {
    |suffix| <= |s| && s[|s| - |suffix|..] == suffix
  }

  /** `file.stream.read(132)`: at most the first 132 bytes. */
  function ReadHeader(stream: seq<byte>): (r: seq<byte>)
    ensures |r| <= HeaderLength && |r| <= |stream|
    ensures r == stream[..|r|]
    ensures |stream| >= HeaderLength ==> |r| == HeaderLength
    ensures |stream| < HeaderLength ==> r == stream
  {
    if |stream| <= HeaderLength then stream else stream[..HeaderLength]
  }

  /** `allowed_file(filename)` of the earlier server. `upload` is the request's `file`
      part (`None` when missing, which raises and is caught as a refusal). */
  function MriAllowedFile(filename: string, upload: Option<seq<byte>>): (r: bool)
    ensures '.' !in filename ==> !r
    ensures '.' in filename && Extension(filename) !in MriExtensions ==> !r
    ensures '.' in filename && Extension(filename) in MriExtensions - {"dcm"} ==> r
    ensures '.' in filename && Extension(filename) == "dcm" ==>
      (r <==> upload.Some? && EndsWithBytes(ReadHeader(upload.value), DicomMagic))
  {
    if '.' !in filename then false
    else
      var ext := Extension(filename);
      if ext !in MriExtensions then false
      else if ext == "dcm" then
        match upload
        case None => false
        case Some(stream) =>
          var header := ReadHeader(stream);
          if EndsWithBytes(header, DicomMagic) then true
          else if |header| < 1024 then false
          else true
      else true
  }

  /** A well-formed DICOM part-10 file (preamble, `DICM`, then anything) is accepted. */
  lemma Part10Accepted(filename: string, preamble: seq<byte>, rest: seq<byte>)
    requires '.' in filename && Extension(filename) == "dcm"
    requires |preamble| == PreambleLength
    ensures MriAllowedFile(filename, Some(preamble + DicomMagic + rest))
  {
    var stream := preamble + DicomMagic + rest;
    assert ReadHeader(stream) == preamble + DicomMagic;
  }

  /** For a stream of at least 132 bytes, acceptance is exactly the PS3.10 prefix at offset 128. */
  lemma LongDicomRule(filename: string, stream: seq<byte>)
    requires '.' in filename && Extension(filename) == "dcm"
    requires |stream| >= HeaderLength
    ensures MriAllowedFile(filename, Some(stream)) <==> stream[PreambleLength..HeaderLength] == DicomMagic
  {
    assert ReadHeader(stream)[PreambleLength..] == stream[PreambleLength..HeaderLength];
  }

  /** Shorter streams are judged by their last four bytes, so a bare `DICM` is accepted,
      while the fallback for large headers can never be reached. */
  lemma ShortDicomRule(filename: string, stream: seq<byte>)
    requires '.' in filename && Extension(filename) == "dcm"
    requires |stream| < HeaderLength
    ensures MriAllowedFile(filename, Some(stream)) <==> EndsWithBytes(stream, DicomMagic)
    ensures MriAllowedFile(filename, Some(DicomMagic))
  {
  }
}
